=== FILE: README.md ===
# meveo core in Dafny

This project models six pieces of the meveo platform as pure Dafny functions over immutable datatypes and proves their properties:

- **The dynamic compiler.** This is `CharSequenceCompiler` with its file manager (`FileManagerImpl`), its class loader (`ClassLoaderImpl`) and its source file objects (`JavaFileObjectImpl`). A compile call is a state transition of a small record, `CompilerFacade.Facade`, which holds:
  - the option list;
  - the shared `URLClassLoader`;
  - the set of loaders closed so far.
- **The GraphQL schema generator of `GraphQLService`.** It covers:
  - the mapping of custom field templates to GraphQL fields;
  - the entity map and its merging `add`;
  - the construction of the entity map from entity and relationship templates (`getEntities`);
  - the schema text (`getIDL`);
  - the check for undeclared types (`validateIdl`).
- **`EntityCustomAction`.** The GUI position parser, the i18n label lookup, the null-safe i18n getter and `equals`.
- **`EntityCustomizationUtils.getEntityCode`.**
- **`TimerEntityDto`.** The defaults, the entity-to-DTO copy, `fromDTO` and `equals`.
- **`FunctionApi`.** The test-job code, the choice of the timer from the uploaded test suite, the create-or-update of the test job, and `find`.

## Modules

| file | module | models |
|---|---|---|
| results.dfy | `Results` | `Option` (Java null) and `Result` (a value or a thrown exception) |
| strings.dfy | `Strings` | the `String` operations the code uses:<br>- `indexOf`, `lastIndexOf`, `startsWith`;<br>- `split` on one character;<br>- `replace`;<br>- `StringUtils.isBlank` |
| compiler_java_files.dfy | `JavaFiles` | file objects, compilation units, `getBaseName` |
| compiler_file_store.dfy | `FileStore` | the `HashMap` of file objects the file manager and the class loader keep: `get`, `put` |
| compiler_file_manager.dfy | `FileManager` | `uri`, `putFileForInput`, `getFileForInput`, `list` |
| compiler_class_loader.dfy | `ClassLoading` | `add`, `files`, `findClass`, `getResourceAsStream` |
| compiler_facade.dfy | `CompilerFacade` | the constructor, both `compile` overloads, `castable`, `getCompiledClass` |
| graphql_model.dfy | `GraphQLModel` | fields, entities, field-set union, the name-ordered entity map and `add` |
| graphql_mapping.dfy | `GraphQLMapping` | `getGraphQLFields` |
| graphql_entities.dfy | `GraphQLEntities` | `getEntities` |
| graphql_idl.dfy | `GraphQLIdl` | `getIDL(entities)` |
| graphql_validate.dfy | `GraphQLValidate` | `validateIdl`, as written and corrected |
| entity_custom_action.dfy | `EntityCustomAction` | GUI position, labels, `equals` |
| entity_customization_utils.dfy | `EntityCustomizationUtils` | `getEntityCode` |
| timer_entity_dto.dfy | `TimerEntityDto` | defaults, copy, `fromDTO`, `equals` |
| function_api.dfy | `FunctionApi` | `getTestJobCode`, timer choice, job upsert, `find` |

The model has no Java `null` and no exceptions. Nullable values are `Option`, and every exception the code can throw on its inputs is a `Failure` carrying a description of the exception. Examples:
- the `NullPointerException` of a missing Neo4j configuration;
- the `ArrayIndexOutOfBoundsException` of a GUI position segment without `:`;
- the `ClassCastException` of `castable`.

None of them is a precondition.

### Inputs instead of services
Whatever the code obtains from outside is a parameter:
- **Compiler facade.** The Java compiler's verdict, the temporary directory, the classes directory and what a `URLClassLoader` loads.
- **Class loader.** The JVM's `defineClass`, `Class.forName`, the Maven class loader and the retry through the classes directory.
- **File manager.** The standard file manager's answers.
- **Labels.** `String.toUpperCase()` under the default locale, which depends on the locale and on Unicode case mapping.
- **GraphQL.** The template services, the CET descendance, the binary entity, the file label and the stored mutations' texts.
- **Functions.** The function store and the job and timer stores.

### Behaviour of the code worth knowing
- **Shared loader on a failed load.** `compile` closes the old shared loader before the new one has loaded anything (CharSequenceCompiler.java line 274). It then creates the new loader and loads the classes through it. So a class that fails to load leaves the old loader closed and the new one installed. `CompilerFacade.Compile` states exactly this.
- **Compiler option growth.** Every call with units appends `-sourcepath`, the source path, `-d` and the output directory to the options. It does so before the compiler runs, whatever the outcome, and never removes duplicates (`CompilerFacade.OptionsAccumulate`).
- **Temporary directory.** A test compile closes its temporary loader, but nothing removes the temporary directory.
- **Loading a batch.** When one class fails to load, `compile` returns no map. A production compile has by then written every class file and swapped the loader.

### Assumptions
- **Order of sets and maps.** A field set (a `TreeSet` ordered by `GraphQLField.compareTo`, which is not part of this model) is a duplicate-free sequence in insertion order.
- **Field identity.** A `TreeSet` treats two fields as the same when `compareTo` says they are equal. This model takes two fields to be the same exactly when all their attributes are equal; that is an assumption about `compareTo`, not only about order. The entity map (`TreeMap`) is a sequence ordered by name. Hash maps are association lists in insertion order.
- **TimerEntity defaults.** `org.meveo.model.jobs.TimerEntity` is not part of this model. A `new TimerEntity()` is taken to have every field null: no id, no code, no description and no schedule field set (`TimerEntityDto.NewTimerEntity`).
- **GraphQLField defaults.** A new `GraphQLField` is taken to have these defaults: not required, not multivalued, no query. The constructor is taken to be `(name, type, required)`.

## Model

| member | source | states |
|---|---|---|
| JavaFiles.BaseName | meveo-admin/src/main/java/org/meveo/service/script/CharSequenceCompiler.java:520-523 | The base name holds no dot and is a suffix of the qualified name. It is the whole name when there is no dot, and otherwise the character just before it is the last dot. |
| JavaFiles.BaseNameOfQualified | meveo-admin/src/main/java/org/meveo/service/script/CharSequenceCompiler.java:520-523 | For any package part and a simple name without dots, the base name of `package.simple` is the simple name. |
| JavaFiles.BaseNameIdempotent | meveo-admin/src/main/java/org/meveo/service/script/CharSequenceCompiler.java:520-523 | Taking the base name of a base name changes nothing. |
| JavaFiles.SourceFileName | meveo-admin/src/main/java/org/meveo/service/script/CharSequenceCompiler.java:514-516 | A unit's source file object is named by the base name of its class followed by `.java`; so the name ends in `.java` and nothing before that suffix contains a dot. |
| JavaFiles.SourceFileNameOfQualified | meveo-admin/src/main/java/org/meveo/service/script/CharSequenceCompiler.java:514-523 | A class `p.b` gets the source file name `b.java`: the package does not enter the file name. |
| FileManager.Uri | meveo-admin/src/main/java/org/meveo/service/script/CharSequenceCompiler.java:431-434 | The key is the location name, the package and the relative name, joined by two slashes. |
| FileManager.UriInjective | meveo-admin/src/main/java/org/meveo/service/script/CharSequenceCompiler.java:431-434 | When neither the location name nor the package holds a slash, two equal keys come from the same location name, package and relative name. |
| FileManager.UriParts | meveo-admin/src/main/java/org/meveo/service/script/CharSequenceCompiler.java:431-434 | The first slash of a key ends the location name. The next slash ends the package, and the relative name is the rest. |
| FileStore.Find | meveo-admin/src/main/java/org/meveo/service/script/CharSequenceCompiler.java:403-403 | A lookup answers a file exactly when some entry has the key, and the answered file is stored under that key. |
| FileStore.PutEntry | meveo-admin/src/main/java/org/meveo/service/script/CharSequenceCompiler.java:423-426 | A put stores the file under the key. Every other position keeps its entry, and at most one entry is added. |
| FileManager.GetFileForInput | meveo-admin/src/main/java/org/meveo/service/script/CharSequenceCompiler.java:402-408 | When the store holds a file under the location, package and relative name, `getFileForInput` returns that file; otherwise it answers exactly what the standard file manager answers. |
| FileManager.PutFileForInput | meveo-admin/src/main/java/org/meveo/service/script/CharSequenceCompiler.java:423-426 | `putFileForInput` makes the key of location, package and relative name find the file, leaves every other key's lookup unchanged, and keeps keys unique. |
| FileStore.PutFind | meveo-admin/src/main/java/org/meveo/service/script/CharSequenceCompiler.java:423-426 | After a put, the key finds the new file and every other key finds what it found before. |
| FileStore.PutKeysUnique | meveo-admin/src/main/java/org/meveo/service/script/CharSequenceCompiler.java:423-426 | A put keeps every key stored once. |
| FileStore.PutKeyOnce | meveo-admin/src/main/java/org/meveo/service/script/CharSequenceCompiler.java:423-426 | After a put, the put key sits at one position only. |
| FileStore.FindCons | meveo-admin/src/main/java/org/meveo/service/script/CharSequenceCompiler.java:403-403 | A lookup in a store with one more entry in front checks that entry first. |
| FileStore.FindOfKey | meveo-admin/src/main/java/org/meveo/service/script/CharSequenceCompiler.java:403-403 | In a store whose keys are unique, every entry is what a lookup of its key finds. |
| FileStore.PutFindAll | meveo-admin/src/main/java/org/meveo/service/script/CharSequenceCompiler.java:423-426 | After a put, for every key at once: the put key finds the new file and every other key what it found before. |
| FileManager.GetAfterPut | meveo-admin/src/main/java/org/meveo/service/script/CharSequenceCompiler.java:402-426 | After `putFileForInput(l, p, n, f)`, `getFileForInput(l, p, n)` returns `f` whatever the delegate holds, and keys stay unique. |
| FileManager.GetOtherAfterPut | meveo-admin/src/main/java/org/meveo/service/script/CharSequenceCompiler.java:402-426 | A put under one key leaves `getFileForInput` under every other key unchanged, including its fallback to the delegate. |
| FileManager.Matching | meveo-admin/src/main/java/org/meveo/service/script/CharSequenceCompiler.java:456-469 | The stored files that are listed are exactly those of the requested kind whose name starts with the package name. |
| FileManager.List | meveo-admin/src/main/java/org/meveo/service/script/CharSequenceCompiler.java:453-476 | The delegate's listing is always the tail of the result. A file is listed iff one of three holds:<br>- the delegate lists it;<br>- for CLASS_PATH with CLASS requested, it is a matching stored class file or one of the class loader's files (`files()`);<br>- for SOURCE_PATH with SOURCE requested, it is a matching stored source file. |
| FileManager.ListedAfterPut | meveo-admin/src/main/java/org/meveo/service/script/CharSequenceCompiler.java:453-476 | A file put for its own location is listed there, provided its kind is requested and its name starts with the package name. |
| FileManager.ListsAddedClass | meveo-admin/src/main/java/org/meveo/service/script/CharSequenceCompiler.java:453-476 | For CLASS_PATH with CLASS requested, a class the compiler added to the class loader is listed whatever package is asked for, and so is every file the loader held under another name (line 462). |
| ClassLoading.AddClass | meveo-admin/src/main/java/org/meveo/service/script/CharSequenceCompiler.java:654-656 | `add(name, file)` makes the name find the file, leaves every other name's lookup unchanged, and keeps names unique. |
| ClassLoading.AddClassFiles | meveo-admin/src/main/java/org/meveo/service/script/CharSequenceCompiler.java:602-604 | After `add(name, file)`, `files()` holds the added file and every file the loader held under another name. |
| ClassLoading.Fallback | meveo-admin/src/main/java/org/meveo/service/script/CharSequenceCompiler.java:630-643 | The runtime lookup, then Maven. The result fails iff both miss, and then with ClassNotFound for the name. |
| ClassLoading.FindClass | meveo-admin/src/main/java/org/meveo/service/script/CharSequenceCompiler.java:607-644 | `findClass` ends in one of four ways:<br>- NullPointer iff the stored file has no byte code;<br>- a linkage error iff `defineClass` rejects the stored bytes for a reason other than a missing class;<br>- ClassNotFound only when the runtime and Maven both miss;<br>- otherwise a class that comes from the store, the runtime or Maven. |
| ClassLoading.FallbackIsTail | meveo-admin/src/main/java/org/meveo/service/script/CharSequenceCompiler.java:630-643 | The runtime and Maven strategies, in this order, answer exactly as the fallback does. |
| ClassLoading.FindClassFollowsSearchOrder | meveo-admin/src/main/java/org/meveo/service/script/CharSequenceCompiler.java:607-644 | `findClass` equals an independent definition: the first decisive answer along in-memory map, classes-directory retry, host runtime and Maven. Misses are passed over, and the chain ends in ClassNotFound. |
| ClassLoading.NotHeldIsLookedUpOutside | meveo-admin/src/main/java/org/meveo/service/script/CharSequenceCompiler.java:607-644 | A name the loader does not hold resolves exactly as with an empty loader. |
| ClassLoading.AddedClassShadows | meveo-admin/src/main/java/org/meveo/service/script/CharSequenceCompiler.java:607-656 | A class added with byte code the JVM defines is found as that class, whatever the runtime or Maven hold under the same name. |
| ClassLoading.OtherAddKeepsFindClass | meveo-admin/src/main/java/org/meveo/service/script/CharSequenceCompiler.java:607-656 | Adding a class under another name does not change what a name resolves to. |
| ClassLoading.ResourceName | meveo-admin/src/main/java/org/meveo/service/script/CharSequenceCompiler.java:664-674 | The resource name of a class ends in `.class`. |
| ClassLoading.ResourceNameRoundTrip | meveo-admin/src/main/java/org/meveo/service/script/CharSequenceCompiler.java:664-674 | For a class name without slashes, stripping `.class` from its resource name and turning slashes into dots gives the class name back. |
| ClassLoading.GetResourceAsStream | meveo-admin/src/main/java/org/meveo/service/script/CharSequenceCompiler.java:664-674 | `getResourceAsStream` gives four outcomes:<br>- a non-`.class` name, or one the store does not hold, gets the parent's answer;<br>- a stored class with no byte code fails with NullPointer, and this is the only failure;<br>- a stored class with byte code yields that byte code;<br>- any answer other than the parent's is the stored byte code. |
| ClassLoading.ResourceOfAddedClass | meveo-admin/src/main/java/org/meveo/service/script/CharSequenceCompiler.java:654-674 | The resource of an added class with byte code yields that byte code. |
| ClassLoading.ResourceMatchesFindClass | meveo-admin/src/main/java/org/meveo/service/script/CharSequenceCompiler.java:607-674 | For a stored class, the resource fails iff `findClass` fails with NullPointer; otherwise the resource yields the bytes `findClass` defines from. |
| CompilerFacade.Create | meveo-admin/src/main/java/org/meveo/service/script/CharSequenceCompiler.java:145-156 | The constructor copies the given options, or none for null. The facade starts valid, with the given shared loader open. |
| CompilerFacade.LoadAll | meveo-admin/src/main/java/org/meveo/service/script/CharSequenceCompiler.java:263-279 | The load loop succeeds iff the loader finds every unit's class. The result keys are then exactly the unit class names, each mapped to what the loader loads. A miss fails with the unit names. |
| CompilerFacade.CompileOptions | meveo-admin/src/main/java/org/meveo/service/script/CharSequenceCompiler.java:240-245 | Each reached compile adds exactly four options, in this order: `-sourcepath`, the source path, `-d`, the output directory. |
| CompilerFacade.Compile | meveo-admin/src/main/java/org/meveo/service/script/CharSequenceCompiler.java:214-286 | Batch compile:<br>- A null or empty list returns an empty map and changes nothing.<br>- A failed temp directory fails before the options change.<br>- A reached call appends the four options whether or not it succeeds.<br>- A compiler failure names all units and leaves the shared and closed loaders alone.<br>- A test compile keeps the shared loader and closes its temporary one.<br>- A production compile closes the old shared loader and installs a new one over the classes directory.<br>- Once javac succeeds, the call succeeds iff every unit's class loads through the new loader; a load failure names all units.<br>- It never fails with a `ClassCastException`.<br>- On success, the keys are the unit names and each maps to the class the new loader gives.<br>- Validity is preserved. |
| CompilerFacade.GetCompiledClass | meveo-admin/src/main/java/org/meveo/service/script/CharSequenceCompiler.java:129-131 | `getCompiledClass` returns the class iff the shared loader loads it, and then exactly that class; otherwise it fails with ClassNotFound for the name. |
| CompilerFacade.TestCompileInvisible | meveo-admin/src/main/java/org/meveo/service/script/CharSequenceCompiler.java:266-272 | A test compile never changes what the shared loader serves. |
| CompilerFacade.ProductionCompileServes | meveo-admin/src/main/java/org/meveo/service/script/CharSequenceCompiler.java:273-279 | After a successful production compile, the shared loader serves every unit's class as the call returned it. |
| CompilerFacade.OptionsAccumulate | meveo-admin/src/main/java/org/meveo/service/script/CharSequenceCompiler.java:240-245 | Two reached compiles grow the options by eight, in call order, keeping the old options as a prefix. Nothing is de-duplicated. |
| CompilerFacade.Castable | meveo-admin/src/main/java/org/meveo/service/script/CharSequenceCompiler.java:319-326 | The class is returned iff it is assignable to every type, so zero types always succeed. Otherwise the error names the first type it is not assignable to. |
| CompilerFacade.CompileOne | meveo-admin/src/main/java/org/meveo/service/script/CharSequenceCompiler.java:185-198 | Single-unit compile:<br>- the state is that of the batch compile of the one unit;<br>- a batch failure passes through unchanged;<br>- after a batch success, the call succeeds iff the unit's class is assignable to every type, and then returns that class;<br>- otherwise the `ClassCastException` names the first type, in order, that the class is not assignable to. |
| GraphQLModel.AddField | meveo-admin/src/main/java/org/meveo/persistence/neo4j/service/graphql/GraphQLService.java:478-478 | `TreeSet.add` as set insertion: the set afterwards holds exactly the old fields and the new one, and a duplicate-free set stays duplicate-free. |
| GraphQLModel.UnionFields | meveo-admin/src/main/java/org/meveo/persistence/neo4j/service/graphql/GraphQLService.java:521-521 | `addAll` never moves or drops a field already in the set, adds every given field, and grows the set by at most the number of given fields. |
| GraphQLModel.UnionFieldsContents | meveo-admin/src/main/java/org/meveo/persistence/neo4j/service/graphql/GraphQLService.java:521-521 | `addAll` keeps the old fields in place and adds exactly the new ones, introducing no duplicate. |
| GraphQLModel.UnionFieldsIdempotent | meveo-admin/src/main/java/org/meveo/persistence/neo4j/service/graphql/GraphQLService.java:521-521 | Adding the same fields twice is adding them once. |
| GraphQLModel.UnionAllPresent | meveo-admin/src/main/java/org/meveo/persistence/neo4j/service/graphql/GraphQLService.java:521-521 | Adding fields already present changes nothing. |
| GraphQLModel.Lookup | meveo-admin/src/main/java/org/meveo/persistence/neo4j/service/graphql/GraphQLService.java:306-306 | `get` misses iff the name is absent, and otherwise answers the entity stored under that name. |
| GraphQLModel.SortedNamesDistinct | meveo-admin/src/main/java/org/meveo/persistence/neo4j/service/graphql/GraphQLService.java:200-200 | The map, ordered by name, holds each name once. |
| GraphQLModel.Add | meveo-admin/src/main/java/org/meveo/persistence/neo4j/service/graphql/GraphQLService.java:519-524 | `add` keeps the map ordered by name and adds exactly the entity's name. |
| GraphQLModel.AddLookup | meveo-admin/src/main/java/org/meveo/persistence/neo4j/service/graphql/GraphQLService.java:519-524 | After `add`, the entity's name holds the union of the old fields and the new ones; every other name is unchanged. |
| GraphQLModel.AddIdempotent | meveo-admin/src/main/java/org/meveo/persistence/neo4j/service/graphql/GraphQLService.java:519-524 | Adding an entity a second time changes no name and no lookup. |
| GraphQLIdl.FieldLine | meveo-admin/src/main/java/org/meveo/persistence/neo4j/service/graphql/GraphQLService.java:167-187 | A field line is tab-indented and ends the line: a tab, the field name and `: ` open it, a line end closes it. ScanOneLine states what `validateIdl` captures from it. |
| GraphQLIdl.EntityBlock | meveo-admin/src/main/java/org/meveo/persistence/neo4j/service/graphql/GraphQLService.java:160-192 | An entity writes nothing iff it has no fields. |
| GraphQLIdl.Idl | meveo-admin/src/main/java/org/meveo/persistence/neo4j/service/graphql/GraphQLService.java:154-197 | The schema starts with the two scalar declarations and ends with the mutation text. |
| GraphQLIdl.MutationsText | meveo-admin/src/main/java/org/meveo/persistence/neo4j/service/graphql/GraphQLService.java:483-516 | No stored mutation list writes nothing, and a stored list always writes something: the schema header followed by the opening of the `type Mutations` block. |
| GraphQLValidate.MatchAt | meveo-admin/src/main/java/org/meveo/persistence/neo4j/service/graphql/GraphQLService.java:528-533 | A match of the pattern starts at a tab and ends past it, within the text. |
| GraphQLValidate.MatchWalk | meveo-admin/src/main/java/org/meveo/persistence/neo4j/service/graphql/GraphQLService.java:528-528 | On a line holding a tab, a non-empty name, `: `, an optional `[`, a word-character type, an optional `]` and `!`, and a whitespace character, the pattern matches at the tab: it captures exactly the type, unless the lookahead excludes it, and ends past the whitespace. |
| GraphQLValidate.RunExcludes | meveo-admin/src/main/java/org/meveo/persistence/neo4j/service/graphql/GraphQLService.java:528-528 | The type-matching part of the pattern never captures a type its lookahead excludes. |
| GraphQLValidate.MatchExcludes | meveo-admin/src/main/java/org/meveo/persistence/neo4j/service/graphql/GraphQLService.java:528-528 | A match never captures a type its lookahead excludes. |
| GraphQLValidate.Scan | meveo-admin/src/main/java/org/meveo/persistence/neo4j/service/graphql/GraphQLService.java:528-535 | The loop over `m.find()`: no captured type is one the lookahead excludes (with the pattern as written, no type that starts with a built-in name). ScanRenderedIdl states what it captures from a rendered schema. |
| GraphQLValidate.Undeclared | meveo-admin/src/main/java/org/meveo/persistence/neo4j/service/graphql/GraphQLService.java:537-540 | A captured type is kept iff `"type " + name` does not occur in the schema. Captures are kept in order. |
| GraphQLValidate.BuiltinStartsWithBuiltin | meveo-admin/src/main/java/org/meveo/persistence/neo4j/service/graphql/GraphQLService.java:528-528 | Every built-in scalar begins with a built-in name, so the lookahead as written excludes at least the built-ins. |
| GraphQLValidate.ValidateIdl | meveo-admin/src/main/java/org/meveo/persistence/neo4j/service/graphql/GraphQLService.java:526-543 | No reported type is a built-in scalar, begins with one, or is declared. |
| GraphQLValidate.ValidateIdlCorrected | meveo-admin/src/main/java/org/meveo/persistence/neo4j/service/graphql/GraphQLService.java:526-543 | With the lookahead testing for a whole built-in name, no reported type is a built-in scalar or declared. |
| GraphQLValidate.ScanOneLine | meveo-admin/src/main/java/org/meveo/persistence/neo4j/service/graphql/GraphQLService.java:168-187 | Scanning a single rendered field line yields exactly that field's captured type, if any. |
| GraphQLValidate.ScanRenderedIdl | meveo-admin/src/main/java/org/meveo/persistence/neo4j/service/graphql/GraphQLService.java:154-197 | On a schema rendered from well-formed entities and any mutation text, the scan captures field by field, in rendering order, every type the guard does not exclude, followed by exactly what the mutation text captures on its own. |
| GraphQLValidate.ValidateRenderedIdl | meveo-admin/src/main/java/org/meveo/persistence/neo4j/service/graphql/GraphQLService.java:526-543 | `validateIdl(getIDL(entities))` with any mutation text reports exactly: the referenced undeclared types, in order, that do not begin with a built-in name, then the undeclared captures of the mutation text. |
| GraphQLValidate.ValidateCorrectedRenderedIdl | meveo-admin/src/main/java/org/meveo/persistence/neo4j/service/graphql/GraphQLService.java:526-543 | With any mutation text, the corrected validator reports exactly: the referenced undeclared types, in order, that are not built-in scalars, then the undeclared captures of the mutation text. |
| GraphQLValidate.ScanSuffix | meveo-admin/src/main/java/org/meveo/persistence/neo4j/service/graphql/GraphQLService.java:533-533 | `m.find()` reads forward only: scanning a text from a position finds what scanning the part of the text from there on finds, whatever precedes it. |
| GraphQLValidate.SchemaHeaderScan | meveo-admin/src/main/java/org/meveo/persistence/neo4j/service/graphql/GraphQLService.java:502-502 | The schema header that `getMutations` writes yields exactly one capture, `Mutations`, under either guard. |
| GraphQLValidate.DeclaredNotReported | meveo-admin/src/main/java/org/meveo/persistence/neo4j/service/graphql/GraphQLService.java:537-540 | A type whose `type ` declaration occurs in the schema is reported by neither check. |
| GraphQLValidate.MutationsDeclared | meveo-admin/src/main/java/org/meveo/persistence/neo4j/service/graphql/GraphQLService.java:483-516 | With at least one stored mutation list, the mutation text captures `Mutations` first and the schema declares `Mutations`, so that capture is never reported, by either check. |
| GraphQLValidate.HolderLine | meveo-admin/src/main/java/org/meveo/persistence/neo4j/service/graphql/GraphQLService.java:168-187 | The field `x: StringHolder` is well formed and renders as `\tx: StringHolder\n`. |
| GraphQLValidate.HolderStartsWithBuiltin | meveo-admin/src/main/java/org/meveo/persistence/neo4j/service/graphql/GraphQLService.java:528-528 | `StringHolder` begins with a built-in name without being one. |
| GraphQLValidate.HolderNotDeclared | meveo-admin/src/main/java/org/meveo/persistence/neo4j/service/graphql/GraphQLService.java:537-537 | The one-line schema does not declare `StringHolder`. |
| GraphQLValidate.PrefixedTypeMissed | meveo-admin/src/main/java/org/meveo/persistence/neo4j/service/graphql/GraphQLService.java:528-540 | On `\tx: StringHolder\n` the validator as written reports nothing, while the corrected one reports `StringHolder`. |
| GraphQLMapping.ScalarName | meveo-admin/src/main/java/org/meveo/persistence/neo4j/service/graphql/GraphQLService.java:436-475 | A non-relational type maps to a built-in scalar other than `ID`:<br>- `GraphQLLong` iff LONG or DATE;<br>- `GraphQLBigDecimal` iff DOUBLE;<br>- `Boolean` iff BOOLEAN;<br>- `String` otherwise. |
| GraphQLMapping.FieldOf | meveo-admin/src/main/java/org/meveo/persistence/neo4j/service/graphql/GraphQLService.java:418-478 | A template gives a field iff it is stored in Neo4j and is an identifier, non-relational, or has a non-blank relationship name. The field has these parts:<br>- the name is the template code;<br>- an identifier is a required, single-valued `ID`;<br>- otherwise it keeps list storage and required flag, with scalar type or `@relation` query per field type. |
| GraphQLMapping.GraphQLFields | meveo-admin/src/main/java/org/meveo/persistence/neo4j/service/graphql/GraphQLService.java:416-481 | `getGraphQLFields` gives a field set with no duplicate that holds a field iff some template maps to it. |
| GraphQLMapping.SkippedAddsNothing | meveo-admin/src/main/java/org/meveo/persistence/neo4j/service/graphql/GraphQLService.java:420-461 | A template not in Neo4j, or a relational one with a blank relationship name, adds nothing to the field set. |
| GraphQLMapping.ScalarFieldNotReported | meveo-admin/src/main/java/org/meveo/persistence/neo4j/service/graphql/GraphQLService.java:428-446 | The type of an identifier or non-relational field is never reported by the validator, as written or corrected. |
| GraphQLEntities.AddGrows | meveo-admin/src/main/java/org/meveo/persistence/neo4j/service/graphql/GraphQLService.java:519-524 | `add` loses no field of any entity, and the entity's name then holds all of its fields. |
| GraphQLEntities.ValueType | meveo-admin/src/main/java/org/meveo/persistence/neo4j/service/graphql/GraphQLService.java:238-249 | The `value` type is a built-in scalar, never `ID` or `Boolean`. It is `GraphQLLong` iff LONG or DATE, and null iff the primitive type is not one the switch names. |
| GraphQLEntities.CetFields | meveo-admin/src/main/java/org/meveo/persistence/neo4j/service/graphql/GraphQLService.java:213-258 | A CET's field set:<br>- It fails only with NullPointer, and only for a CET stored in Neo4j; a missing Neo4j configuration fails.<br>- On success it is duplicate-free and holds `meveo_uuid` and all mapped CFT fields.<br>- A CET not in Neo4j gets exactly those fields.<br>- A CET in Neo4j also gets its query fields, and a `value` field when it is primitive. |
| GraphQLEntities.AddCets | meveo-admin/src/main/java/org/meveo/persistence/neo4j/service/graphql/GraphQLService.java:211-260 | The CET pass keeps the map ordered and adds exactly the CET codes. It fails only with NullPointer. |
| GraphQLEntities.AddCetsHas | meveo-admin/src/main/java/org/meveo/persistence/neo4j/service/graphql/GraphQLService.java:211-260 | The CET pass loses nothing, and each CET's code holds each field of its field set. |
| GraphQLEntities.AddCetsFails | meveo-admin/src/main/java/org/meveo/persistence/neo4j/service/graphql/GraphQLService.java:211-260 | The CET pass fails iff some CET's field set fails. |
| GraphQLEntities.RelationFields | meveo-admin/src/main/java/org/meveo/persistence/neo4j/service/graphql/GraphQLService.java:286-298 | A relationship type holds `to`, `from` and every field its CFTs give. |
| GraphQLEntities.EntityRefs | meveo-admin/src/main/java/org/meveo/persistence/neo4j/service/graphql/GraphQLService.java:309-323 | The entity-reference scan fails with NullPointer iff some entity CFT has a null target code. On success it holds exactly the references from the start to the end node through this relationship. |
| GraphQLEntities.SourceFields | meveo-admin/src/main/java/org/meveo/persistence/neo4j/service/graphql/GraphQLService.java:309-361 | The source fields fail exactly when the entity-reference scan does. |
| GraphQLEntities.InjectFields | meveo-admin/src/main/java/org/meveo/persistence/neo4j/service/graphql/GraphQLService.java:303-407 | Injection keeps the map ordered with the same names, and fails only with NullPointer. |
| GraphQLEntities.InjectKeepsNames | meveo-admin/src/main/java/org/meveo/persistence/neo4j/service/graphql/GraphQLService.java:322-322 | Adding fields to an entity already in the map adds no name. |
| GraphQLEntities.InjectFieldsHas | meveo-admin/src/main/java/org/meveo/persistence/neo4j/service/graphql/GraphQLService.java:303-407 | Injection fails iff there is a field to add and some descendant code has no entity. Otherwise it loses nothing, and every descendant holds every injected field. |
| GraphQLEntities.CetByCode | meveo-admin/src/main/java/org/meveo/persistence/neo4j/service/graphql/GraphQLService.java:303-303 | `cetsByName.get` misses iff no CET has the code, and otherwise answers a CET with that code. |
| GraphQLEntities.InjectSources | meveo-admin/src/main/java/org/meveo/persistence/neo4j/service/graphql/GraphQLService.java:303-362 | Source injection keeps the map ordered with the same names, and fails only with NullPointer. |
| GraphQLEntities.InjectSourcesHas | meveo-admin/src/main/java/org/meveo/persistence/neo4j/service/graphql/GraphQLService.java:303-362 | Source injection loses nothing, and every descendant of the start node holds every source field. |
| GraphQLEntities.RelationStep | meveo-admin/src/main/java/org/meveo/persistence/neo4j/service/graphql/GraphQLService.java:265-409 | One relationship step keeps the map ordered and adds its type name iff included. It fails only with NullPointer, and only when included. |
| GraphQLEntities.RelationStepHas | meveo-admin/src/main/java/org/meveo/persistence/neo4j/service/graphql/GraphQLService.java:265-409 | A relationship step loses nothing. An included relationship's type then holds `to`, `from` and its CFT fields. |
| GraphQLEntities.RelationStepInjects | meveo-admin/src/main/java/org/meveo/persistence/neo4j/service/graphql/GraphQLService.java:302-407 | After an included relationship's step, every descendant of its start node holds the source fields and every descendant of its end node the target fields. |
| GraphQLEntities.AddRelations | meveo-admin/src/main/java/org/meveo/persistence/neo4j/service/graphql/GraphQLService.java:265-411 | The relationship pass keeps the map ordered and adds exactly the included type names. It fails only with NullPointer. |
| GraphQLEntities.AddRelationsGrows | meveo-admin/src/main/java/org/meveo/persistence/neo4j/service/graphql/GraphQLService.java:265-411 | The relationship pass loses no field of any entity. |
| GraphQLEntities.AddRelationsTypes | meveo-admin/src/main/java/org/meveo/persistence/neo4j/service/graphql/GraphQLService.java:265-411 | After the relationship pass, every included relationship's type holds its own fields. |
| GraphQLEntities.FirstTypeKept | meveo-admin/src/main/java/org/meveo/persistence/neo4j/service/graphql/GraphQLService.java:265-411 | The first relationship's type keeps its fields through the rest of the pass. |
| GraphQLEntities.SkippedRelation | meveo-admin/src/main/java/org/meveo/persistence/neo4j/service/graphql/GraphQLService.java:270-277 | A relationship not stored in Neo4j on all three sides changes nothing in the pass. |
| GraphQLEntities.GetEntities | meveo-admin/src/main/java/org/meveo/persistence/neo4j/service/graphql/GraphQLService.java:199-414 | `getEntities` fails with a duplicate key iff two CETs share a code. On success the map is ordered and holds exactly the binary entity, the CET codes and the included relationship types. |
| GraphQLEntities.GetEntitiesHas | meveo-admin/src/main/java/org/meveo/persistence/neo4j/service/graphql/GraphQLService.java:199-414 | In the finished map every CET holds its whole field set, `meveo_uuid` included, and every included relationship type holds its own fields. |
| EntityCustomAction.SegmentEntries | meveo-model/src/main/java/org/meveo/model/crm/custom/EntityCustomAction.java:210-219 | A segment fails iff it has no parts, or it is not an action segment and has fewer than two parts. A `tag:name[:pos]` segment puts `tag_name`, and `tag_pos` iff it has three parts. An action segment puts `action_pos` iff it has exactly two parts. |
| EntityCustomAction.ParseSegments | meveo-model/src/main/java/org/meveo/model/crm/custom/EntityCustomAction.java:206-222 | The loop over segments fails only with an index out of bounds, and every key already parsed stays present: a `put` never removes a key. |
| EntityCustomAction.ParseFailsIffBadSegment | meveo-model/src/main/java/org/meveo/model/crm/custom/EntityCustomAction.java:206-222 | Parsing fails iff some segment is malformed, whatever came before. |
| EntityCustomAction.GuiPositionParsed | meveo-model/src/main/java/org/meveo/model/crm/custom/EntityCustomAction.java:200-223 | A null position parses to null, not an empty map; otherwise to the left-to-right parse of its `;` segments. |
| EntityCustomAction.ParseSnoc | meveo-model/src/main/java/org/meveo/model/crm/custom/EntityCustomAction.java:208-220 | One more segment is applied after the others with `put`, so it overrides earlier keys. |
| EntityCustomAction.SegmentRoundTrip | meveo-model/src/main/java/org/meveo/model/crm/custom/EntityCustomAction.java:210-219 | A well-formed placement's segment parses to exactly its intended keys. |
| EntityCustomAction.ParseFormatted | meveo-model/src/main/java/org/meveo/model/crm/custom/EntityCustomAction.java:206-222 | Parsing formatted placements gives their intended keys, later ones overriding earlier ones. |
| EntityCustomAction.SegmentShape | meveo-model/src/main/java/org/meveo/model/crm/custom/EntityCustomAction.java:208-211 | A well-formed placement's segment is non-empty and has no `;`. |
| EntityCustomAction.GuiPositionRoundTrip | meveo-model/src/main/java/org/meveo/model/crm/custom/EntityCustomAction.java:200-223 | Writing placements in the documented format and parsing the string gives the intended map. |
| EntityCustomAction.MissingNameFails | meveo-model/src/main/java/org/meveo/model/crm/custom/EntityCustomAction.java:211-213 | A segment naming a container with no name is an error, and so is the position string containing it. |
| EntityCustomAction.GetLabel | meveo-model/src/main/java/org/meveo/model/crm/custom/EntityCustomAction.java:246-258 | With the upper-casing of the default locale as a parameter: the label is the i18n value (possibly null) under the upper-cased language when that key is present, and otherwise the default label, also for a null language or a null or empty map. |
| EntityCustomAction.GetLabelCaseInsensitive | meveo-model/src/main/java/org/meveo/model/crm/custom/EntityCustomAction.java:246-258 | For a language whose upper-cased form upper-cases to itself, the language and its upper-cased form show the same label. |
| EntityCustomAction.UnreachableKeyNeverRead | meveo-model/src/main/java/org/meveo/model/crm/custom/EntityCustomAction.java:246-258 | A key that is no language's upper-cased form, such as a lower-case key under an upper-casing that never yields one, is never read: the label shown is the default one or the value under another key. |
| EntityCustomAction.LabelI18nNullSafe | meveo-model/src/main/java/org/meveo/model/crm/custom/EntityCustomAction.java:239-244 | The returned map is the action's map afterwards. An existing map is returned unchanged; a null map becomes an empty one. |
| EntityCustomAction.NullSafeKeepsLabels | meveo-model/src/main/java/org/meveo/model/crm/custom/EntityCustomAction.java:239-258 | Instantiating the map never changes a label, under any upper-casing, and doing it twice is doing it once. |
| EntityCustomAction.Equals | meveo-model/src/main/java/org/meveo/model/crm/custom/EntityCustomAction.java:159-185 | `equals` fails only with a NullPointerException. Whenever it returns, it is true iff the other object is an action with matching ids, or else with equal code and appliesTo. |
| EntityCustomAction.EqualsMeansSameAction | meveo-model/src/main/java/org/meveo/model/crm/custom/EntityCustomAction.java:159-185 | `equals` on another object:<br>- whenever it returns, it holds iff the ids decide or code and appliesTo are equal;<br>- it throws iff the ids do not decide and a null code or appliesTo is compared;<br>- it is false for null. |
| EntityCustomAction.EqualsSymmetric | meveo-model/src/main/java/org/meveo/model/crm/custom/EntityCustomAction.java:159-185 | Whenever both directions return, `equals` is symmetric. |
| EntityCustomizationUtils.GetEntityCode | meveo-admin/src/main/java/org/meveo/util/EntityCustomizationUtils.java:50-61 | Null gives null. A code is returned iff there is an underscore and it is not the first character. The code is everything after the first underscore. |
| EntityCustomizationUtils.EntityCodeRoundTrip | meveo-admin/src/main/java/org/meveo/util/EntityCustomizationUtils.java:55-57 | For a non-empty prefix without `_`, the entity code of `prefix_code` is `code`, whatever the code contains. |
| EntityCustomizationUtils.EntityCodeDecomposition | meveo-admin/src/main/java/org/meveo/util/EntityCustomizationUtils.java:55-57 | Every extracted code comes from a non-empty, underscore-free prefix, an underscore and the code. |
| TimerEntityDto.NewTimerEntity | meveo-api-dto/src/main/java/org/meveo/api/dto/job/TimerEntityDto.java:106-106 | Under the assumed `TimerEntity` defaults (see Assumptions), a fresh timer entity has no identity, and its code, description and eight schedule fields are all null. |
| TimerEntityDto.DefaultSchedule | meveo-api-dto/src/main/java/org/meveo/api/dto/job/TimerEntityDto.java:36-71 | The defaults are hour `*`, minute `0`, second `0`, year, month, day of month and day of week `*`, and a null timezone. |
| TimerEntityDto.NewDto | meveo-api-dto/src/main/java/org/meveo/api/dto/job/TimerEntityDto.java:76-78 | A fresh DTO carries the default schedule and null code, updated code and description. |
| TimerEntityDto.ToDto | meveo-api-dto/src/main/java/org/meveo/api/dto/job/TimerEntityDto.java:85-96 | The DTO copies code, description and the eight schedule fields, with no rename requested. |
| TimerEntityDto.FromDto | meveo-api-dto/src/main/java/org/meveo/api/dto/job/TimerEntityDto.java:105-123 | `fromDTO` writes the selected code, the description and the schedule. It keeps the target's identity, or gives none for a fresh entity. |
| TimerEntityDto.FreshDtoSchedule | meveo-api-dto/src/main/java/org/meveo/api/dto/job/TimerEntityDto.java:36-123 | A fresh DTO becomes an entity with the default hour, minute and second, and no code. |
| TimerEntityDto.RoundTripInPlace | meveo-api-dto/src/main/java/org/meveo/api/dto/job/TimerEntityDto.java:85-123 | Entity to DTO and back onto the same entity changes nothing. |
| TimerEntityDto.RoundTripFresh | meveo-api-dto/src/main/java/org/meveo/api/dto/job/TimerEntityDto.java:85-123 | Entity to DTO and back into a fresh entity preserves everything but the identity. |
| TimerEntityDto.DtoRoundTrip | meveo-api-dto/src/main/java/org/meveo/api/dto/job/TimerEntityDto.java:85-123 | DTO to entity and back keeps schedule and description, and applies the requested rename. |
| TimerEntityDto.DtoEquals | meveo-api-dto/src/main/java/org/meveo/api/dto/job/TimerEntityDto.java:270-291 | `equals` holds iff the other object is a DTO with the same code, null matching null. |
| TimerEntityDto.DtoEqualsIsCodeEquality | meveo-api-dto/src/main/java/org/meveo/api/dto/job/TimerEntityDto.java:270-291 | `equals` holds iff the codes are equal, null equal to null. It is an equivalence and false for null. |
| FunctionApi.TestJobCode | meveo-api/src/main/java/org/meveo/api/function/FunctionApi.java:170-172 | The job code is `FunctionTestJob_` followed by the function code. |
| FunctionApi.TestJobCodeInjective | meveo-api/src/main/java/org/meveo/api/function/FunctionApi.java:170-172 | Distinct functions never share a test job. |
| FunctionApi.TestJobCodeEntityCode | meveo-api/src/main/java/org/meveo/api/function/FunctionApi.java:170-172 | The function code is the entity code of its job code. |
| FunctionApi.FirstMatchUnique | meveo-api/src/main/java/org/meveo/api/function/FunctionApi.java:139-140 | The periodicity pattern has at most one first match. |
| FunctionApi.LineEnd | meveo-api/src/main/java/org/meveo/api/function/FunctionApi.java:139-139 | The line end found is the first line terminator at or after the start, or the end of the text. |
| FunctionApi.LastCloseIn | meveo-api/src/main/java/org/meveo/api/function/FunctionApi.java:139-139 | The closing tag found is the last one in the range, and there is none after it. |
| FunctionApi.CloseBeforeLineEnd | meveo-api/src/main/java/org/meveo/api/function/FunctionApi.java:139-139 | A closing tag reachable by `.*` lies wholly before the line end. |
| FunctionApi.GroupEnd | meveo-api/src/main/java/org/meveo/api/function/FunctionApi.java:139-140 | The greedy group end is a closing tag that no later reachable one follows. It is absent iff nothing matches at that start. |
| FunctionApi.FindFrom | meveo-api/src/main/java/org/meveo/api/function/FunctionApi.java:139-140 | The match start found is the first position at or after `from` where the pattern matches, or there is none. |
| FunctionApi.NoMatchInExtend | meveo-api/src/main/java/org/meveo/api/function/FunctionApi.java:139-140 | A search range extends downward past a position where nothing matches. |
| FunctionApi.Periodicity | meveo-api/src/main/java/org/meveo/api/function/FunctionApi.java:139-141 | The group is absent iff the pattern matches nowhere. Otherwise it is the text from the end of the first match's opening tag to its greedy end. |
| FunctionApi.OpenTagNoSelfOverlap | meveo-api/src/main/java/org/meveo/api/function/FunctionApi.java:139-139 | Two occurrences of the opening tag cannot overlap. |
| FunctionApi.CloseTagNoSelfOverlap | meveo-api/src/main/java/org/meveo/api/function/FunctionApi.java:139-139 | Two occurrences of the closing tag cannot overlap. |
| FunctionApi.NoEarlierOpen | meveo-api/src/main/java/org/meveo/api/function/FunctionApi.java:139-140 | Nothing before the property can start a match. |
| FunctionApi.NoLaterClose | meveo-api/src/main/java/org/meveo/api/function/FunctionApi.java:139-140 | No closing tag reachable from the property's value lies past its own. |
| FunctionApi.PeriodicityOfProperty | meveo-api/src/main/java/org/meveo/api/function/FunctionApi.java:139-144 | A suite whose periodicity property ends its line, with no opening tag before it, runs on the timer its value names. |
| FunctionApi.FindTimer | meveo-api/src/main/java/org/meveo/api/function/FunctionApi.java:141-143 | `findByCode` on timers gives null iff no timer has the code; when every timer is stored under its own code, the timer found carries the code asked for. |
| FunctionApi.ScheduleTest | meveo-api/src/main/java/org/meveo/api/function/FunctionApi.java:131-162 | `updateTest` job scheduling:<br>- Timers are untouched, and only the test job's entry changes.<br>- The test job gets the chosen timer.<br>- A missing job is created with category TEST, template, code, parameters and timer.<br>- An existing job keeps everything but its timer and is updated and rescheduled. |
| FunctionApi.ScheduleTestIdempotent | meveo-api/src/main/java/org/meveo/api/function/FunctionApi.java:131-162 | Uploading the same test suite twice leaves the same jobs as once. |
| FunctionApi.Find | meveo-api/src/main/java/org/meveo/api/function/FunctionApi.java:77-92 | `find` gives null iff the code is unknown. Otherwise it returns the function's code, test suite, inputs and outputs. |
| FunctionApi.FindLosesNothing | meveo-api/src/main/java/org/meveo/api/function/FunctionApi.java:77-92 | The DTO `find` returns for a known code rebuilds the stored function field by field. |
| FunctionApi.FindAfterStore | meveo-api/src/main/java/org/meveo/api/function/FunctionApi.java:77-92 | Storing a function under a code makes `find` return its DTO for that code and changes nothing for other codes. |

## Left out

- **Compiler internals.** The system Java compiler, diagnostics, `mkdirs`, URL conversion and the static initialiser that builds the first shared loader from the class path. These are outside the model's reach; their outcomes are parameters.
- **Concurrency.** `synchronized` and thread safety. Calls are modelled one after another.
- **Shared loader across instances.** `urlClassLoader` is a `static` field (CharSequenceCompiler.java lines 129-131), shared by every compiler instance. The model keeps it in one `CompilerFacade.Facade` value, so a compile on one instance is not seen by another instance's value.
- FileManager.Uri: `toURI` throws a `RuntimeException` for a text that is not a valid URI (a space in the relative name, say), and the stored files are keyed by `java.net.URI`, whose equality treats some escapes alike (`%2f` and `%2F`). The model keys by the plain text, never fails and compares keys as strings.
- **Other compiler members.** `loadClass` (instance and protected), `getClassLoader`, `getUrlClassLoader`, `inferBinaryName` and `JavaFileObjectImpl`'s streams. These are plain delegations, not part of the modelled rules.
- ClassLoading.FindClass: these details are not modelled:
  - an exception other than `ClassNotFoundException` from `Class.forName` or the Maven class loader;
  - a failure to close the retry loader;
  - the log line.

  The lookups are total functions returning a class or nothing.
- ClassLoading.GetResourceAsStream: the `ClassCastException` of a stored file that is not a `JavaFileObjectImpl` is not modelled. Every stored file is one.
- CompilerFacade.Compile: these are not modelled:
  - the `IOException` of closing a loader;
  - deleting the temporary directory, which the code never does;
  - the unchecked cast of a loaded class.
- **Mutations text.** The native query and the JSON parsing of `getMutations` are left out: the stored lists arrive as lists of `Mutation.toString()` texts (`GraphQLIdl.MutationsText`), and `Mutation` is not part of this model. What the scan captures from the mutation lines depends on those texts, so the model states it as the scan of the mutation text (`GraphQLValidate.ValidateRenderedIdl`); only the header's capture, `Mutations`, is worked out.
- **Binary entity.** `getEntities` adds `Neo4JConstants.BINARY_ENTITY` through `add`, which mutates that static entity's field set across calls. The model adds the entity afresh on each call.
- GraphQLEntities.GetEntities: the order in which CETs are visited is the given list order. The source iterates a `HashMap`, and its order matters only for the field order inside a field set.
- **Field order and identity.** `GraphQLField.compareTo` is not part of this model. Field sets keep insertion order, so the order of field lines within a type block is not the source's. They drop a field only when an equal one (all attributes equal) is present, where the `TreeSet` drops one that `compareTo` ranks equal; the two agree only if `compareTo` compares every attribute.
- **Other `GraphQLService` members.** `updateIDL`, `executeGraphQLRequest` and the public `getIDL()` wrapper are service calls around the modelled functions.
- **Other `FunctionApi` members.** File reading in `updateTest` and the stored test suite are left out; the suite text is a parameter. Also left out are `startJob`, `execute`, `getSamples`, `list` and `getTest`, which are delegations to other services.
- **Other `EntityCustomizationUtils` members.** `getAppliesTo` uses reflection and annotations. `validateOntologyCode` uses a configured regular expression.
- **Other `TimerEntityDto` and `EntityCustomAction` members.** Plain accessors and `toString`.

## Findings

| source | as written | input that shows it | evidently intended | confidence | as-written member | corrected member |
|---|---|---|---|---|---|---|
| meveo-admin/src/main/java/org/meveo/persistence/neo4j/service/graphql/GraphQLService.java:528 | The lookahead `(?!(?:String\|Boolean\|GraphQLLong\|ID\|GraphQLBigDecimal)!?)` rejects every type that merely begins with a built-in scalar name, so an undeclared `StringHolder`, `IDCard` or `Booleans` is never reported | the schema `"\tx: StringHolder\n"`, which does not declare `StringHolder` | report every referenced undeclared type that is not itself a built-in scalar | not executed | `GraphQLValidate.PrefixedTypeMissed` (and `GraphQLValidate.ValidateIdl`) | `GraphQLValidate.ValidateIdlCorrected` (`GraphQLValidate.ValidateCorrectedRenderedIdl`) |

=== FILE: compiler_class_loader.dfy ===
/** `ClassLoaderImpl`: the class loader of the dynamic compiler. It maps class
    names to the class file objects the compiler wrote, defines a class from
    the stored byte code, and otherwise looks the name up in the compiled
    classes directory (only after a failed definition), in the host runtime
    and in the Maven dependencies, in that order.

    The JVM's `defineClass`, the classes-directory loader, `Class.forName` and
    the Maven class loader are parameters (`Resolvers`); their side effects
    (logging, opening and closing the directory loader) are not modelled. */
module ClassLoading {
  import opened Results
  import opened Strings
  import opened JavaFiles
  import opened FileStore

  /** A loaded class; `id` tells apart classes of the same name defined by
      different loaders. */
  datatype ClassRef = ClassRef(name: string, id: nat)

  /** The outcome of `defineClass` on stored byte code. */
  datatype Define = Defined(c: ClassRef) | NoClassDefFound | LinkageFailure

  /** What `findClass` and `getResourceAsStream` throw: `ClassNotFoundException`
      from the final `super.findClass`, the `NullPointerException` of a stored
      file whose byte code was never written, and any other linkage error of
      `defineClass`, which is not caught. */
  datatype LoadError = ClassNotFound(name: string) | NullPointer | Linkage

  /** The lookups `findClass` delegates to. */
  datatype Resolvers = Resolvers(
    define: (string, seq<bv8>) -> Define,
    classesDir: string -> Option<ClassRef>,
    runtime: string -> Option<ClassRef>,
    maven: string -> Option<ClassRef>)

  /** `add(qualifiedClassName, javaFile)`: the classes map is a store keyed by
      class name. */
  function AddClass(classes: Store, name: string, f: JavaFile): (r: Store)
    ensures Find(r, name) == Some(f)
    ensures forall k :: k != name ==> Find(r, k) == Find(classes, k)
    ensures KeysUnique(classes) ==> KeysUnique(r)
  {
    PutFindAll(classes.entries, name, f);
    var r := Store(PutEntry(classes.entries, name, f));
    if KeysUnique(classes) then (PutKeysUnique(classes.entries, name, f); r) else r
  }

  /** `files()`: the stored file objects. */
  function Files(classes: Store): (r: seq<JavaFile>)
    ensures |r| == |classes.entries|
    ensures forall i :: 0 <= i < |r| ==> r[i] == classes.entries[i].1
  {
    seq(|classes.entries|, i requires 0 <= i < |classes.entries| => classes.entries[i].1)
  }

  /** After `add(name, file)` the loader's files hold the added file and every
      file stored under another name. */
  lemma AddClassFiles(classes: Store, name: string, f: JavaFile)
    requires KeysUnique(classes)
    ensures f in Files(AddClass(classes, name, f))
    ensures forall i :: 0 <= i < |classes.entries| && classes.entries[i].0 != name ==>
              classes.entries[i].1 in Files(AddClass(classes, name, f))
  {
    var es := PutEntry(classes.entries, name, f);
    var r := Files(Store(es));
    var j :| 0 <= j < |es| && es[j] == (name, f);
    assert r[j] == f;
    forall i | 0 <= i < |classes.entries| && classes.entries[i].0 != name
      ensures classes.entries[i].1 in r
    {
      var e := classes.entries[i];
      PutFind(classes.entries, name, f, e.0);
      FindOfKey(classes.entries, i);
      var o := Find(Store(es), e.0);
      var m :| 0 <= m < |es| && es[m] == (e.0, o.value);
      assert r[m] == e.1;
    }
  }

  /** The stored file's byte code could not be defined for lack of a class it
      refers to: the only case in which the classes directory is tried. */
  predicate DefineMissedDependency(classes: Store, name: string, rs: Resolvers) {
    var o := Find(classes, name);
    o.Some? && o.value.byteCode.Some? && rs.define(name, o.value.byteCode.value) == NoClassDefFound
  }

  /** The lookups after the stored classes: the host runtime, then the Maven
      dependencies, then the `ClassNotFoundException` of `super.findClass`. */
  function Fallback(name: string, rs: Resolvers): (r: Result<ClassRef, LoadError>)
    ensures r.Failure? <==> rs.runtime(name).None? && rs.maven(name).None?
    ensures r.Failure? ==> r.error == ClassNotFound(name)
  {
    match rs.runtime(name)
    case Some(c) => Success(c)
    case None =>
      match rs.maven(name)
      case Some(c) => Success(c)
      case None => Failure(ClassNotFound(name))
  }

  /** `findClass(qualifiedClassName)`. */
  function FindClass(classes: Store, name: string, rs: Resolvers): (r: Result<ClassRef, LoadError>)
    ensures r == Failure(NullPointer) <==>
              Find(classes, name).Some? && Find(classes, name).value.byteCode.None?
    ensures r == Failure(Linkage) <==>
              var o := Find(classes, name);
              o.Some? && o.value.byteCode.Some? && rs.define(name, o.value.byteCode.value) == LinkageFailure
    ensures r.Failure? && r.error.ClassNotFound? ==>
              r.error.name == name && rs.runtime(name).None? && rs.maven(name).None?
    ensures r.Success? ==>
              Find(classes, name).Some? || rs.runtime(name) == Some(r.value) || rs.maven(name) == Some(r.value)
  {
    match Find(classes, name)
    case None => Fallback(name, rs)
    case Some(f) =>
      match f.byteCode
      case None => Failure(NullPointer)
      case Some(bytes) =>
        match rs.define(name, bytes)
        case Defined(c) => Success(c)
        case LinkageFailure => Failure(Linkage)
        case NoClassDefFound =>
          match rs.classesDir(name)
          case Some(c) => Success(c)
          case None => Fallback(name, rs)
  }

  /** The places a class is looked for, in the order `findClass` tries them. */
  datatype Strategy = InMemory | ClassesDirRetry | HostRuntime | MavenDeps

  const SearchOrder: seq<Strategy> := [InMemory, ClassesDirRetry, HostRuntime, MavenDeps]

  /** What one place answers: the class, nothing (try the next), or an error
      that ends the search. */
  datatype Attempt = Hit(c: ClassRef) | Pass | Abort(e: LoadError)

  function Try(s: Strategy, classes: Store, name: string, rs: Resolvers): Attempt {
    match s
    case InMemory =>
      (match Find(classes, name)
       case None => Pass
       case Some(f) =>
         if f.byteCode.None? then Abort(NullPointer)
         else match rs.define(name, f.byteCode.value)
              case Defined(c) => Hit(c)
              case LinkageFailure => Abort(Linkage)
              case NoClassDefFound => Pass)
    case ClassesDirRetry =>
      if DefineMissedDependency(classes, name, rs) && rs.classesDir(name).Some? then Hit(rs.classesDir(name).value)
      else Pass
    case HostRuntime => if rs.runtime(name).Some? then Hit(rs.runtime(name).value) else Pass
    case MavenDeps => if rs.maven(name).Some? then Hit(rs.maven(name).value) else Pass
  }

  /** The answer of the first place that does not pass, or
      `ClassNotFoundException` when every place passes. */
  function FirstDecisive(ss: seq<Strategy>, classes: Store, name: string, rs: Resolvers): Result<ClassRef, LoadError> {
    if |ss| == 0 then Failure(ClassNotFound(name))
    else
      match Try(ss[0], classes, name, rs)
      case Hit(c) => Success(c)
      case Abort(e) => Failure(e)
      case Pass => FirstDecisive(ss[1..], classes, name, rs)
  }

  /** The host runtime and the Maven dependencies, in this order, answer as
      the fallback of `findClass`. */
  lemma FallbackIsTail(classes: Store, name: string, rs: Resolvers)
    ensures FirstDecisive([HostRuntime, MavenDeps], classes, name, rs) == Fallback(name, rs)
  {
    var none: seq<Strategy> := [];
    assert [HostRuntime, MavenDeps][1..] == [MavenDeps];
    assert [MavenDeps][1..] == none;
    assert FirstDecisive(none, classes, name, rs) == Failure(ClassNotFound(name));
    assert FirstDecisive([MavenDeps], classes, name, rs) ==
           if rs.maven(name).Some? then Success(rs.maven(name).value) else Failure(ClassNotFound(name));
  }

  /** `findClass` is the first decisive answer along the search order. */
  lemma FindClassFollowsSearchOrder(classes: Store, name: string, rs: Resolvers)
    ensures FindClass(classes, name, rs) == FirstDecisive(SearchOrder, classes, name, rs)
  {
    var tail := [HostRuntime, MavenDeps];
    assert SearchOrder[1..] == [ClassesDirRetry] + tail;
    assert ([ClassesDirRetry] + tail)[1..] == tail;
    FallbackIsTail(classes, name, rs);
  }

  /** A name the loader does not hold is looked up as by a loader holding
      nothing. */
  lemma NotHeldIsLookedUpOutside(classes: Store, name: string, rs: Resolvers)
    requires Find(classes, name).None?
    ensures FindClass(classes, name, rs) == FindClass(Store([]), name, rs)
  {
  }

  /** A class added with byte code the JVM defines is found as that class,
      whatever the host runtime or the Maven dependencies hold under the
      same name. */
  lemma AddedClassShadows(classes: Store, name: string, f: JavaFile, rs: Resolvers, c: ClassRef)
    requires f.byteCode.Some? && rs.define(name, f.byteCode.value) == Defined(c)
    ensures FindClass(AddClass(classes, name, f), name, rs) == Success(c)
  {
    PutFind(classes.entries, name, f, name);
  }

  /** Adding a class under another name does not change what a name loads. */
  lemma OtherAddKeepsFindClass(classes: Store, other: string, f: JavaFile, name: string, rs: Resolvers)
    requires other != name
    ensures FindClass(AddClass(classes, other, f), name, rs) == FindClass(classes, name, rs)
  {
    PutFind(classes.entries, other, f, name);
  }

  /** The suffix of a class file resource. */
  const ClassSuffix: string := ".class"

  /** The class name of a `.class` resource: the suffix dropped and slashes
      turned into dots. */
  function ResourceClassName(name: string): string
    requires EndsWith(name, ClassSuffix)
  {
    ReplaceChar(name[..|name| - |ClassSuffix|], '/', '.')
  }

  /** The resource name of a class: dots turned into slashes, `.class` added. */
  function ResourceName(q: string): (r: string)
    ensures EndsWith(r, ClassSuffix)
  {
    var r := ReplaceChar(q, '.', '/') + ClassSuffix;
    assert r[|r| - |ClassSuffix|..] == ClassSuffix;
    r
  }

  /** A class name without slashes is recovered from its resource name. */
  lemma ResourceNameRoundTrip(q: string)
    requires '/' !in q
    ensures ResourceClassName(ResourceName(q)) == q
  {
    var r := ResourceName(q);
    assert r[..|r| - |ClassSuffix|] == ReplaceChar(q, '.', '/');
    ReplaceCharBack(q, '.', '/');
  }

  /** `getResourceAsStream(name)`: for a `.class` resource of a stored class,
      the stored byte code (a `NullPointerException` when none was written);
      otherwise what the parent class loader answers. */
  function GetResourceAsStream(classes: Store, name: string, parent: string -> Option<seq<bv8>>): (r: Result<Option<seq<bv8>>, LoadError>)
    ensures r.Failure? ==> r.error == NullPointer
    ensures r.Failure? <==>
              EndsWith(name, ClassSuffix) && Find(classes, ResourceClassName(name)).Some? &&
              Find(classes, ResourceClassName(name)).value.byteCode.None?
    ensures !EndsWith(name, ClassSuffix) ==> r == Success(parent(name))
    ensures EndsWith(name, ClassSuffix) && Find(classes, ResourceClassName(name)).None? ==> r == Success(parent(name))
    ensures r.Success? && r.value != parent(name) ==>
              EndsWith(name, ClassSuffix) && Find(classes, ResourceClassName(name)).Some? &&
              r.value == Find(classes, ResourceClassName(name)).value.byteCode
  {
    if EndsWith(name, ClassSuffix) && Find(classes, ResourceClassName(name)).Some? then
      var f := Find(classes, ResourceClassName(name)).value;
      if f.byteCode.None? then Failure(NullPointer) else Success(f.byteCode)
    else Success(parent(name))
  }

  /** The resource of an added class holds the byte code its class is
      defined from. */
  lemma ResourceOfAddedClass(classes: Store, q: string, f: JavaFile, parent: string -> Option<seq<bv8>>)
    requires '/' !in q && f.byteCode.Some?
    ensures GetResourceAsStream(AddClass(classes, q, f), ResourceName(q), parent) == Success(f.byteCode)
  {
    ResourceNameRoundTrip(q);
    PutFind(classes.entries, q, f, q);
  }

  /** A stored class is either defined from the bytes its resource returns,
      or both fail on the missing byte code. */
  lemma ResourceMatchesFindClass(classes: Store, q: string, rs: Resolvers, parent: string -> Option<seq<bv8>>)
    requires '/' !in q && Find(classes, q).Some?
    ensures var res := GetResourceAsStream(classes, ResourceName(q), parent);
            (res.Failure? <==> FindClass(classes, q, rs) == Failure(NullPointer)) &&
            (res.Success? ==> res.value.Some? && Find(classes, q).value.byteCode == res.value)
  {
    ResourceNameRoundTrip(q);
  }
}

=== FILE: compiler_facade.dfy ===
/** `CharSequenceCompiler`: the facade that compiles in-memory Java sources
    and loads the resulting classes.

    The state that survives a call is the option list the compiler is given
    (it only ever grows) and the shared `URLClassLoader` over the compiled
    classes directory, which a production compile closes and replaces and a
    test compile leaves alone. Class loaders are named by a serial number so
    that closing one is visible. The system Java compiler, the file system and
    the loading of a class by a `URLClassLoader` are parameters (`Env`). */
module CompilerFacade {
  import opened Results
  import opened JavaFiles
  import opened ClassLoading

  /** A `URLClassLoader` over one output directory. */
  datatype UrlLoader = UrlLoader(dir: string, serial: nat)

  /** The compiler options, the shared loader, the loaders closed so far and
      the serial the next loader gets. */
  datatype Facade = Facade(options: seq<string>, shared: UrlLoader, closed: set<nat>, nextSerial: nat)

  /** Every loader ever made has a serial below `nextSerial`, and the shared
      loader is open. */
  predicate Valid(st: Facade) {
    st.shared.serial < st.nextSerial && st.shared.serial !in st.closed &&
    forall s :: s in st.closed ==> s < st.nextSerial
  }

  /** What a compile call depends on besides the facade: the compiled classes
      directory, the temporary directory of a test compile (`None` when its
      creation fails), the compiler's answer (`None` for a null `Boolean`) and
      what `loadClass` on a loader finds. */
  datatype Env = Env(classesDir: string, tempDir: Option<string>, compiled: Option<bool>,
                     load: (UrlLoader, string) -> Option<ClassRef>)

  /** `CharSequenceCompilerException` before and after compiling (both carry
      the class names), the `RuntimeException` of a failed temporary
      directory, and the `ClassCastException` naming the first type the class
      is not assignable to. */
  datatype CompileError =
    | CompilationFailed(names: set<string>)
    | LoadFailed(names: set<string>)
    | TempDirFailed
    | CastFailed(typeName: string)

  /** The facade after a call and what the call returned or threw. */
  datatype Outcome<T> = Outcome(state: Facade, result: Result<T, CompileError>)

  /** The constructor: a copy of the given options, none for null. */
  function Create(options: Option<seq<string>>, shared: UrlLoader): (st: Facade)
    ensures Valid(st) && st.shared == shared && st.closed == {}
    ensures options.Some? ==> st.options == options.value
    ensures options.None? ==> st.options == []
  {
    Facade(options.GetOr([]), shared, {}, shared.serial + 1)
  }

  function ClassNames(units: seq<Unit>): set<string> {
    set u | u in units :: u.className
  }

  /** The loop that loads every unit's class through one loader into the
      result map; the first class it cannot load ends the call. */
  function LoadAll(l: UrlLoader, units: seq<Unit>, load: (UrlLoader, string) -> Option<ClassRef>,
                   names: set<string>): (r: Result<map<string, ClassRef>, CompileError>)
    ensures r.Success? <==> forall i :: 0 <= i < |units| ==> load(l, units[i].className).Some?
    ensures r.Failure? ==> r.error == LoadFailed(names)
    ensures r.Success? ==> r.value.Keys == ClassNames(units)
    ensures r.Success? ==> forall n :: n in r.value ==> load(l, n) == Some(r.value[n])
    decreases |units|
  {
    if |units| == 0 then Success(map[])
    else
      var u := units[0];
      assert forall i :: 1 <= i < |units| ==> units[i] == units[1..][i - 1];
      assert ClassNames(units) == {u.className} + ClassNames(units[1..]);
      match load(l, u.className)
      case None => Failure(LoadFailed(names))
      case Some(c) =>
        match LoadAll(l, units[1..], load, names)
        case Failure(e) => Failure(e)
        case Success(m) => Success(m[u.className := c])
  }

  /** The output directory: the classes directory, or the temporary one of a
      test compile. */
  function OutputDir(isTest: bool, env: Env): string
    requires isTest ==> env.tempDir.Some?
  {
    if isTest then env.tempDir.value else env.classesDir
  }

  /** The four options every compile of a non-empty list appends. */
  function CompileOptions(sourcePath: string, outputDir: string): (r: seq<string>)
    ensures |r| == 4 && r[0] == "-sourcepath" && r[1] == sourcePath && r[2] == "-d" && r[3] == outputDir
  {
    ["-sourcepath", sourcePath, "-d", outputDir]
  }

  /** A call that reached the compiler: the list was not empty and, for a test
      compile, the temporary directory was created. */
  predicate Reached(units: Option<seq<Unit>>, isTest: bool, env: Env) {
    units.Some? && |units.value| > 0 && (isTest ==> env.tempDir.Some?)
  }

  /** `compile(sourcePath, compilationUnits, diagnostics, isTestCompile)`. */
  function Compile(st: Facade, sourcePath: string, units: Option<seq<Unit>>, isTest: bool, env: Env)
    : (o: Outcome<map<string, ClassRef>>)
    ensures units.None? || |units.value| == 0 ==> o == Outcome(st, Success(map[]))
    ensures o.result == Failure(TempDirFailed) <==>
              units.Some? && |units.value| > 0 && isTest && env.tempDir.None?
    ensures !Reached(units, isTest, env) ==> o.state == st
    ensures Reached(units, isTest, env) ==>
              o.state.options == st.options + CompileOptions(sourcePath, OutputDir(isTest, env))
    ensures o.result.Failure? && o.result.error.CompilationFailed? <==>
              Reached(units, isTest, env) && env.compiled != Some(true)
    ensures o.result.Failure? && o.result.error.CompilationFailed? ==>
              o.result.error.names == ClassNames(units.value) && o.state.shared == st.shared && o.state.closed == st.closed
    ensures o.result.Failure? && o.result.error.LoadFailed? ==>
              Reached(units, isTest, env) && env.compiled == Some(true) && o.result.error.names == ClassNames(units.value)
    ensures o.result.Failure? ==> !o.result.error.CastFailed?
    ensures Reached(units, isTest, env) && env.compiled == Some(true) ==>
              (o.result.Success? <==>
                 forall i :: 0 <= i < |units.value| ==>
                   env.load(UrlLoader(OutputDir(isTest, env), st.nextSerial), units.value[i].className).Some?)
    ensures isTest ==> o.state.shared == st.shared
    ensures isTest && Reached(units, isTest, env) && env.compiled == Some(true) ==>
              o.state.closed == st.closed + {st.nextSerial}
    ensures !isTest && Reached(units, isTest, env) && env.compiled == Some(true) ==>
              o.state.shared == UrlLoader(env.classesDir, st.nextSerial) &&
              o.state.closed == st.closed + {st.shared.serial}
    ensures Reached(units, isTest, env) && o.result.Success? ==>
              o.result.value.Keys == ClassNames(units.value) &&
              forall n :: n in o.result.value ==>
                env.load(UrlLoader(OutputDir(isTest, env), st.nextSerial), n) == Some(o.result.value[n])
    ensures Valid(st) ==> Valid(o.state)
  {
    if units.None? || |units.value| == 0 then Outcome(st, Success(map[]))
    else if isTest && env.tempDir.None? then Outcome(st, Failure(TempDirFailed))
    else
      var names := ClassNames(units.value);
      var out := OutputDir(isTest, env);
      var st1 := st.(options := st.options + CompileOptions(sourcePath, out));
      if env.compiled != Some(true) then Outcome(st1, Failure(CompilationFailed(names)))
      else
        var made := UrlLoader(out, st.nextSerial);
        var st2 :=
          if isTest then st1.(closed := st.closed + {made.serial}, nextSerial := st.nextSerial + 1)
          else st1.(shared := made, closed := st.closed + {st.shared.serial}, nextSerial := st.nextSerial + 1);
        Outcome(st2, LoadAll(made, units.value, env.load, names))
  }

  /** `getCompiledClass(qualifiedName)`: loading through the shared loader. */
  function GetCompiledClass(st: Facade, name: string, env: Env): (r: Result<ClassRef, LoadError>)
    ensures r.Success? <==> env.load(st.shared, name).Some?
    ensures r.Success? ==> env.load(st.shared, name) == Some(r.value)
    ensures r.Failure? ==> r.error == ClassNotFound(name)
  {
    match env.load(st.shared, name)
    case Some(c) => Success(c)
    case None => Failure(ClassNotFound(name))
  }

  /** A test compile leaves what the shared loader serves untouched. */
  lemma TestCompileInvisible(st: Facade, sourcePath: string, units: Option<seq<Unit>>, env: Env, name: string)
    ensures GetCompiledClass(Compile(st, sourcePath, units, true, env).state, name, env) == GetCompiledClass(st, name, env)
  {
  }

  /** After a successful production compile the shared loader serves every
      compiled class, as the call returned it. */
  lemma ProductionCompileServes(st: Facade, sourcePath: string, units: seq<Unit>, env: Env, i: nat)
    requires |units| > 0 && i < |units|
    requires Compile(st, sourcePath, Some(units), false, env).result.Success?
    ensures var o := Compile(st, sourcePath, Some(units), false, env);
            GetCompiledClass(o.state, units[i].className, env) == Success(o.result.value[units[i].className])
  {
    assert units[i].className in ClassNames(units);
  }

  /** Two compile calls that reach the compiler append both option groups,
      in call order, whether or not the compiles succeed. */
  lemma OptionsAccumulate(st: Facade, sp1: string, u1: seq<Unit>, t1: bool, e1: Env,
                          sp2: string, u2: seq<Unit>, t2: bool, e2: Env)
    requires Reached(Some(u1), t1, e1) && Reached(Some(u2), t2, e2)
    ensures var o1 := Compile(st, sp1, Some(u1), t1, e1);
            var o2 := Compile(o1.state, sp2, Some(u2), t2, e2);
            |o2.state.options| == |st.options| + 8 &&
            o2.state.options[..|st.options|] == st.options &&
            o2.state.options[|st.options| + 1] == sp1 && o2.state.options[|st.options| + 5] == sp2
  {
    var o1 := Compile(st, sp1, Some(u1), t1, e1);
    var a := CompileOptions(sp1, OutputDir(t1, e1));
    var b := CompileOptions(sp2, OutputDir(t2, e2));
    assert o1.state.options == st.options + a;
    assert Compile(o1.state, sp2, Some(u2), t2, e2).state.options == st.options + a + b;
  }

  /** `castable(newClass, types)`: the class itself when it is assignable to
      every type; otherwise the `ClassCastException` names the first type it
      is not assignable to. */
  method Castable(c: ClassRef, types: seq<string>, assignable: (string, ClassRef) -> bool)
    returns (r: Result<ClassRef, CompileError>)
    ensures r.Success? <==> forall i :: 0 <= i < |types| ==> assignable(types[i], c)
    ensures r.Success? ==> r.value == c
    ensures r.Failure? ==>
              exists i :: 0 <= i < |types| && r.error == CastFailed(types[i]) && !assignable(types[i], c) &&
                          forall j :: 0 <= j < i ==> assignable(types[j], c)
  {
    var k := 0;
    while k < |types|
      invariant 0 <= k <= |types|
      invariant forall j :: 0 <= j < k ==> assignable(types[j], c)
    {
      if !assignable(types[k], c) {
        return Failure(CastFailed(types[k]));
      }
      k := k + 1;
    }
    return Success(c);
  }

  /** `compile(sourcePath, qualifiedClassName, javaSource, diagnostics,
      isTestCompile, types)`: compiles the one unit, picks its class out of
      the result and checks it against the types. */
  method CompileOne(st: Facade, sourcePath: string, name: string, source: string, isTest: bool, env: Env,
                    types: seq<string>, assignable: (string, ClassRef) -> bool)
    returns (o: Outcome<ClassRef>)
    ensures o.state == Compile(st, sourcePath, Some([Unit(name, source)]), isTest, env).state
    ensures o.result.Failure? && !o.result.error.CastFailed? ==>
              Compile(st, sourcePath, Some([Unit(name, source)]), isTest, env).result == Failure(o.result.error)
    ensures o.result.Success? ==>
              Reached(Some([Unit(name, source)]), isTest, env) &&
              env.load(UrlLoader(OutputDir(isTest, env), st.nextSerial), name) == Some(o.result.value) &&
              forall t :: t in types ==> assignable(t, o.result.value)
    ensures o.result.Failure? && o.result.error.CastFailed? ==> o.result.error.typeName in types
    ensures var c := Compile(st, sourcePath, Some([Unit(name, source)]), isTest, env).result;
            c.Failure? ==> o.result == Failure(c.error)
    ensures var c := Compile(st, sourcePath, Some([Unit(name, source)]), isTest, env).result;
            c.Success? ==>
              name in c.value &&
              (o.result.Success? <==> forall i :: 0 <= i < |types| ==> assignable(types[i], c.value[name])) &&
              (o.result.Success? ==> o.result.value == c.value[name]) &&
              (o.result.Failure? ==>
                 exists i :: 0 <= i < |types| && o.result.error == CastFailed(types[i]) &&
                             !assignable(types[i], c.value[name]) &&
                             forall j :: 0 <= j < i ==> assignable(types[j], c.value[name]))
  {
    var units := [Unit(name, source)];
    var compiled := Compile(st, sourcePath, Some(units), isTest, env);
    match compiled.result
    case Failure(e) =>
      o := Outcome(compiled.state, Failure(e));
    case Success(m) =>
      assert name in ClassNames(units);
      var r := Castable(m[name], types, assignable);
      o := Outcome(compiled.state, r);
  }
}

=== FILE: compiler_file_manager.dfy ===
/** `FileManagerImpl`: the compiler's file manager. It keeps the file objects
    put into it under a key built from location, package and relative name,
    answers lookups from them before asking the standard file manager it
    forwards to, and adds its own files (and, for the class path, the class
    loader's) in front of what the standard file manager lists.

    The stored files are a `FileStore.Store`; the class loader's files are
    those of its own store. The standard file manager's answers are
    parameters. */
module FileManager {
  import opened Results
  import opened Strings
  import opened JavaFiles
  import opened FileStore
  import opened ClassLoading

  /** A file location; `StandardLocation.CLASS_PATH` and `SOURCE_PATH` are
      the two the listing treats specially. */
  datatype Location = ClassPath | SourcePath | OtherLocation(name: string)

  /** `Location.getName()`. */
  function LocationName(l: Location): string {
    match l
    case ClassPath => "CLASS_PATH"
    case SourcePath => "SOURCE_PATH"
    case OtherLocation(n) => n
  }

  /** `uri(location, packageName, relativeName)`: the key of a stored file. */
  function Uri(l: Location, packageName: string, relativeName: string): (r: string)
    ensures |r| == |LocationName(l)| + |packageName| + |relativeName| + 2
  {
    LocationName(l) + "/" + packageName + "/" + relativeName
  }

  /** When neither the location name nor the package holds a `/`, the key
      determines location name, package and relative name. */
  lemma UriInjective(l1: Location, p1: string, r1: string, l2: Location, p2: string, r2: string)
    requires '/' !in LocationName(l1) && '/' !in LocationName(l2) && '/' !in p1 && '/' !in p2
    requires Uri(l1, p1, r1) == Uri(l2, p2, r2)
    ensures LocationName(l1) == LocationName(l2) && p1 == p2 && r1 == r2
  {
    UriParts(l1, p1, r1);
    UriParts(l2, p2, r2);
  }

  /** A key taken apart at its first two slashes. */
  lemma UriParts(l: Location, p: string, r: string)
    requires '/' !in LocationName(l) && '/' !in p
    ensures var u := Uri(l, p, r);
            var i := IndexOf(u, '/');
            i == |LocationName(l)| && u[..i] == LocationName(l) &&
            var rest := u[i + 1..];
            IndexOf(rest, '/') == |p| && rest[..|p|] == p && rest[|p| + 1..] == r
  {
    var a := LocationName(l);
    var rest := p + "/" + r;
    assert Uri(l, p, r) == a + ['/'] + rest;
    JoinHead(a, rest, '/');
    assert rest == p + ['/'] + r;
    JoinHead(p, r, '/');
  }

  /** `putFileForInput(location, packageName, relativeName, file)`. */
  function PutFileForInput(st: Store, l: Location, packageName: string, relativeName: string, f: JavaFile): (r: Store)
    ensures Find(r, Uri(l, packageName, relativeName)) == Some(f)
    ensures forall k :: k != Uri(l, packageName, relativeName) ==> Find(r, k) == Find(st, k)
    ensures KeysUnique(st) ==> KeysUnique(r)
  {
    var key := Uri(l, packageName, relativeName);
    PutFindAll(st.entries, key, f);
    var r := Store(PutEntry(st.entries, key, f));
    if KeysUnique(st) then (PutKeysUnique(st.entries, key, f); r) else r
  }

  /** `getFileForInput(location, packageName, relativeName)`: the stored file
      under the key, otherwise what the standard file manager answers. */
  function GetFileForInput(st: Store, l: Location, packageName: string, relativeName: string,
                           delegated: Option<JavaFile>): (r: Option<JavaFile>)
    ensures Find(st, Uri(l, packageName, relativeName)).Some? ==> r == Find(st, Uri(l, packageName, relativeName))
    ensures Find(st, Uri(l, packageName, relativeName)).None? ==> r == delegated
  {
    match Find(st, Uri(l, packageName, relativeName))
    case Some(f) => Some(f)
    case None => delegated
  }

  /** After a put, the same location, package and relative name give back
      the file, whatever the standard file manager would answer. */
  lemma GetAfterPut(st: Store, l: Location, p: string, n: string, f: JavaFile, delegated: Option<JavaFile>)
    requires KeysUnique(st)
    ensures KeysUnique(PutFileForInput(st, l, p, n, f))
    ensures GetFileForInput(PutFileForInput(st, l, p, n, f), l, p, n, delegated) == Some(f)
  {
    PutFind(st.entries, Uri(l, p, n), f, Uri(l, p, n));
    PutKeysUnique(st.entries, Uri(l, p, n), f);
  }

  /** A put under another key changes no other lookup. */
  lemma GetOtherAfterPut(st: Store, l: Location, p: string, n: string, f: JavaFile,
                         l2: Location, p2: string, n2: string, delegated: Option<JavaFile>)
    requires KeysUnique(st) && Uri(l2, p2, n2) != Uri(l, p, n)
    ensures GetFileForInput(PutFileForInput(st, l, p, n, f), l2, p2, n2, delegated) ==
            GetFileForInput(st, l2, p2, n2, delegated)
  {
    PutFind(st.entries, Uri(l, p, n), f, Uri(l2, p2, n2));
  }

  /** The stored files of a kind whose name starts with the package name, in
      store order. */
  function Matching(entries: seq<(string, JavaFile)>, kind: Kind, packageName: string): (r: seq<JavaFile>)
    ensures forall f :: f in r <==>
              exists i :: 0 <= i < |entries| && entries[i].1 == f && f.kind == kind && StartsWith(f.name, packageName)
    decreases |entries|
  {
    if |entries| == 0 then []
    else
      var f := entries[0].1;
      var rest := Matching(entries[1..], kind, packageName);
      assert forall i :: 1 <= i < |entries| ==> entries[i] == entries[1..][i - 1];
      if f.kind == kind && StartsWith(f.name, packageName) then [f] + rest else rest
  }

  /** `list(location, packageName, kinds, recurse)`. For the class path with
      classes requested: the stored class files of the package and all the
      files of the class loader (`loader`), whatever their package; for the source path with sources requested: the stored
      source files of the package; and in every case what the standard file
      manager lists, last. */
  function List(st: Store, l: Location, packageName: string, kinds: set<Kind>,
                loader: Store, delegated: seq<JavaFile>): (r: seq<JavaFile>)
    ensures |r| >= |delegated| && r[|r| - |delegated|..] == delegated
    ensures forall f :: f in r <==>
              f in delegated ||
              (l == ClassPath && ClassKind in kinds && (f in Files(loader) || f in Matching(st.entries, ClassKind, packageName))) ||
              (l == SourcePath && SourceKind in kinds && f in Matching(st.entries, SourceKind, packageName))
  {
    var own :=
      if l == ClassPath && ClassKind in kinds then Matching(st.entries, ClassKind, packageName) + Files(loader)
      else if l == SourcePath && SourceKind in kinds then Matching(st.entries, SourceKind, packageName)
      else [];
    own + delegated
  }

  /** A stored file is listed for its location when its kind is requested and
      its name starts with the package name. */
  lemma ListedAfterPut(st: Store, l: Location, p: string, n: string, f: JavaFile, kinds: set<Kind>,
                       loader: Store, delegated: seq<JavaFile>)
    requires KeysUnique(st) && StartsWith(f.name, p)
    requires (l == ClassPath && f.kind == ClassKind && ClassKind in kinds) ||
             (l == SourcePath && f.kind == SourceKind && SourceKind in kinds)
    ensures f in List(PutFileForInput(st, l, p, n, f), l, p, kinds, loader, delegated)
  {
    var es := PutFileForInput(st, l, p, n, f).entries;
    var i :| 0 <= i < |es| && es[i] == (Uri(l, p, n), f);
    assert f in Matching(es, f.kind, p);
  }

  /** A class the compiler hands to the class loader (`add`) is listed for the
      class path whenever classes are requested, whatever the package asked
      for, and so is every class file the loader held under another name. */
  lemma ListsAddedClass(st: Store, p: string, kinds: set<Kind>, loader: Store, name: string, f: JavaFile,
                        delegated: seq<JavaFile>)
    requires KeysUnique(loader) && ClassKind in kinds
    ensures f in List(st, ClassPath, p, kinds, AddClass(loader, name, f), delegated)
    ensures forall i :: 0 <= i < |loader.entries| && loader.entries[i].0 != name ==>
              loader.entries[i].1 in List(st, ClassPath, p, kinds, AddClass(loader, name, f), delegated)
  {
    AddClassFiles(loader, name, f);
  }
}

=== FILE: compiler_file_store.dfy ===
/** The `HashMap<String, JavaFileObject>` the file manager and the class
    loader both keep: an association list in insertion order, each key once.
    A put replaces the file under a present key in place and appends a new
    key; the order of the source's hash map is not fixed by this model. */
module FileStore {
  import opened Results
  import opened JavaFiles

  /** The stored file objects, by key, in insertion order, each key once. */
  datatype Store = Store(entries: seq<(string, JavaFile)>)

  predicate KeysUnique(st: Store) {
    forall i, j :: 0 <= i < j < |st.entries| ==> st.entries[i].0 != st.entries[j].0
  }

  /** `get(key)`: the file stored under the key, null when there is none. */
  function Find(st: Store, key: string): (r: Option<JavaFile>)
    ensures r.Some? ==> (key, r.value) in st.entries
    ensures r.None? <==> forall i :: 0 <= i < |st.entries| ==> st.entries[i].0 != key
    decreases |st.entries|
  {
    if |st.entries| == 0 then None
    else if st.entries[0].0 == key then Some(st.entries[0].1)
    else
      var r := Find(Store(st.entries[1..]), key);
      assert forall i :: 1 <= i < |st.entries| ==> st.entries[i] == st.entries[1..][i - 1];
      r
  }

  /** With every key once, each entry is what its key finds. */
  lemma FindOfKey(es: seq<(string, JavaFile)>, i: nat)
    requires KeysUnique(Store(es)) && i < |es|
    ensures Find(Store(es), es[i].0) == Some(es[i].1)
  {
  }

  /** `put(key, file)`: replaces the file under a present key in
      place, or appends a new entry. */
  function PutEntry(entries: seq<(string, JavaFile)>, key: string, f: JavaFile): (r: seq<(string, JavaFile)>)
    ensures |r| == |entries| || |r| == |entries| + 1
    ensures forall i :: 0 <= i < |r| ==> r[i].0 == key || (i < |entries| && r[i] == entries[i])
    ensures (key, f) in r
    decreases |entries|
  {
    if |entries| == 0 then [(key, f)]
    else if entries[0].0 == key then [(key, f)] + entries[1..]
    else
      var rest := PutEntry(entries[1..], key, f);
      var r := [entries[0]] + rest;
      assert r[1..] == rest;
      r
  }

  /** Looking up a key in a store with one more entry in front. */
  lemma FindCons(e: (string, JavaFile), es: seq<(string, JavaFile)>, k: string)
    ensures Find(Store([e] + es), k) == if e.0 == k then Some(e.1) else Find(Store(es), k)
  {
    assert ([e] + es)[1..] == es;
  }

  /** What a put does to every lookup. */
  lemma {:induction false} PutFind(entries: seq<(string, JavaFile)>, key: string, f: JavaFile, k: string)
    ensures Find(Store(PutEntry(entries, key, f)), k) == if k == key then Some(f) else Find(Store(entries), k)
    decreases |entries|
  {
    if |entries| > 0 {
      assert entries == [entries[0]] + entries[1..];
      FindCons(entries[0], entries[1..], k);
      if entries[0].0 != key {
        PutFind(entries[1..], key, f, k);
        FindCons(entries[0], PutEntry(entries[1..], key, f), k);
      } else {
        FindCons((key, f), entries[1..], k);
      }
    }
  }

  /** What a put does to every lookup, for all keys at once. */
  lemma PutFindAll(entries: seq<(string, JavaFile)>, key: string, f: JavaFile)
    ensures forall k :: Find(Store(PutEntry(entries, key, f)), k) == if k == key then Some(f) else Find(Store(entries), k)
  {
    forall k
      ensures Find(Store(PutEntry(entries, key, f)), k) == if k == key then Some(f) else Find(Store(entries), k)
    {
      PutFind(entries, key, f, k);
    }
  }

  /** A put keeps every key once. */
  lemma PutKeysUnique(entries: seq<(string, JavaFile)>, key: string, f: JavaFile)
    requires KeysUnique(Store(entries))
    ensures KeysUnique(Store(PutEntry(entries, key, f)))
  {
    var r := PutEntry(entries, key, f);
    forall i, j | 0 <= i < j < |r|
      ensures r[i].0 != r[j].0
    {
      if r[i].0 == key && r[j].0 == key {
        PutKeyOnce(entries, key, f, i, j);
      }
    }
  }

  /** The put key occurs at one position only. */
  lemma {:induction false} PutKeyOnce(entries: seq<(string, JavaFile)>, key: string, f: JavaFile, i: nat, j: nat)
    requires KeysUnique(Store(entries))
    requires i < j < |PutEntry(entries, key, f)|
    ensures PutEntry(entries, key, f)[i].0 != key || PutEntry(entries, key, f)[j].0 != key
    decreases |entries|
  {
    var r := PutEntry(entries, key, f);
    if |entries| > 0 && entries[0].0 != key && i > 0 {
      assert r[1..] == PutEntry(entries[1..], key, f);
      PutKeyOnce(entries[1..], key, f, i - 1, j - 1);
    } else if |entries| > 0 && entries[0].0 == key {
      assert r[j] == entries[j];
    }
  }
}

=== FILE: compiler_java_files.dfy ===
/** The in-memory file objects of the dynamic compiler: compilation units
    (`JavaFileObjectImpl` built from a class name and its source) and the
    class files the compiler writes. */
module JavaFiles {
  import opened Results
  import opened Strings

  /** `JavaFileObject.Kind`. */
  datatype Kind = SourceKind | ClassKind | HtmlKind | OtherKind

  /** A file object: its name (`getName()`), its kind and its byte code, null
      until the compiler has written it. */
  datatype JavaFile = JavaFile(name: string, kind: Kind, byteCode: Option<seq<bv8>>)

  /** A compilation unit: the qualified class name and the source text. */
  datatype Unit = Unit(className: string, source: string)

  /** `JAVA_EXTENSION`: the compiler only accepts sources named `*.java`. */
  const JavaExtension: string := ".java"

  /** `getBaseName(qualifiedClassName)`: what follows the last dot, or the
      whole name when there is none. */
  function BaseName(q: string): (r: string)
    ensures '.' !in r
    ensures |r| <= |q| && r == q[|q| - |r|..]
    ensures '.' !in q ==> r == q
    ensures '.' in q ==> |r| < |q| && q[|q| - |r| - 1] == '.'
  {
    var dot := LastIndexOf(q, '.');
    if dot == -1 then q
    else
      var r := q[dot + 1..];
      assert forall i :: 0 <= i < |r| ==> r[i] == q[dot + 1 + i];
      r
  }

  /** The base name of a package-qualified name is the simple name. */
  lemma BaseNameOfQualified(p: string, b: string)
    requires '.' !in b
    ensures BaseName(p + "." + b) == b
  {
    var q := p + "." + b;
    assert q[|p|] == '.';
    assert q[|p| + 1..] == b;
  }

  /** Taking the base name a second time changes nothing. */
  lemma BaseNameIdempotent(q: string)
    ensures BaseName(BaseName(q)) == BaseName(q)
  {
  }

  /** The name of a unit's source file object: its base name with `.java`. */
  function SourceFileName(u: Unit): (r: string)
    ensures r == BaseName(u.className) + JavaExtension
    ensures |r| >= |JavaExtension| && r[|r| - |JavaExtension|..] == JavaExtension
    ensures '.' !in r[..|r| - |JavaExtension|]
  {
    var b := BaseName(u.className);
    var r := b + JavaExtension;
    assert r[..|r| - |JavaExtension|] == b;
    r
  }

  /** The source file of a class in a package is named after the simple name
      alone: the package does not enter the file name, so two classes of the
      same simple name in different packages get the same file name. */
  lemma SourceFileNameOfQualified(p: string, b: string, source: string)
    requires '.' !in b
    ensures SourceFileName(Unit(p + "." + b, source)) == b + ".java"
  {
    BaseNameOfQualified(p, b);
  }
}

=== FILE: entity_custom_action.dfy ===
/** The behaviour of `EntityCustomAction` beyond plain accessors: parsing of the
    GUI position string into a map, the i18n label lookup with its fallback, the
    null-safe i18n getter and `equals`.

    A GUI position is a `;`-separated list of segments `tag:name[:pos]`, or
    `action:pos` for the action's own position; parsing yields the keys
    `<tag>_name`, `<tag>_pos` and `action_pos`. */
module EntityCustomAction {
  import opened Results
  import opened Strings

  /** The position tag of the `action` tree item type. */
  const ActionTag: string := "action"

  datatype EntityCustomAction = EntityCustomAction(
    id: Option<int>,
    code: Option<string>,
    appliesTo: Option<string>,
    defaultLabel: Option<string>,
    labelI18n: Option<map<string, Option<string>>>,
    guiPosition: Option<string>)

  /** The exceptions the Java code can raise. */
  datatype JavaError = IndexOutOfBounds | NullPointer

  type Parsed = map<string, string>

  /** The keys one segment puts, or the out-of-bounds access its parts cause. */
  function SegmentEntries(segment: string): (r: Result<Parsed, JavaError>)
    ensures var d := Split(segment, ':');
            r.Failure? <==> |d| == 0 || (d[0] != ActionTag && |d| < 2)
    ensures var d := Split(segment, ':');
            r.Success? && d[0] != ActionTag ==>
              d[0] + "_name" in r.value && r.value[d[0] + "_name"] == d[1] &&
              (d[0] + "_pos" in r.value <==> |d| == 3) &&
              (|d| == 3 ==> r.value[d[0] + "_pos"] == d[2]) &&
              r.value.Keys <= {d[0] + "_name", d[0] + "_pos"}
    ensures var d := Split(segment, ':');
            r.Success? && d[0] == ActionTag ==>
              (if |d| == 2 then r.value == map[ActionTag + "_pos" := d[1]] else r.value == map[])
  {
    var d := Split(segment, ':');
    if |d| == 0 then Failure(IndexOutOfBounds)
    else if d[0] != ActionTag then
      if |d| < 2 then Failure(IndexOutOfBounds)
      else
        var named := map[d[0] + "_name" := d[1]];
        Success(if |d| == 3 then named[d[0] + "_pos" := d[2]] else named)
    else if |d| == 2 then Success(map[d[0] + "_pos" := d[1]])
    else Success(map[])
  }

  /** Applies the segments left to right onto `acc`, a later `put` replacing an
      earlier value under the same key; the first bad segment aborts. */
  function ParseSegments(acc: Parsed, segments: seq<string>): (r: Result<Parsed, JavaError>)
    ensures r.Failure? ==> r.error == IndexOutOfBounds
    ensures r.Success? ==> acc.Keys <= r.value.Keys
    decreases |segments|
  {
    if |segments| == 0 then Success(acc)
    else
      match SegmentEntries(segments[0])
      case Failure(e) => Failure(e)
      case Success(entries) => ParseSegments(acc + entries, segments[1..])
  }

  /** Parsing fails exactly when some segment is malformed, whatever came before. */
  lemma {:induction false} ParseFailsIffBadSegment(acc: Parsed, segments: seq<string>)
    ensures ParseSegments(acc, segments).Failure? <==>
              exists i :: 0 <= i < |segments| && SegmentEntries(segments[i]).Failure?
    decreases |segments|
  {
    if |segments| > 0 {
      match SegmentEntries(segments[0])
      case Failure(e) =>
      case Success(entries) =>
        ParseFailsIffBadSegment(acc + entries, segments[1..]);
        assert forall i :: 1 <= i < |segments| ==> segments[i] == segments[1..][i - 1];
    }
  }

  /** `getGuiPositionParsed()`: null for a null position, otherwise the parsed
      map, or the exception a malformed segment raises. */
  function GuiPositionParsed(guiPosition: Option<string>): (r: Result<Option<Parsed>, JavaError>)
    ensures guiPosition.None? <==> r == Success(None)
    ensures guiPosition.Some? && r.Success? ==>
              r.value.Some? && ParseSegments(map[], Split(guiPosition.value, ';')) == Success(r.value.value)
  {
    match guiPosition
    case None => Success(None)
    case Some(g) =>
      match ParseSegments(map[], Split(g, ';'))
      case Failure(e) => Failure(e)
      case Success(m) => Success(Some(m))
  }

  /** Segments are processed left to right: parsing one more segment is parsing
      the others and then putting that segment's keys over the result. */
  lemma {:induction false} ParseSnoc(acc: Parsed, segments: seq<string>, last: string)
    ensures ParseSegments(acc, segments + [last]) ==
              match ParseSegments(acc, segments)
              case Failure(e) => Failure(e)
              case Success(m) =>
                match SegmentEntries(last)
                case Failure(e) => Failure(e)
                case Success(entries) => Success(m + entries)
    decreases |segments|
  {
    if |segments| == 0 {
      assert segments + [last] == [last];
    } else {
      assert (segments + [last])[1..] == segments[1..] + [last];
      match SegmentEntries(segments[0])
      case Failure(e) =>
      case Success(entries) =>
        ParseSnoc(acc + entries, segments[1..], last);
    }
  }

  /** One placement of the action in the GUI, as the position format describes it. */
  datatype Placement =
    | Within(tag: string, name: string, pos: Option<string>)
    | ActionAt(actionPos: string)

  /** The parts of a placement are non-empty and free of both separators, and
      the tag of a container placement is not the action tag. */
  predicate WellFormed(p: Placement) {
    match p
    case Within(tag, name, pos) =>
      tag != ActionTag && |tag| > 0 && |name| > 0 &&
      ':' !in tag && ';' !in tag && ':' !in name && ';' !in name &&
      (pos.Some? ==> |pos.value| > 0 && ':' !in pos.value && ';' !in pos.value)
    case ActionAt(pos) =>
      |pos| > 0 && ':' !in pos && ';' !in pos
  }

  /** The segment text of a placement. */
  function FormatSegment(p: Placement): string {
    match p
    case Within(tag, name, pos) =>
      if pos.Some? then tag + ":" + name + ":" + pos.value else tag + ":" + name
    case ActionAt(pos) => ActionTag + ":" + pos
  }

  function FormatSegments(ps: seq<Placement>): (r: seq<string>)
    ensures |r| == |ps|
    ensures forall i :: 0 <= i < |ps| ==> r[i] == FormatSegment(ps[i])
  {
    if |ps| == 0 then [] else [FormatSegment(ps[0])] + FormatSegments(ps[1..])
  }

  /** The keys a placement is meant to set, independently of the parser. */
  function Intended(p: Placement): Parsed {
    match p
    case Within(tag, name, pos) =>
      if pos.Some? then map[tag + "_name" := name, tag + "_pos" := pos.value]
      else map[tag + "_name" := name]
    case ActionAt(pos) => map["action_pos" := pos]
  }

  /** The intended map of a list of placements, later ones winning. */
  function IntendedAll(ps: seq<Placement>): Parsed
    decreases |ps|
  {
    if |ps| == 0 then map[] else IntendedAll(ps[..|ps| - 1]) + Intended(ps[|ps| - 1])
  }

  /** Each well-formed placement's segment parses to exactly its intended keys. */
  lemma SegmentRoundTrip(p: Placement)
    requires WellFormed(p)
    ensures SegmentEntries(FormatSegment(p)) == Success(Intended(p))
  {
    match p
    case Within(tag, name, pos) =>
      if pos.Some? {
        assert [tag, name, pos.value][1..] == [name, pos.value];
        assert Join([name, pos.value], ':') == name + ":" + pos.value;
        assert Join([tag, name, pos.value], ':') == tag + ":" + name + ":" + pos.value;
        SplitOfJoin([tag, name, pos.value], ':');
      } else {
        assert Join([tag, name], ':') == tag + ":" + name;
        SplitOfJoin([tag, name], ':');
      }
    case ActionAt(pos) =>
      assert Join([ActionTag, pos], ':') == ActionTag + ":" + pos;
      SplitOfJoin([ActionTag, pos], ':');
      assert ActionTag + "_pos" == "action_pos";
  }

  lemma {:induction false} ParseFormatted(ps: seq<Placement>)
    requires forall i :: 0 <= i < |ps| ==> WellFormed(ps[i])
    ensures ParseSegments(map[], FormatSegments(ps)) == Success(IntendedAll(ps))
    decreases |ps|
  {
    if |ps| == 0 {
    } else {
      var init := ps[..|ps| - 1];
      var last := ps[|ps| - 1];
      var initSegs := FormatSegments(init);
      var lastSeg := FormatSegment(last);
      assert FormatSegments(ps) == initSegs + [lastSeg];
      ParseFormatted(init);
      SegmentRoundTrip(last);
      ParseSnoc(map[], initSegs, lastSeg);
      assert IntendedAll(ps) == IntendedAll(init) + Intended(last);
    }
  }

  /** A well-formed placement's segment is non-empty and has no `;`. */
  lemma SegmentShape(p: Placement)
    requires WellFormed(p)
    ensures ';' !in FormatSegment(p) && FormatSegment(p) != ""
  {
    match p
    case Within(tag, name, pos) =>
      if pos.Some? {
        assert FormatSegment(p) == tag + (":" + name + ":" + pos.value);
      }
    case ActionAt(pos) =>
  }

  /** Writing placements in the documented format and parsing the result gives
      the intended keys, a later placement overriding an earlier one. */
  lemma GuiPositionRoundTrip(ps: seq<Placement>)
    requires |ps| >= 1
    requires forall i :: 0 <= i < |ps| ==> WellFormed(ps[i])
    ensures GuiPositionParsed(Some(Join(FormatSegments(ps), ';'))) == Success(Some(IntendedAll(ps)))
  {
    var segs := FormatSegments(ps);
    forall i | 0 <= i < |segs|
      ensures ';' !in segs[i] && segs[i] != ""
    {
      SegmentShape(ps[i]);
    }
    SplitOfJoin(segs, ';');
    ParseFormatted(ps);
  }

  /** A segment that names a container but gives it no name is an error, and so
      is the whole position string containing it. */
  lemma MissingNameFails(tag: string)
    requires tag != ActionTag && ':' !in tag && ';' !in tag
    ensures SegmentEntries(tag).Failure?
    ensures GuiPositionParsed(Some(tag)).Failure?
  {
  }

  /** `getLabel(language)`. `upper` is `String.toUpperCase()` under the
      default locale (Unicode and locale dependent, so a parameter); a key
      mapped to null gives null. */
  function GetLabel(a: EntityCustomAction, language: Option<string>, upper: string -> string): (r: Option<string>)
    ensures language.Some? && a.labelI18n.Some? && upper(language.value) in a.labelI18n.value ==>
              r == a.labelI18n.value[upper(language.value)]
    ensures !(language.Some? && a.labelI18n.Some? && upper(language.value) in a.labelI18n.value) ==>
              r == a.defaultLabel
  {
    if language.None? || a.labelI18n.None? || |a.labelI18n.value| == 0 then a.defaultLabel
    else
      var key := upper(language.value);
      if key !in a.labelI18n.value then a.defaultLabel else a.labelI18n.value[key]
  }

  /** The lookup ignores the case of the requested language, for every
      language that upper-casing a second time leaves unchanged. */
  lemma GetLabelCaseInsensitive(a: EntityCustomAction, language: string, upper: string -> string)
    requires upper(upper(language)) == upper(language)
    ensures GetLabel(a, Some(language), upper) == GetLabel(a, Some(upper(language)), upper)
  {
  }

  /** A key that is not the upper-cased form of any language (a lower-case
      key, say) is never read: the label shown is the default one or the
      value under another key. */
  lemma UnreachableKeyNeverRead(a: EntityCustomAction, key: string, upper: string -> string, language: Option<string>)
    requires a.labelI18n.Some? && forall x :: upper(x) != key
    ensures var r := GetLabel(a, language, upper);
            r == a.defaultLabel || exists k :: k in a.labelI18n.value && k != key && r == a.labelI18n.value[k]
  {
    if language.Some? && upper(language.value) in a.labelI18n.value {
      assert upper(language.value) != key;
    }
  }

  /** `getLabelI18nNullSafe()`: the updated action and the map it returns. */
  function LabelI18nNullSafe(a: EntityCustomAction): (r: (EntityCustomAction, map<string, Option<string>>))
    ensures r.0.labelI18n == Some(r.1)
    ensures a.labelI18n.Some? ==> r.0 == a && r.1 == a.labelI18n.value
    ensures a.labelI18n.None? ==> r.0 == a.(labelI18n := Some(map[])) && r.1 == map[]
  {
    match a.labelI18n
    case Some(m) => (a, m)
    case None => (a.(labelI18n := Some(map[])), map[])
  }

  /** Instantiating the map never changes which label is shown, and doing it
      twice is doing it once. */
  lemma NullSafeKeepsLabels(a: EntityCustomAction, language: Option<string>, upper: string -> string)
    ensures GetLabel(LabelI18nNullSafe(a).0, language, upper) == GetLabel(a, language, upper)
    ensures LabelI18nNullSafe(LabelI18nNullSafe(a).0) == LabelI18nNullSafe(a)
  {
  }

  /** `equals(obj)`; `other` is `None` for null or for an object of another
      class, `sameObject` for the reference-identity short cut. A null code or
      appliesTo on both sides makes Java call `equals` on null. */
  function Equals(a: EntityCustomAction, other: Option<EntityCustomAction>, sameObject: bool):
    (r: Result<bool, JavaError>)
    requires sameObject ==> other == Some(a)
    ensures r.Success? ==> (r.value <==> other.Some? && SameAction(a, other.value))
    ensures r.Failure? ==> r.error == NullPointer
  {
    if sameObject then Success(true)
    else if other.None? then Success(false)
    else
      var o := other.value;
      if a.id.Some? && o.id.Some? && a.id.value == o.id.value then Success(true)
      else if a.code.None? && o.code.Some? then Success(false)
      else if a.code.None? then Failure(NullPointer)
      else if o.code.None? || a.code.value != o.code.value then Success(false)
      else if a.appliesTo.None? && o.appliesTo.Some? then Success(false)
      else if a.appliesTo.None? then Failure(NullPointer)
      else if o.appliesTo.None? || a.appliesTo.value != o.appliesTo.value then Success(false)
      else Success(true)
  }

  /** The business identity `equals` is meant to compare: matching ids, or else
      matching code and appliesTo. */
  predicate SameAction(a: EntityCustomAction, b: EntityCustomAction) {
    (a.id.Some? && b.id.Some? && a.id.value == b.id.value) ||
    (a.code == b.code && a.appliesTo == b.appliesTo)
  }

  /** `equals` agrees with the business identity whenever it returns, and it
      throws exactly when ids do not decide and a null code or appliesTo would
      be compared with null. */
  lemma EqualsMeansSameAction(a: EntityCustomAction, b: EntityCustomAction)
    ensures Equals(a, Some(b), false).Success? ==> (Equals(a, Some(b), false).value <==> SameAction(a, b))
    ensures Equals(a, Some(b), false).Failure? <==>
              !(a.id.Some? && b.id.Some? && a.id.value == b.id.value) &&
              ((a.code.None? && b.code.None?) ||
               (a.code.Some? && a.code == b.code && a.appliesTo.None? && b.appliesTo.None?))
    ensures Equals(a, None, false) == Success(false)
  {
  }

  /** Whenever both directions return, `equals` is symmetric. */
  lemma EqualsSymmetric(a: EntityCustomAction, b: EntityCustomAction)
    requires Equals(a, Some(b), false).Success? && Equals(b, Some(a), false).Success?
    ensures Equals(a, Some(b), false) == Equals(b, Some(a), false)
  {
    EqualsMeansSameAction(a, b);
    EqualsMeansSameAction(b, a);
  }
}

=== FILE: entity_customization_utils.dfy ===
/** The entity-code half of `EntityCustomizationUtils`: an "appliesTo" value has
    the shape `<prefix>_<entity code>`, and the code is what follows the FIRST
    underscore, provided the prefix before it is not empty. */
module EntityCustomizationUtils {
  import opened Results
  import opened Strings

  /** `getEntityCode(appliesTo)`; `None` is Java's null, both in and out. */
  function GetEntityCode(appliesTo: Option<string>): (r: Option<string>)
    ensures appliesTo.None? ==> r.None?
    ensures r.Some? <==> appliesTo.Some? && '_' in appliesTo.value && appliesTo.value[0] != '_'
    ensures r.Some? ==>
              var a := appliesTo.value;
              var k := |a| - |r.value| - 1;
              0 < k && a[k] == '_' && a[k + 1..] == r.value &&
              forall j :: 0 <= j < k ==> a[j] != '_'
  {
    match appliesTo
    case None => None
    case Some(a) =>
      var pos := IndexOf(a, '_');
      if pos > 0 then Some(a[pos + 1..]) else None
  }

  /** Building an appliesTo value from a non-empty, underscore-free prefix and a
      code, then extracting the code, gives the code back, whatever it contains. */
  lemma EntityCodeRoundTrip(prefix: string, code: string)
    requires |prefix| > 0 && '_' !in prefix
    ensures GetEntityCode(Some(prefix + "_" + code)) == Some(code)
  {
    var a := prefix + "_" + code;
    assert a[|prefix|] == '_';
    assert forall j :: 0 <= j < |prefix| ==> a[j] == prefix[j];
    var k := IndexOf(a, '_');
    assert k == |prefix|;
    assert a[k + 1..] == code;
  }

  /** Conversely every extracted code comes from exactly such a decomposition. */
  lemma EntityCodeDecomposition(a: string)
    requires GetEntityCode(Some(a)).Some?
    ensures var c := GetEntityCode(Some(a)).value;
            var prefix := a[..|a| - |c| - 1];
            |prefix| > 0 && '_' !in prefix && a == prefix + "_" + c
  {
    var c := GetEntityCode(Some(a)).value;
    var k := |a| - |c| - 1;
    assert a == a[..k] + "_" + a[k + 1..];
  }
}

=== FILE: function_api.dfy ===
/** The scheduling logic of `FunctionApi`: the name of a function's test job,
    the choice of its timer from the uploaded test suite, the create-or-update
    of the job in the job store, and `find` on an unknown code.

    The timer code is what the pattern
    `<stringProp name="periodicity">(.*)</stringProp>` captures on its first
    match: the leftmost opening tag that a closing tag follows on the same line,
    and, `.*` being greedy, the text up to the LAST closing tag of that line. */
module FunctionApi {
  import opened Results
  import opened Strings
  import TimerEntityDto
  import EntityCustomizationUtils

  const TestJobPrefix: string := "FunctionTestJob_"
  const DefaultTimerCode: string := "Daily-midnight"
  const OpenTag: string := "<stringProp name=\"periodicity\">"
  const CloseTag: string := "</stringProp>"

  /** `getTestJobCode(functionCode)`. */
  function TestJobCode(functionCode: string): (r: string)
    ensures |r| == |TestJobPrefix| + |functionCode|
    ensures StartsWith(r, TestJobPrefix) && r[|TestJobPrefix|..] == functionCode
  {
    TestJobPrefix + functionCode
  }

  /** Distinct functions never share a test job. */
  lemma TestJobCodeInjective(a: string, b: string)
    ensures TestJobCode(a) == TestJobCode(b) ==> a == b
  {
    if TestJobCode(a) == TestJobCode(b) {
      assert a == TestJobCode(a)[|TestJobPrefix|..];
    }
  }

  /** The function code is the entity code of its job code: the prefix before
      the first underscore is dropped. */
  lemma TestJobCodeEntityCode(functionCode: string)
    ensures EntityCustomizationUtils.GetEntityCode(Some(TestJobCode(functionCode))) == Some(functionCode)
  {
    assert TestJobCode(functionCode) == "FunctionTestJob" + "_" + functionCode;
    EntityCustomizationUtils.EntityCodeRoundTrip("FunctionTestJob", functionCode);
  }

  /** The characters a regular-expression `.` does not match. */
  predicate LineTerminator(c: char) {
    c == '\n' || c == '\r' || c == '\U{0085}' || c == '\U{2028}' || c == '\U{2029}'
  }

  /** A closing tag at `j` that `.*` can reach from `from` without crossing a line end. */
  predicate ClosesAt(s: string, from: int, j: int) {
    0 <= from <= j && OccursAt(s, CloseTag, j) &&
    forall k :: from <= k < j ==> !LineTerminator(s[k])
  }

  /** Some closing tag is reachable from `from`. */
  ghost predicate HasClose(s: string, from: int) {
    exists j :: from <= j <= |s| && ClosesAt(s, from, j)
  }

  /** The pattern matches starting at `i`. */
  ghost predicate MatchesAt(s: string, i: int) {
    OccursAt(s, OpenTag, i) && HasClose(s, i + |OpenTag|)
  }

  /** No reachable closing tag lies beyond `e`: `.*` takes as much as it can. */
  ghost predicate Greedy(s: string, from: int, e: int) {
    forall j :: ClosesAt(s, from, j) ==> j <= e
  }

  /** No match starts in `[lo, hi)`. */
  ghost predicate NoMatchIn(s: string, lo: int, hi: int) {
    forall i :: lo <= i < hi ==> !MatchesAt(s, i)
  }

  /** The match a `find()` reports: it starts at `i`, no match starts earlier,
      and its group ends at the last reachable closing tag `j`. */
  ghost predicate FirstMatch(s: string, i: int, j: int) {
    MatchesAt(s, i) && NoMatchIn(s, 0, i) &&
    ClosesAt(s, i + |OpenTag|, j) && Greedy(s, i + |OpenTag|, j)
  }

  /** There is at most one first match. */
  lemma FirstMatchUnique(s: string, i: int, j: int, i2: int, j2: int)
    requires FirstMatch(s, i, j) && FirstMatch(s, i2, j2)
    ensures i == i2 && j == j2
  {
    assert !(i < i2) && !(i2 < i);
  }

  /** The first index at or after `from` that ends the line, or `|s|`. */
  function LineEnd(s: string, from: nat): (e: nat)
    requires from <= |s|
    ensures from <= e <= |s|
    ensures e < |s| ==> LineTerminator(s[e])
    ensures forall k :: from <= k < e ==> !LineTerminator(s[k])
    decreases |s| - from
  {
    if from == |s| || LineTerminator(s[from]) then from else LineEnd(s, from + 1)
  }

  /** The last closing tag starting in `[from, hi]`, searching downwards. */
  function LastCloseIn(s: string, from: nat, hi: int): (r: Option<nat>)
    ensures r.Some? ==> from <= r.value <= hi && OccursAt(s, CloseTag, r.value)
    ensures forall j :: (r.None? ==> from <= j) && (r.Some? ==> r.value < j) && j <= hi ==>
              !OccursAt(s, CloseTag, j)
    decreases hi - from
  {
    if hi < from then None
    else if OccursAt(s, CloseTag, hi) then Some(hi)
    else LastCloseIn(s, from, hi - 1)
  }

  /** A closing tag cannot straddle a line end, because it contains none. */
  lemma CloseBeforeLineEnd(s: string, from: nat, j: int)
    requires from <= |s|
    requires ClosesAt(s, from, j)
    ensures j + |CloseTag| <= LineEnd(s, from)
  {
    var e := LineEnd(s, from);
    forall k | j <= k < j + |CloseTag|
      ensures k < |s| && !LineTerminator(s[k])
    {
      assert s[k] == CloseTag[k - j];
    }
    assert e < |s| ==> LineTerminator(s[e]);
  }

  /** The greedy group end for a match starting at `i`, if there is a match. */
  function GroupEnd(s: string, i: nat): (r: Option<nat>)
    requires OccursAt(s, OpenTag, i)
    ensures r.Some? ==> ClosesAt(s, i + |OpenTag|, r.value) && Greedy(s, i + |OpenTag|, r.value)
    ensures r.None? <==> !MatchesAt(s, i)
  {
    var from := i + |OpenTag|;
    var e := LineEnd(s, from);
    var r := LastCloseIn(s, from, e - |CloseTag|);
    forall j | ClosesAt(s, from, j)
      ensures r.Some? && j <= r.value
    {
      CloseBeforeLineEnd(s, from, j);
    }
    assert r.Some? ==> ClosesAt(s, from, r.value);
    r
  }

  /** The start of the first match at or after `from`. */
  function FindFrom(s: string, from: nat): (r: Option<nat>)
    ensures r.Some? ==> from <= r.value && MatchesAt(s, r.value) && NoMatchIn(s, from, r.value)
    ensures r.None? ==> forall i :: from <= i ==> !MatchesAt(s, i)
    decreases |s| - from
  {
    if from + |OpenTag| > |s| then
      None
    else if OccursAt(s, OpenTag, from) && GroupEnd(s, from).Some? then
      Some(from)
    else
      var r := FindFrom(s, from + 1);
      NoMatchInExtend(s, from, if r.Some? then r.value else from + 1);
      r
  }

  /** A search range extended downwards by a position where nothing matches. */
  lemma NoMatchInExtend(s: string, from: nat, hi: int)
    requires !(OccursAt(s, OpenTag, from) && GroupEnd(s, from).Some?)
    requires NoMatchIn(s, from + 1, hi)
    ensures NoMatchIn(s, from, hi) && !MatchesAt(s, from)
  {
  }

  /** The group the periodicity pattern captures on its first match, if any:
      from the end of the opening tag to the end the greedy `.*` reaches. */
  function Periodicity(testSuite: string): (r: Option<string>)
    ensures r.None? <==> forall i :: !MatchesAt(testSuite, i)
    ensures r.Some? ==> exists i, j :: FirstMatch(testSuite, i, j) && r.value == testSuite[i + |OpenTag|..j]
  {
    match FindFrom(testSuite, 0)
    case None => None
    case Some(i) =>
      var j := GroupEnd(testSuite, i).value;
      assert FirstMatch(testSuite, i, j);
      Some(testSuite[i + |OpenTag|..j])
  }

  /** The code of the timer the test job runs on. */
  function TimerCode(testSuite: string): (r: string)
    ensures Periodicity(testSuite).Some? ==> r == Periodicity(testSuite).value
    ensures Periodicity(testSuite).None? ==> r == DefaultTimerCode
  {
    match Periodicity(testSuite)
    case Some(p) => p
    case None => DefaultTimerCode
  }

  /** An occurrence of the opening tag cannot overlap another one. */
  lemma OpenTagNoSelfOverlap(s: string, a: int, b: int)
    requires OccursAt(s, OpenTag, a) && a < b < a + |OpenTag|
    ensures !OccursAt(s, OpenTag, b)
  {
    assert s[b] == OpenTag[b - a];
    assert forall k :: 1 <= k < |OpenTag| ==> OpenTag[k] != '<';
    OccursAtHead(s, OpenTag, b);
  }

  /** An occurrence of the closing tag cannot overlap another one. */
  lemma CloseTagNoSelfOverlap(s: string, a: int, b: int)
    requires OccursAt(s, CloseTag, a) && a < b < a + |CloseTag|
    ensures !OccursAt(s, CloseTag, b)
  {
    assert s[b] == CloseTag[b - a];
    assert forall k :: 1 <= k < |CloseTag| ==> CloseTag[k] != '<';
    OccursAtHead(s, CloseTag, b);
  }

  /** A test suite holding one periodicity property at the end of its line. */
  function Suite(before: string, code: string, after: string): string {
    before + OpenTag + code + CloseTag + after
  }

  /** Nothing before the property can start a match. */
  lemma NoEarlierOpen(before: string, code: string, after: string, i: int)
    requires !Contains(before, OpenTag)
    requires 0 <= i < |before|
    ensures !OccursAt(Suite(before, code, after), OpenTag, i)
  {
    var s := Suite(before, code, after);
    assert OccursAt(s, OpenTag, |before|) by {
      assert s[|before|..|before| + |OpenTag|] == OpenTag;
    }
    if i + |OpenTag| <= |before| {
      assert !OccursAt(before, OpenTag, i);
      assert s[i..i + |OpenTag|] == before[i..i + |OpenTag|];
    } else {
      if OccursAt(s, OpenTag, i) {
        OpenTagNoSelfOverlap(s, i, |before|);
        assert false;
      }
    }
  }

  /** No closing tag reachable from the property's value lies past its own. */
  lemma NoLaterClose(before: string, code: string, after: string, j': int)
    requires |after| > 0 && LineTerminator(after[0])
    requires ClosesAt(Suite(before, code, after), |before| + |OpenTag|, j')
    ensures j' <= |before| + |OpenTag| + |code|
  {
    var s := Suite(before, code, after);
    var j := |before| + |OpenTag| + |code|;
    var t := j + |CloseTag|;
    assert s[t] == after[0];
    assert s[j..t] == CloseTag;
    if j < j' < t {
      CloseTagNoSelfOverlap(s, j, j');
      assert false;
    } else if j' == t {
      assert false;
    } else if t < j' {
      assert false;
    }
  }

  /** A test suite whose periodicity property ends its line, with no opening
      tag before it and no line break inside its value, runs on the timer that
      value names. */
  lemma PeriodicityOfProperty(before: string, code: string, after: string)
    requires !Contains(before, OpenTag)
    requires forall k :: 0 <= k < |code| ==> !LineTerminator(code[k])
    requires |after| > 0 && LineTerminator(after[0])
    ensures TimerCode(Suite(before, code, after)) == code
  {
    var s := Suite(before, code, after);
    var i := |before|;
    var from := i + |OpenTag|;
    var j := from + |code|;
    assert s[i..from] == OpenTag;
    assert s[j..j + |CloseTag|] == CloseTag;
    assert s[from..j] == code;
    assert ClosesAt(s, from, j) by {
      forall k | from <= k < j
        ensures !LineTerminator(s[k])
      {
        assert s[k] == code[k - from];
      }
    }
    assert MatchesAt(s, i);
    forall i' | 0 <= i' < i
      ensures !MatchesAt(s, i')
    {
      NoEarlierOpen(before, code, after, i');
    }
    forall j' | ClosesAt(s, from, j')
      ensures j' <= j
    {
      NoLaterClose(before, code, after, j');
    }
    assert FirstMatch(s, i, j);
    var i2, j2 :| FirstMatch(s, i2, j2) && Periodicity(s).value == s[i2 + |OpenTag|..j2];
    FirstMatchUnique(s, i, j, i2, j2);
  }

  /** The job categories and templates the create path sets. */
  datatype JobCategory = TestCategory | OtherCategory(name: string)
  datatype JobTemplate = FunctionTestJobTemplate | OtherTemplate(name: string)

  /** A job instance, as far as the test scheduling touches it. */
  datatype JobInstance = JobInstance(
    id: Option<int>,
    code: string,
    category: Option<JobCategory>,
    template: Option<JobTemplate>,
    parameters: Option<string>,
    timer: Option<TimerEntityDto.TimerEntity>)

  /** What the job service is asked to do. */
  datatype JobAction = Create(code: string) | Update(code: string) | Reschedule(id: Option<int>)

  /** The job service's view: jobs by code; the timers by code. */
  datatype Stores = Stores(
    jobs: map<string, JobInstance>,
    timers: map<string, TimerEntityDto.TimerEntity>)

  /** Every timer is stored under its own code. */
  predicate TimersByCode(stores: Stores) {
    forall c :: c in stores.timers ==> stores.timers[c].code == Some(c)
  }

  /** `timerEntityService.findByCode(code)`: null when no timer has the code;
      a timer found carries the code asked for. */
  function FindTimer(stores: Stores, code: string): (r: Option<TimerEntityDto.TimerEntity>)
    ensures r.None? <==> code !in stores.timers
    ensures TimersByCode(stores) && r.Some? ==> r.value.code == Some(code)
  {
    if code in stores.timers then Some(stores.timers[code]) else None
  }

  /** The scheduling part of `updateTest(functionCode, file)`, given the suite's
      text: creates the test job when none exists, otherwise swaps its timer,
      updates it and reschedules it. */
  function ScheduleTest(stores: Stores, functionCode: string, testSuite: string):
    (r: (Stores, seq<JobAction>))
    ensures r.0.timers == stores.timers
    ensures r.0.jobs.Keys == stores.jobs.Keys + {TestJobCode(functionCode)}
    ensures forall c :: c in stores.jobs && c != TestJobCode(functionCode) ==> r.0.jobs[c] == stores.jobs[c]
    ensures r.0.jobs[TestJobCode(functionCode)].timer == FindTimer(stores, TimerCode(testSuite))
    ensures TestJobCode(functionCode) !in stores.jobs ==>
              r.1 == [Create(TestJobCode(functionCode))] &&
              r.0.jobs[TestJobCode(functionCode)] ==
                JobInstance(None, TestJobCode(functionCode), Some(TestCategory),
                            Some(FunctionTestJobTemplate), Some(functionCode),
                            FindTimer(stores, TimerCode(testSuite)))
    ensures TestJobCode(functionCode) in stores.jobs ==>
              var prior := stores.jobs[TestJobCode(functionCode)];
              r.1 == [Update(TestJobCode(functionCode)), Reschedule(prior.id)] &&
              r.0.jobs[TestJobCode(functionCode)] == prior.(timer := FindTimer(stores, TimerCode(testSuite)))
  {
    var jobCode := TestJobCode(functionCode);
    var timer := FindTimer(stores, TimerCode(testSuite));
    if jobCode !in stores.jobs then
      var job := JobInstance(None, jobCode, Some(TestCategory), Some(FunctionTestJobTemplate),
                             Some(functionCode), timer);
      (stores.(jobs := stores.jobs[jobCode := job]), [Create(jobCode)])
    else
      var job := stores.jobs[jobCode].(timer := timer);
      (stores.(jobs := stores.jobs[jobCode := job]), [Update(jobCode), Reschedule(job.id)])
  }

  /** Uploading a test suite twice leaves the same jobs as uploading it once:
      the second upload only re-applies the same timer. */
  lemma ScheduleTestIdempotent(stores: Stores, functionCode: string, testSuite: string)
    ensures var once := ScheduleTest(stores, functionCode, testSuite).0;
            ScheduleTest(once, functionCode, testSuite).0 == once
  {
  }

  /** A stored function, with the inputs and outputs its service reports. */
  datatype Function = Function(code: string, testSuite: Option<string>, inputs: seq<string>, outputs: seq<string>)

  datatype FunctionDto = FunctionDto(code: string, testSuite: Option<string>, inputs: seq<string>, outputs: seq<string>)

  /** `find(code)`: null for an unknown code, otherwise the function's DTO. */
  function Find(functions: map<string, Function>, code: string): (r: Option<FunctionDto>)
    ensures r.None? <==> code !in functions
    ensures r.Some? ==> r.value.code == functions[code].code && r.value.testSuite == functions[code].testSuite
    ensures r.Some? ==> r.value.inputs == functions[code].inputs && r.value.outputs == functions[code].outputs
  {
    if code !in functions then None
    else
      var f := functions[code];
      Some(FunctionDto(f.code, f.testSuite, f.inputs, f.outputs))
  }

  /** The DTO `find` returns loses nothing of the stored function: the function
      is rebuilt from it field by field. */
  lemma FindLosesNothing(functions: map<string, Function>, code: string)
    requires code in functions
    ensures Find(functions, code).Some?
    ensures var d := Find(functions, code).value;
            Function(d.code, d.testSuite, d.inputs, d.outputs) == functions[code]
  {
  }

  /** Storing a function under one code changes what `find` returns for that
      code only. */
  lemma FindAfterStore(functions: map<string, Function>, code: string, f: Function, other: string)
    ensures Find(functions[code := f], code) == Some(FunctionDto(f.code, f.testSuite, f.inputs, f.outputs))
    ensures other != code ==> Find(functions[code := f], other) == Find(functions, other)
  {
  }
}

=== FILE: graphql_entities.dfy ===
/** `getEntities()`: the entity map the schema is rendered from, built from
    abstract templates.

    The map starts with the binary entity. Every custom entity template (CET)
    adds an entity under its code: the fields of its custom field templates,
    `meveo_uuid`, and, when the CET is stored in Neo4j, its query fields and a
    `value` field for a primitive entity. Every custom relationship template
    (CRT) whose relation, start and end are all stored in Neo4j then adds its
    own type, with `to` and `from` fields, and injects relation fields into the
    start node's descendants (the sources) and the end node's descendants (the
    targets).

    The template services, the binary entity and the file label are inputs.
    CETs are visited in the given order; the source iterates a hash map, whose
    order this model does not fix. */
module GraphQLEntities {
  import opened Results
  import opened Strings
  import opened GraphQLModel
  import opened GraphQLMapping
  import opened GraphQLValidate

  /** `PrimitiveTypeEnum`; `OtherPrimitive` stands for a value the switch does
      not name, which leaves the type unset. */
  datatype PrimitiveType = StringPrimitive | LongPrimitive | DatePrimitive | DoublePrimitive | OtherPrimitive

  /** A query field a CET declares for its Neo4j storage. */
  datatype QueryField = QueryField(
    fieldName: string,
    fieldType: Option<string>,
    query: Option<string>,
    multivalued: bool)

  /** A CET's Neo4j storage configuration; the query field list may be null
      and so may the primitive type. */
  datatype Neo4jConfig = Neo4jConfig(
    queryFields: Option<seq<QueryField>>,
    primitiveEntity: bool,
    primitiveType: Option<PrimitiveType>)

  /** A custom entity template. `fieldTemplates` are its CFTs with the
      inherited ones, `ownFieldTemplates` those that apply to it alone,
      `descendance` the codes of the template and its sub-templates. */
  datatype Cet = Cet(
    code: string,
    storages: Option<seq<Storage>>,
    fieldTemplates: seq<Cft>,
    ownFieldTemplates: seq<Cft>,
    neo4j: Option<Neo4jConfig>,
    descendance: seq<string>)

  /** A custom relationship template, with its start and end node templates. */
  datatype Crt = Crt(
    name: string,
    storages: Option<seq<Storage>>,
    start: Cet,
    end: Cet,
    fieldTemplates: seq<Cft>,
    graphQlTypeName: Option<string>,
    sourceNameSingular: Option<string>,
    sourceNamePlural: Option<string>,
    relationshipsFieldSource: Option<string>,
    targetNameSingular: Option<string>,
    targetNamePlural: Option<string>,
    relationshipsFieldTarget: Option<string>)

  /** The exceptions `getEntities` lets escape: two CETs with one code, and a
      null dereference. */
  datatype EntitiesError = DuplicateKey | NullPointer

  /* ---------------- The map: what it holds, and growth ---------------- */

  /** The map holds field `f` in the entity named `n`. */
  predicate Has(m: seq<Entity>, n: string, f: Field) {
    var o := Lookup(m, n);
    o.Some? && f in o.value.fields
  }

  /** Every field of every entity of `m` is still there in `m2`. */
  ghost predicate Grows(m: seq<Entity>, m2: seq<Entity>) {
    forall n, f :: Has(m, n, f) ==> Has(m2, n, f)
  }

  /** `add` loses nothing, and the entity's name then holds all of its fields. */
  lemma AddGrows(m: seq<Entity>, e: Entity)
    requires Sorted(m)
    ensures Grows(m, Add(m, e))
    ensures forall f :: f in e.fields ==> Has(Add(m, e), e.name, f)
  {
    forall n, f | Has(m, n, f)
      ensures Has(Add(m, e), n, f)
    {
      AddLookup(m, e, n);
      if n == e.name {
        UnionFieldsContents(Lookup(m, n).value.fields, e.fields);
      }
    }
    AddLookup(m, e, e.name);
    match Lookup(m, e.name)
    case None =>
    case Some(o) =>
      UnionFieldsContents(o.fields, e.fields);
  }

  /* ---------------- The fields of a CET ---------------- */

  /** Added to every CET: `new GraphQLField("meveo_uuid", "String", true)`. */
  const MeveoUuid: Field := Field("meveo_uuid", Some("String"), false, true, None)

  function QueryFieldOf(q: QueryField): Field {
    Field(q.fieldName, q.fieldType, q.multivalued, false, q.query)
  }

  function QueryFields(qs: seq<QueryField>): (r: seq<Field>)
    ensures |r| == |qs| && forall i :: 0 <= i < |qs| ==> r[i] == QueryFieldOf(qs[i])
  {
    if |qs| == 0 then [] else [QueryFieldOf(qs[0])] + QueryFields(qs[1..])
  }

  /** The type of a primitive entity's `value` field; a primitive type the
      switch does not name leaves it null. */
  function ValueType(t: PrimitiveType): (r: Option<string>)
    ensures r.None? <==> t == OtherPrimitive
    ensures r.Some? ==> IsBuiltin(r.value) && r.value != "ID" && r.value != "Boolean"
    ensures r == Some("GraphQLLong") <==> t == LongPrimitive || t == DatePrimitive
  {
    match t
    case StringPrimitive => Some("String")
    case LongPrimitive | DatePrimitive => Some("GraphQLLong")
    case DoublePrimitive => Some("GraphQLBigDecimal")
    case OtherPrimitive => None
  }

  function ValueField(t: PrimitiveType): Field {
    Field("value", ValueType(t), false, true, None)
  }

  /** Some field of `fs` is named `n`. */
  predicate HasFieldNamed(fs: seq<Field>, n: string) {
    exists i :: 0 <= i < |fs| && fs[i].name == n
  }

  /** The field set of one CET. It fails only for a CET stored in Neo4j, when
      the Neo4j configuration is null or a primitive entity that needs a
      `value` field has no primitive type. */
  function CetFields(c: Cet, fileLabel: string): (r: Result<seq<Field>, EntitiesError>)
    ensures r.Failure? ==> r.error == NullPointer && InNeo4j(c.storages)
    ensures InNeo4j(c.storages) && c.neo4j.None? ==> r.Failure?
    ensures r.Success? ==> NoDuplicates(r.value) && MeveoUuid in r.value
    ensures r.Success? ==> forall f :: f in GraphQLFields(c.fieldTemplates, fileLabel) ==> f in r.value
    ensures !InNeo4j(c.storages) ==>
              r.Success? &&
              forall f :: f in r.value <==> f in GraphQLFields(c.fieldTemplates, fileLabel) || f == MeveoUuid
    ensures r.Success? && InNeo4j(c.storages) ==>
              forall q :: q in c.neo4j.value.queryFields.GetOr([]) ==> QueryFieldOf(q) in r.value
    ensures r.Success? && InNeo4j(c.storages) && c.neo4j.value.primitiveEntity ==>
              HasFieldNamed(r.value, "value")
  {
    var base := AddField(GraphQLFields(c.fieldTemplates, fileLabel), MeveoUuid);
    BaseFields(c, fileLabel);
    if !InNeo4j(c.storages) then Success(base)
    else
      match c.neo4j
      case None => Failure(NullPointer)
      case Some(cfg) =>
        var qs := cfg.queryFields.GetOr([]);
        var withQueries := UnionFields(base, QueryFields(qs));
        WithQueries(base, qs);
        if !cfg.primitiveEntity || HasFieldNamed(withQueries, "value") then Success(withQueries)
        else
          match cfg.primitiveType
          case None => Failure(NullPointer)
          case Some(t) =>
            ValueAdded(withQueries, t);
            Success(AddField(withQueries, ValueField(t)))
  }

  /** The mapped fields and `meveo_uuid`, without duplicates. */
  lemma BaseFields(c: Cet, fileLabel: string)
    ensures var base := AddField(GraphQLFields(c.fieldTemplates, fileLabel), MeveoUuid);
            NoDuplicates(base) && MeveoUuid in base &&
            forall f :: f in base <==> f in GraphQLFields(c.fieldTemplates, fileLabel) || f == MeveoUuid
  {
  }

  /** The query fields joined to a field set. */
  lemma WithQueries(base: seq<Field>, qs: seq<QueryField>)
    requires NoDuplicates(base)
    ensures var r := UnionFields(base, QueryFields(qs));
            NoDuplicates(r) && (forall f :: f in base ==> f in r) &&
            forall q :: q in qs ==> QueryFieldOf(q) in r
  {
    UnionFieldsContents(base, QueryFields(qs));
    var r := UnionFields(base, QueryFields(qs));
    forall q | q in qs
      ensures QueryFieldOf(q) in r
    {
      var i :| 0 <= i < |qs| && qs[i] == q;
      assert QueryFields(qs)[i] == QueryFieldOf(q);
    }
  }

  /** The `value` field added to a field set that had none. */
  lemma ValueAdded(fs: seq<Field>, t: PrimitiveType)
    requires NoDuplicates(fs)
    ensures var r := AddField(fs, ValueField(t));
            NoDuplicates(r) && (forall f :: f in fs ==> f in r) && HasFieldNamed(r, "value")
  {
    var r := AddField(fs, ValueField(t));
    if ValueField(t) !in fs {
      assert r[|fs|] == ValueField(t);
    } else {
      var i :| 0 <= i < |fs| && fs[i] == ValueField(t);
      assert r[i].name == "value";
    }
  }

  /* ---------------- The CET pass ---------------- */

  /** The codes of a list of CETs. */
  function Codes(cs: seq<Cet>): (r: set<string>)
    ensures forall n :: n in r <==> exists i :: 0 <= i < |cs| && cs[i].code == n
  {
    set i | 0 <= i < |cs| :: cs[i].code
  }

  lemma CodesCons(cs: seq<Cet>)
    requires |cs| > 0
    ensures Codes(cs) == {cs[0].code} + Codes(cs[1..])
  {
    forall n | n in Codes(cs) && n != cs[0].code
      ensures n in Codes(cs[1..])
    {
      var i :| 0 <= i < |cs| && cs[i].code == n;
      assert cs[1..][i - 1].code == n;
    }
    forall n | n in Codes(cs[1..])
      ensures n in Codes(cs)
    {
      var i :| 0 <= i < |cs[1..]| && cs[1..][i].code == n;
      assert cs[i + 1].code == n;
    }
  }

  /** Each CET's entity added to the map in turn. */
  function AddCets(m: seq<Entity>, cs: seq<Cet>, fileLabel: string): (r: Result<seq<Entity>, EntitiesError>)
    requires Sorted(m)
    ensures r.Failure? ==> r.error == NullPointer
    ensures r.Success? ==> Sorted(r.value) && Names(r.value) == Names(m) + Codes(cs)
    decreases |cs|
  {
    if |cs| == 0 then Success(m)
    else
      match CetFields(cs[0], fileLabel)
      case Failure(e) => Failure(e)
      case Success(fs) =>
        CodesCons(cs);
        AddCets(Add(m, Entity(cs[0].code, fs)), cs[1..], fileLabel)
  }

  /** The CET pass loses nothing, and leaves every CET's fields under its code. */
  lemma {:induction false} AddCetsHas(m: seq<Entity>, cs: seq<Cet>, fileLabel: string)
    requires Sorted(m) && AddCets(m, cs, fileLabel).Success?
    ensures Grows(m, AddCets(m, cs, fileLabel).value)
    ensures forall i, f ::
              (0 <= i < |cs| && CetFields(cs[i], fileLabel).Success? && f in CetFields(cs[i], fileLabel).value) ==>
              Has(AddCets(m, cs, fileLabel).value, cs[i].code, f)
    decreases |cs|
  {
    if |cs| > 0 {
      var fs := CetFields(cs[0], fileLabel).value;
      var m1 := Add(m, Entity(cs[0].code, fs));
      var r := AddCets(m, cs, fileLabel).value;
      assert r == AddCets(m1, cs[1..], fileLabel).value;
      AddGrows(m, Entity(cs[0].code, fs));
      AddCetsHas(m1, cs[1..], fileLabel);
      forall i, f | 0 <= i < |cs| && CetFields(cs[i], fileLabel).Success? &&
                    f in CetFields(cs[i], fileLabel).value
        ensures Has(r, cs[i].code, f)
      {
        if i > 0 {
          assert cs[1..][i - 1] == cs[i];
        }
      }
    }
  }

  /** The CET pass fails exactly when some CET's field set does. */
  lemma {:induction false} AddCetsFails(m: seq<Entity>, cs: seq<Cet>, fileLabel: string)
    requires Sorted(m)
    ensures AddCets(m, cs, fileLabel).Failure? <==>
              exists i :: 0 <= i < |cs| && CetFields(cs[i], fileLabel).Failure?
    decreases |cs|
  {
    if |cs| > 0 {
      match CetFields(cs[0], fileLabel)
      case Failure(_) =>
      case Success(fs) =>
        AddCetsFails(Add(m, Entity(cs[0].code, fs)), cs[1..], fileLabel);
        if exists i :: 0 <= i < |cs| && CetFields(cs[i], fileLabel).Failure? {
          var i :| 0 <= i < |cs| && CetFields(cs[i], fileLabel).Failure?;
          assert cs[1..][i - 1] == cs[i];
        }
        if exists i :: 0 <= i < |cs[1..]| && CetFields(cs[1..][i], fileLabel).Failure? {
          var i :| 0 <= i < |cs[1..]| && CetFields(cs[1..][i], fileLabel).Failure?;
          assert cs[i + 1] == cs[1..][i];
        }
    }
  }

  /* ---------------- Relationships ---------------- */

  /** The relation and both of its nodes are stored in Neo4j. */
  predicate Included(t: Crt) {
    InNeo4j(t.storages) && InNeo4j(t.end.storages) && InNeo4j(t.start.storages)
  }

  /** The GraphQL type of a relationship: its own name when set, otherwise the
      end node's code followed by `Relation`. */
  function TypeName(t: Crt): (r: string)
    ensures t.graphQlTypeName.Some? ==> r == t.graphQlTypeName.value
    ensures t.graphQlTypeName.None? ==> StartsWith(r, t.end.code) && r[|t.end.code|..] == "Relation"
  {
    var r := t.graphQlTypeName.GetOr(t.end.code + "Relation");
    assert t.graphQlTypeName.None? ==> r[..|t.end.code|] == t.end.code;
    r
  }

  function ToField(t: Crt): Field {
    Field("to", Some(t.end.code), false, false, Some("@cypher(statement: \"MATCH ()-[this]->(to) RETURN to\")"))
  }

  function FromField(t: Crt): Field {
    Field("from", Some(t.start.code), false, false, Some("@cypher(statement: \"MATCH (from)-[this]->() RETURN from\")"))
  }

  /** The relationship type's own fields: its CFTs' fields, `to` and `from`. */
  function RelationFields(t: Crt, fileLabel: string): (r: seq<Field>)
    ensures ToField(t) in r && FromField(t) in r
    ensures forall f :: f in GraphQLFields(t.fieldTemplates, fileLabel) ==> f in r
  {
    AddField(AddField(GraphQLFields(t.fieldTemplates, fileLabel), ToField(t)), FromField(t))
  }

  /** A field named by an optional template property, pointing at `target`. */
  function Named(name: Option<string>, multivalued: bool, target: string, query: string): (r: seq<Field>)
    ensures name.None? <==> r == []
    ensures name.Some? ==> r == [Field(name.value, Some(target), multivalued, false, Some(query))]
  {
    match name
    case None => []
    case Some(n) => [Field(n, Some(target), multivalued, false, Some(query))]
  }

  /** An entity reference of the start node that follows this relationship
      to the end node, as a field of the source. */
  function RefField(c: Cft, t: Crt): Field {
    Field(c.code, Some(t.end.code), c.storageType == ListStorage, false, Some(RelationQuery(t.name, "OUT")))
  }

  /** An entity reference of the start node to the end node under this
      relationship's name. */
  predicate RefersTo(c: Cft, t: Crt) {
    c.fieldType == EntityType && c.entityClazzCetCode == Some(t.end.code) && c.relationshipName == Some(t.name)
  }

  /** Some template of `cs` is an entity reference that follows `t` and gives
      field `f`. */
  predicate RefOf(cs: seq<Cft>, t: Crt, f: Field) {
    exists i :: 0 <= i < |cs| && RefersTo(cs[i], t) && f == RefField(cs[i], t)
  }

  /** Some template of `cs` is an entity reference with a null target code. */
  predicate NullTarget(cs: seq<Cft>) {
    exists i :: 0 <= i < |cs| && cs[i].fieldType == EntityType && cs[i].entityClazzCetCode.None?
  }

  /** The start node's entity references to the end node through this
      relationship, in template order. The filter dereferences each entity
      reference's target code, so a null one fails. */
  function EntityRefs(cs: seq<Cft>, t: Crt): (r: Result<seq<Field>, EntitiesError>)
    ensures r.Failure? <==> NullTarget(cs)
    ensures r.Failure? ==> r.error == NullPointer
    ensures r.Success? ==> forall f :: f in r.value <==> RefOf(cs, t, f)
  {
    if |cs| == 0 then Success([])
    else
      var rest := EntityRefs(cs[1..], t);
      EntityRefsStep(cs, t);
      var c := cs[0];
      if c.fieldType != EntityType then rest
      else if c.entityClazzCetCode.None? then Failure(NullPointer)
      else if !RefersTo(c, t) || rest.Failure? then rest
      else Success([RefField(c, t)] + rest.value)
  }

  /** Both predicates split into the first template and the rest. */
  lemma EntityRefsStep(cs: seq<Cft>, t: Crt)
    requires |cs| > 0
    ensures NullTarget(cs) <==>
              (cs[0].fieldType == EntityType && cs[0].entityClazzCetCode.None?) || NullTarget(cs[1..])
    ensures forall f :: RefOf(cs, t, f) <==>
              (RefersTo(cs[0], t) && f == RefField(cs[0], t)) || RefOf(cs[1..], t, f)
  {
    if NullTarget(cs) {
      var i :| 0 <= i < |cs| && cs[i].fieldType == EntityType && cs[i].entityClazzCetCode.None?;
      if i > 0 {
        assert cs[1..][i - 1] == cs[i];
      }
    }
    if NullTarget(cs[1..]) {
      var i :| 0 <= i < |cs[1..]| && cs[1..][i].fieldType == EntityType && cs[1..][i].entityClazzCetCode.None?;
      assert cs[i + 1] == cs[1..][i];
    }
    forall f
      ensures RefOf(cs, t, f) <==> (RefersTo(cs[0], t) && f == RefField(cs[0], t)) || RefOf(cs[1..], t, f)
    {
      if RefOf(cs, t, f) {
        var i :| 0 <= i < |cs| && RefersTo(cs[i], t) && f == RefField(cs[i], t);
        if i > 0 {
          assert cs[1..][i - 1] == cs[i];
        }
      }
      if RefOf(cs[1..], t, f) {
        var i :| 0 <= i < |cs[1..]| && RefersTo(cs[1..][i], t) && f == RefField(cs[1..][i], t);
        assert cs[i + 1] == cs[1..][i];
      }
    }
  }

  /** The fields a relationship gives each source: the entity references, the
      singular and plural names and the relationships field. */
  function SourceFields(t: Crt): (r: Result<seq<Field>, EntitiesError>)
    ensures r.Failure? <==> EntityRefs(t.start.ownFieldTemplates, t).Failure?
  {
    var out := RelationQuery(t.name, "OUT");
    var rels := "@cypher(statement: \"MATCH (this)-[rel:" + t.name + "]->(n:" + t.end.code + ") RETURN rel\")";
    match EntityRefs(t.start.ownFieldTemplates, t)
    case Failure(e) => Failure(e)
    case Success(refs) =>
      Success(refs +
              Named(t.sourceNameSingular, false, t.end.code, out) +
              Named(t.sourceNamePlural, true, t.end.code, out) +
              Named(t.relationshipsFieldSource, true, TypeName(t), rels))
  }

  /** The fields a relationship gives each target. */
  function TargetFields(t: Crt): seq<Field> {
    var inward := RelationQuery(t.name, "IN");
    var rels := "@cypher(statement: \"MATCH (n:" + t.start.code + ")-[rel:" + t.name + "]->(this) RETURN rel\")";
    Named(t.targetNameSingular, false, t.start.code, inward) +
    Named(t.targetNamePlural, true, t.start.code, inward) +
    Named(t.relationshipsFieldTarget, true, TypeName(t), rels)
  }

  /** The fields added to the entity under each code. A code absent from the
      map is dereferenced as null, unless there is nothing to add. */
  function InjectFields(m: seq<Entity>, codes: seq<string>, fs: seq<Field>): (r: Result<seq<Entity>, EntitiesError>)
    requires Sorted(m)
    ensures r.Failure? ==> r.error == NullPointer
    ensures r.Success? ==> Sorted(r.value) && Names(r.value) == Names(m)
    decreases |codes|
  {
    if |codes| == 0 || |fs| == 0 then Success(m)
    else if codes[0] !in Names(m) then Failure(NullPointer)
    else
      InjectKeepsNames(m, codes[0], fs);
      InjectFields(Add(m, Entity(codes[0], fs)), codes[1..], fs)
  }

  lemma InjectKeepsNames(m: seq<Entity>, n: string, fs: seq<Field>)
    requires Sorted(m) && n in Names(m)
    ensures Names(Add(m, Entity(n, fs))) == Names(m)
  {
  }

  /** Injection fails exactly when there is something to add and some code is
      missing from the map; otherwise every code's entity holds every field
      and nothing is lost. */
  lemma {:induction false} InjectFieldsHas(m: seq<Entity>, codes: seq<string>, fs: seq<Field>)
    requires Sorted(m)
    ensures InjectFields(m, codes, fs).Failure? <==>
              |fs| > 0 && exists k :: 0 <= k < |codes| && codes[k] !in Names(m)
    ensures InjectFields(m, codes, fs).Success? ==>
              Grows(m, InjectFields(m, codes, fs).value) &&
              forall k, f :: 0 <= k < |codes| && f in fs ==> Has(InjectFields(m, codes, fs).value, codes[k], f)
    decreases |codes|
  {
    if |codes| > 0 && |fs| > 0 && codes[0] in Names(m) {
      var m1 := Add(m, Entity(codes[0], fs));
      InjectKeepsNames(m, codes[0], fs);
      AddGrows(m, Entity(codes[0], fs));
      InjectFieldsHas(m1, codes[1..], fs);
      var r := InjectFields(m, codes, fs);
      assert r == InjectFields(m1, codes[1..], fs);
      if exists k :: 0 <= k < |codes| && codes[k] !in Names(m) {
        var k :| 0 <= k < |codes| && codes[k] !in Names(m);
        assert codes[1..][k - 1] == codes[k];
      }
      if r.Success? {
        forall k, f | 0 <= k < |codes| && f in fs
          ensures Has(r.value, codes[k], f)
        {
          if k > 0 {
            assert codes[1..][k - 1] == codes[k];
          }
        }
      }
    }
  }

  /** The CET with a code; the source's `cetsByName.get(code)`. */
  function CetByCode(cs: seq<Cet>, code: string): (r: Option<Cet>)
    ensures r.None? <==> code !in Codes(cs)
    ensures r.Some? ==> r.value in cs && r.value.code == code
  {
    if |cs| == 0 then None
    else if cs[0].code == code then Some(cs[0])
    else
      CodesCons(cs);
      CetByCode(cs[1..], code)
  }

  /** The injection into the start node's descendants. When it has any, the
      start node's references are scanned, which can fail. */
  function InjectSources(m: seq<Entity>, src: Cet, t: Crt): (r: Result<seq<Entity>, EntitiesError>)
    requires Sorted(m)
    ensures r.Failure? ==> r.error == NullPointer
    ensures r.Success? ==> Sorted(r.value) && Names(r.value) == Names(m)
  {
    if |src.descendance| == 0 then Success(m)
    else
      match SourceFields(t)
      case Failure(e) => Failure(e)
      case Success(fs) => InjectFields(m, src.descendance, fs)
  }

  /** One relationship: skipped unless it and both nodes are in Neo4j;
      otherwise sources and targets get their fields and the relationship's
      type is added. Start and end codes are looked up among the CETs. */
  function RelationStep(m: seq<Entity>, cets: seq<Cet>, t: Crt, fileLabel: string): (r: Result<seq<Entity>, EntitiesError>)
    requires Sorted(m)
    ensures r.Failure? ==> r.error == NullPointer && Included(t)
    ensures r.Success? ==> Sorted(r.value) && Names(r.value) == Names(m) + RelationName(t)
  {
    if !Included(t) then Success(m)
    else
      match CetByCode(cets, t.start.code)
      case None => Failure(NullPointer)
      case Some(src) =>
        match InjectSources(m, src, t)
        case Failure(e) => Failure(e)
        case Success(m1) =>
          match CetByCode(cets, t.end.code)
          case None => Failure(NullPointer)
          case Some(tgt) =>
            match InjectFields(m1, tgt.descendance, TargetFields(t))
            case Failure(e) => Failure(e)
            case Success(m2) => Success(Add(m2, Entity(TypeName(t), RelationFields(t, fileLabel))))
  }

  /** The type name a relationship adds, if it is included. */
  function RelationName(t: Crt): set<string> {
    if Included(t) then {TypeName(t)} else {}
  }

  /** An included relationship's successful step, taken apart: the sources
      injected into `m` give `m1`, the targets injected into `m1` give `m2`,
      and the relationship's type is added to `m2`. */
  lemma RelationStepParts(m: seq<Entity>, cets: seq<Cet>, t: Crt, fileLabel: string)
      returns (src: Cet, tgt: Cet, m1: seq<Entity>, m2: seq<Entity>)
    requires Sorted(m) && Included(t) && RelationStep(m, cets, t, fileLabel).Success?
    ensures CetByCode(cets, t.start.code) == Some(src) && CetByCode(cets, t.end.code) == Some(tgt)
    ensures InjectSources(m, src, t) == Success(m1) && Sorted(m1)
    ensures InjectFields(m1, tgt.descendance, TargetFields(t)) == Success(m2) && Sorted(m2)
    ensures RelationStep(m, cets, t, fileLabel).value == Add(m2, Entity(TypeName(t), RelationFields(t, fileLabel)))
  {
    src := CetByCode(cets, t.start.code).value;
    tgt := CetByCode(cets, t.end.code).value;
    m1 := InjectSources(m, src, t).value;
    m2 := InjectFields(m1, tgt.descendance, TargetFields(t)).value;
  }

  /** Injecting the sources loses nothing and gives every descendant of the
      start node the source fields. */
  lemma InjectSourcesHas(m: seq<Entity>, src: Cet, t: Crt)
    requires Sorted(m) && InjectSources(m, src, t).Success?
    ensures Grows(m, InjectSources(m, src, t).value)
    ensures forall k, f :: 0 <= k < |src.descendance| && SourceFields(t).Success? && f in SourceFields(t).value ==>
              Has(InjectSources(m, src, t).value, src.descendance[k], f)
  {
    if |src.descendance| > 0 {
      InjectFieldsHas(m, src.descendance, SourceFields(t).value);
    }
  }

  /** A successful relationship step loses nothing, and an included
      relationship's type then holds `to`, `from` and its CFTs' fields. */
  lemma RelationStepHas(m: seq<Entity>, cets: seq<Cet>, t: Crt, fileLabel: string)
    requires Sorted(m) && RelationStep(m, cets, t, fileLabel).Success?
    ensures Grows(m, RelationStep(m, cets, t, fileLabel).value)
    ensures Included(t) ==>
              forall f :: f in RelationFields(t, fileLabel) ==> Has(RelationStep(m, cets, t, fileLabel).value, TypeName(t), f)
  {
    if Included(t) {
      var src, tgt, m1, m2 := RelationStepParts(m, cets, t, fileLabel);
      InjectSourcesHas(m, src, t);
      InjectFieldsHas(m1, tgt.descendance, TargetFields(t));
      AddGrows(m2, Entity(TypeName(t), RelationFields(t, fileLabel)));
    }
  }

  /** After an included relationship's step, every descendant of its start
      node holds the source fields and every descendant of its end node the
      target fields. */
  lemma RelationStepInjects(m: seq<Entity>, cets: seq<Cet>, t: Crt, fileLabel: string, src: Cet, tgt: Cet)
    requires Sorted(m) && Included(t) && RelationStep(m, cets, t, fileLabel).Success?
    requires CetByCode(cets, t.start.code) == Some(src) && CetByCode(cets, t.end.code) == Some(tgt)
    ensures forall k, f :: 0 <= k < |src.descendance| && SourceFields(t).Success? && f in SourceFields(t).value ==>
              Has(RelationStep(m, cets, t, fileLabel).value, src.descendance[k], f)
    ensures forall k, f :: 0 <= k < |tgt.descendance| && f in TargetFields(t) ==>
              Has(RelationStep(m, cets, t, fileLabel).value, tgt.descendance[k], f)
  {
    var s1, t1, m1, m2 := RelationStepParts(m, cets, t, fileLabel);
    InjectSourcesHas(m, src, t);
    InjectFieldsHas(m1, tgt.descendance, TargetFields(t));
    AddGrows(m2, Entity(TypeName(t), RelationFields(t, fileLabel)));
  }

  /** The relationships, in list order. */
  function AddRelations(m: seq<Entity>, cets: seq<Cet>, ts: seq<Crt>, fileLabel: string): (r: Result<seq<Entity>, EntitiesError>)
    requires Sorted(m)
    ensures r.Failure? ==> r.error == NullPointer
    ensures r.Success? ==> Sorted(r.value) && Names(r.value) == Names(m) + RelationNames(ts)
    decreases |ts|
  {
    if |ts| == 0 then Success(m)
    else
      match RelationStep(m, cets, ts[0], fileLabel)
      case Failure(e) => Failure(e)
      case Success(m1) =>
        RelationNamesCons(ts);
        AddRelations(m1, cets, ts[1..], fileLabel)
  }

  /** The type names of the included relationships. */
  function RelationNames(ts: seq<Crt>): (r: set<string>)
    ensures forall n :: n in r <==> exists i :: 0 <= i < |ts| && Included(ts[i]) && TypeName(ts[i]) == n
  {
    set i | 0 <= i < |ts| && Included(ts[i]) :: TypeName(ts[i])
  }

  lemma RelationNamesCons(ts: seq<Crt>)
    requires |ts| > 0
    ensures RelationNames(ts) == RelationName(ts[0]) + RelationNames(ts[1..])
  {
    forall n | n in RelationNames(ts)
      ensures n in RelationName(ts[0]) + RelationNames(ts[1..])
    {
      var i :| 0 <= i < |ts| && Included(ts[i]) && TypeName(ts[i]) == n;
      if i > 0 {
        assert ts[1..][i - 1] == ts[i];
      }
    }
    forall n | n in RelationNames(ts[1..])
      ensures n in RelationNames(ts)
    {
      var i :| 0 <= i < |ts[1..]| && Included(ts[1..][i]) && TypeName(ts[1..][i]) == n;
      assert ts[i + 1] == ts[1..][i];
    }
  }

  /** The first step of a successful relationship pass. */
  lemma AddRelationsStep(m: seq<Entity>, cets: seq<Cet>, ts: seq<Crt>, fileLabel: string) returns (m1: seq<Entity>)
    requires Sorted(m) && |ts| > 0 && AddRelations(m, cets, ts, fileLabel).Success?
    ensures RelationStep(m, cets, ts[0], fileLabel) == Success(m1) && Sorted(m1)
    ensures AddRelations(m1, cets, ts[1..], fileLabel) == AddRelations(m, cets, ts, fileLabel)
  {
    m1 := RelationStep(m, cets, ts[0], fileLabel).value;
  }

  /** The relationship pass loses nothing. */
  lemma {:induction false} AddRelationsGrows(m: seq<Entity>, cets: seq<Cet>, ts: seq<Crt>, fileLabel: string)
    requires Sorted(m) && AddRelations(m, cets, ts, fileLabel).Success?
    ensures Grows(m, AddRelations(m, cets, ts, fileLabel).value)
    decreases |ts|
  {
    if |ts| > 0 {
      var m1 := AddRelationsStep(m, cets, ts, fileLabel);
      RelationStepHas(m, cets, ts[0], fileLabel);
      AddRelationsGrows(m1, cets, ts[1..], fileLabel);
      GrowsTransitive(m, m1, AddRelations(m1, cets, ts[1..], fileLabel).value);
    }
  }

  lemma KeptAfter(m: seq<Entity>, m2: seq<Entity>, n: string, f: Field)
    requires Grows(m, m2) && Has(m, n, f)
    ensures Has(m2, n, f)
  {
  }

  lemma GrowsTransitive(a: seq<Entity>, b: seq<Entity>, c: seq<Entity>)
    requires Grows(a, b) && Grows(b, c)
    ensures Grows(a, c)
  {
  }

  /** The map holds every field of the relationship's type under its name. */
  predicate TypeHolds(r: seq<Entity>, t: Crt, fileLabel: string) {
    forall f :: f in RelationFields(t, fileLabel) ==> Has(r, TypeName(t), f)
  }

  /** After the relationship pass every included relationship's type holds
      its own fields. */
  lemma {:induction false} AddRelationsTypes(m: seq<Entity>, cets: seq<Cet>, ts: seq<Crt>, fileLabel: string)
    requires Sorted(m) && AddRelations(m, cets, ts, fileLabel).Success?
    ensures forall i :: 0 <= i < |ts| && Included(ts[i]) ==>
              TypeHolds(AddRelations(m, cets, ts, fileLabel).value, ts[i], fileLabel)
    decreases |ts|
  {
    if |ts| > 0 {
      var m1 := AddRelationsStep(m, cets, ts, fileLabel);
      var r := AddRelations(m1, cets, ts[1..], fileLabel).value;
      AddRelationsTypes(m1, cets, ts[1..], fileLabel);
      forall i | 0 <= i < |ts| && Included(ts[i])
        ensures TypeHolds(r, ts[i], fileLabel)
      {
        if i > 0 {
          assert ts[1..][i - 1] == ts[i];
        } else {
          FirstTypeKept(m, m1, cets, ts, fileLabel);
        }
      }
    }
  }

  /** The first relationship's type keeps its fields to the end of the pass. */
  lemma FirstTypeKept(m: seq<Entity>, m1: seq<Entity>, cets: seq<Cet>, ts: seq<Crt>, fileLabel: string)
    requires Sorted(m) && |ts| > 0 && RelationStep(m, cets, ts[0], fileLabel) == Success(m1) && Sorted(m1)
    requires AddRelations(m1, cets, ts[1..], fileLabel).Success? && Included(ts[0])
    ensures TypeHolds(AddRelations(m1, cets, ts[1..], fileLabel).value, ts[0], fileLabel)
  {
    var r := AddRelations(m1, cets, ts[1..], fileLabel).value;
    RelationStepHas(m, cets, ts[0], fileLabel);
    AddRelationsGrows(m1, cets, ts[1..], fileLabel);
    forall f | f in RelationFields(ts[0], fileLabel)
      ensures Has(r, TypeName(ts[0]), f)
    {
      KeptAfter(m1, r, TypeName(ts[0]), f);
    }
  }

  /** A relationship that is not stored in Neo4j on all three sides adds
      nothing to the pass. */
  lemma {:induction false} SkippedRelation(m: seq<Entity>, cets: seq<Cet>, ts: seq<Crt>, t: Crt, fileLabel: string)
    requires Sorted(m) && !Included(t)
    ensures AddRelations(m, cets, ts + [t], fileLabel) == AddRelations(m, cets, ts, fileLabel)
    decreases |ts|
  {
    if |ts| > 0 {
      assert (ts + [t])[1..] == ts[1..] + [t];
      match RelationStep(m, cets, ts[0], fileLabel)
      case Failure(_) =>
      case Success(m1) =>
        SkippedRelation(m1, cets, ts[1..], t, fileLabel);
    } else {
      assert AddRelations(m, cets, [t], fileLabel) == AddRelations(m, cets, [], fileLabel);
    }
  }

  /* ---------------- The whole map ---------------- */

  /** No two CETs share a code. */
  predicate DistinctCodes(cs: seq<Cet>) {
    forall i, j :: 0 <= i < j < |cs| ==> cs[i].code != cs[j].code
  }

  /** `getEntities()`: the binary entity, the CETs, then the relationships. */
  function GetEntities(binary: Entity, cets: seq<Cet>, ts: seq<Crt>, fileLabel: string): (r: Result<seq<Entity>, EntitiesError>)
    ensures r == Failure(DuplicateKey) <==> !DistinctCodes(cets)
    ensures r.Success? ==> Sorted(r.value)
    ensures r.Success? ==> Names(r.value) == {binary.name} + Codes(cets) + RelationNames(ts)
  {
    if !DistinctCodes(cets) then Failure(DuplicateKey)
    else
      match AddCets(Add([], binary), cets, fileLabel)
      case Failure(e) => Failure(e)
      case Success(m) => AddRelations(m, cets, ts, fileLabel)
  }

  /** In the finished map every CET's code holds its whole field set —
      `meveo_uuid` included — and every included relationship's type holds
      `to`, `from` and its CFTs' fields. */
  lemma GetEntitiesHas(binary: Entity, cets: seq<Cet>, ts: seq<Crt>, fileLabel: string)
    ensures GetEntities(binary, cets, ts, fileLabel).Success? ==>
            var r := GetEntities(binary, cets, ts, fileLabel).value;
            forall i :: 0 <= i < |cets| ==>
              CetFields(cets[i], fileLabel).Success? &&
              Has(r, cets[i].code, MeveoUuid) &&
              forall f :: f in CetFields(cets[i], fileLabel).value ==> Has(r, cets[i].code, f)
    ensures GetEntities(binary, cets, ts, fileLabel).Success? ==>
            var r := GetEntities(binary, cets, ts, fileLabel).value;
            forall i :: 0 <= i < |ts| && Included(ts[i]) ==> TypeHolds(r, ts[i], fileLabel)
  {
    if GetEntities(binary, cets, ts, fileLabel).Success? {
      var m0 := Add([], binary);
      AddCetsFails(m0, cets, fileLabel);
      AddCetsHas(m0, cets, fileLabel);
      var m := AddCets(m0, cets, fileLabel).value;
      AddRelationsGrows(m, cets, ts, fileLabel);
      AddRelationsTypes(m, cets, ts, fileLabel);
    }
  }
}

=== FILE: graphql_idl.dfy ===
/** `getIDL(entities)`: the schema text. Two scalar declarations, then one
    `type` block per entity that has fields, then the mutation part that
    `getMutations` writes (`MutationsText`). */
module GraphQLIdl {
  import opened Results
  import opened Strings
  import opened GraphQLModel

  const Header: string := "scalar GraphQLLong\n" + "scalar GraphQLBigDecimal\n\n"

  /** What `StringBuilder.append` writes for a field type; a null type prints as
      `null`. */
  function TypeText(t: Option<string>): (r: string)
    ensures t.Some? ==> r == t.value
    ensures t.None? ==> r == "null"
  {
    match t
    case None => "null"
    case Some(x) => x
  }

  /** The bracket around a list type, and the marks after the type. */
  function Open(f: Field): string { if f.multivalued then "[" else "" }
  function Close(f: Field): string { if f.multivalued then "]" else "" }
  function Bang(f: Field): string { if f.required then "!" else "" }
  function Tail(f: Field): string {
    match f.query
    case None => "\n"
    case Some(q) => " " + q + "\n"
  }

  /** What follows the type: the closing bracket, the `!`, the query and the
      line end. */
  function Marks(f: Field): string {
    Close(f) + Bang(f) + Tail(f)
  }

  /** One field line: tab, name, colon, the type (bracketed when the field is
      multivalued), `!` when required, the query after a space when present. */
  function FieldLine(f: Field): (r: string)
    ensures |r| > |f.name| + 2 && r[0] == '\t' && r[|r| - 1] == '\n'
    ensures r[1..|f.name| + 3] == f.name + ": "
  {
    var r := "\t" + f.name + ": " + Open(f) + TypeText(f.fieldType) + Marks(f);
    assert r == "\t" + (f.name + ": ") + (Open(f) + TypeText(f.fieldType) + Marks(f));
    r
  }

  function FieldLines(fs: seq<Field>): string {
    if |fs| == 0 then "" else FieldLine(fs[0]) + FieldLines(fs[1..])
  }

  /** An entity's block; an entity without fields writes nothing. */
  function EntityBlock(e: Entity): (r: string)
    ensures |e.fields| == 0 <==> r == ""
  {
    if |e.fields| == 0 then ""
    else "type " + e.name + " {\n" + FieldLines(e.fields) + "}\n\n"
  }

  function Blocks(es: seq<Entity>): string {
    if |es| == 0 then "" else EntityBlock(es[0]) + Blocks(es[1..])
  }

  /** The schema header `getMutations` writes before the mutation type. */
  const SchemaHeader: string := "schema {\n" + "\tmutation: Mutations\n" + "} \n"

  /** What opens the `type Mutations` block, up to its first mutation. */
  const MutationsOpen: string := "\ntype Mutations {\n\t"

  /** What `getMutations` writes, from the stored mutation lists (each
      mutation as its `toString()` text): nothing when no list is stored;
      otherwise the schema header, then a `type Mutations` block holding the
      mutations of all lists in order, joined by a line end and a tab. */
  function MutationsText(lists: seq<seq<string>>): (r: string)
    ensures |lists| == 0 <==> r == ""
    ensures |lists| > 0 ==> StartsWith(r, SchemaHeader + MutationsOpen)
  {
    if |lists| == 0 then ""
    else
      var r := SchemaHeader + MutationsOpen + JoinMutations(Flatten(lists)) + "\n}";
      assert r[..|SchemaHeader + MutationsOpen|] == SchemaHeader + MutationsOpen;
      r
  }

  function Flatten(lists: seq<seq<string>>): seq<string> {
    if |lists| == 0 then [] else lists[0] + Flatten(lists[1..])
  }

  /** `StringJoiner` with the delimiter `"\n\t"`, between its prefix and suffix. */
  function JoinMutations(ms: seq<string>): string {
    if |ms| == 0 then ""
    else if |ms| == 1 then ms[0]
    else ms[0] + "\n\t" + JoinMutations(ms[1..])
  }

  /** The whole schema text. */
  function Idl(es: seq<Entity>, mutations: string): (r: string)
    ensures StartsWith(r, Header)
    ensures |r| >= |Header| + |mutations| && r[|r| - |mutations|..] == mutations
  {
    var r := Header + Blocks(es) + mutations;
    assert r[..|Header|] == Header;
    r
  }
}

=== FILE: graphql_mapping.dfy ===
/** `getGraphQLFields(cfts)`: the GraphQL fields of a set of custom field
    templates (CFTs).

    A template not stored in Neo4j gives no field. An identifier becomes a
    required, single-valued `ID`. Any other template keeps its list storage
    and its required flag; its custom field type picks the GraphQL type, and
    an entity or binary reference, which becomes a `@relation` field, is
    dropped when it names no relationship. */
module GraphQLMapping {
  import opened Results
  import opened Strings
  import opened GraphQLModel
  import opened GraphQLValidate

  /** `DBStorageType`: where a template's data is kept; only Neo4j matters here. */
  datatype Storage = Neo4j | OtherStorage(name: string)

  /** A storage list, possibly null, that holds Neo4j. */
  predicate InNeo4j(st: Option<seq<Storage>>) {
    st.Some? && Neo4j in st.value
  }

  /** `CustomFieldTypeEnum`; `OtherType` stands for any value the mapping
      does not name, which falls to its `default` branch. */
  datatype CftType =
    | LongType | DateType | DoubleType | BooleanType | EntityType | BinaryType
    | ChildEntityType | EmbeddedEntityType | ListType | SecretType | StringType
    | TextAreaType | LongTextType | OtherType

  /** `CustomFieldStorageTypeEnum`. */
  datatype CftStorage = SingleStorage | ListStorage | MapStorage | MatrixStorage

  /** The part of a custom field template the mapping reads. */
  datatype Cft = Cft(
    code: string,
    storages: Option<seq<Storage>>,
    identifier: bool,
    storageType: CftStorage,
    valueRequired: bool,
    fieldType: CftType,
    relationshipName: Option<string>,
    entityClazzCetCode: Option<string>)

  /** The types that become a relation to another node. */
  predicate IsRelational(t: CftType) {
    t == EntityType || t == BinaryType
  }

  /** The query of a field that follows a relationship in one direction. */
  function RelationQuery(name: string, direction: string): string {
    "@relation(name: \"" + name + "\", direction: " + direction + ")"
  }

  /** The scalar a non-relational custom field type maps to: always one of the
      built-in scalars, never `ID`, which only identifiers get. */
  function ScalarName(t: CftType): (r: string)
    requires !IsRelational(t)
    ensures IsBuiltin(r) && r != "ID"
    ensures r == "GraphQLLong" <==> t == LongType || t == DateType
    ensures r == "GraphQLBigDecimal" <==> t == DoubleType
    ensures r == "Boolean" <==> t == BooleanType
  {
    match t
    case LongType | DateType => "GraphQLLong"
    case DoubleType => "GraphQLBigDecimal"
    case BooleanType => "Boolean"
    case _ => "String"
  }

  /** The field one template contributes, if any. */
  function FieldOf(c: Cft, fileLabel: string): (r: Option<Field>)
    ensures r.Some? <==>
              InNeo4j(c.storages) &&
              (c.identifier || !IsRelational(c.fieldType) || !IsBlank(c.relationshipName))
    ensures r.Some? ==> r.value.name == c.code
    ensures r.Some? && c.identifier ==> r.value == Field(c.code, Some("ID"), false, true, None)
    ensures r.Some? && !c.identifier ==>
              r.value.multivalued == (c.storageType == ListStorage) &&
              r.value.required == c.valueRequired
    ensures r.Some? && !c.identifier && !IsRelational(c.fieldType) ==>
              r.value.fieldType == Some(ScalarName(c.fieldType)) && r.value.query.None?
    ensures r.Some? && !c.identifier && c.fieldType == EntityType ==>
              r.value.fieldType == c.entityClazzCetCode &&
              r.value.query == Some(RelationQuery(c.relationshipName.value, "OUT"))
    ensures r.Some? && !c.identifier && c.fieldType == BinaryType ==>
              r.value.fieldType == Some(fileLabel) &&
              r.value.query == Some(RelationQuery(c.relationshipName.value, "OUT"))
  {
    if !InNeo4j(c.storages) then None
    else if c.identifier then Some(Field(c.code, Some("ID"), false, true, None))
    else
      var multi, req := c.storageType == ListStorage, c.valueRequired;
      if !IsRelational(c.fieldType) then
        Some(Field(c.code, Some(ScalarName(c.fieldType)), multi, req, None))
      else if IsBlank(c.relationshipName) then None
      else
        var t := if c.fieldType == EntityType then c.entityClazzCetCode else Some(fileLabel);
        Some(Field(c.code, t, multi, req, Some(RelationQuery(c.relationshipName.value, "OUT"))))
  }

  /** The fields of the templates that give one, in template order. */
  function Mapped(cs: seq<Cft>, fileLabel: string): seq<Field> {
    if |cs| == 0 then []
    else
      match FieldOf(cs[0], fileLabel)
      case None => Mapped(cs[1..], fileLabel)
      case Some(f) => [f] + Mapped(cs[1..], fileLabel)
  }

  /** `getGraphQLFields(cfts)`: each template's field added to an empty set, in
      the iteration order of the template map. */
  function GraphQLFields(cs: seq<Cft>, fileLabel: string): (r: seq<Field>)
    ensures NoDuplicates(r)
    ensures forall f :: f in r <==> exists i :: 0 <= i < |cs| && FieldOf(cs[i], fileLabel) == Some(f)
  {
    UnionFieldsContents([], Mapped(cs, fileLabel));
    MappedMembers(cs, fileLabel);
    UnionFields([], Mapped(cs, fileLabel))
  }

  /** A field is mapped exactly when some template gives it. */
  lemma {:induction false} MappedMembers(cs: seq<Cft>, fileLabel: string)
    ensures forall f :: f in Mapped(cs, fileLabel) <==>
              exists i :: 0 <= i < |cs| && FieldOf(cs[i], fileLabel) == Some(f)
  {
    if |cs| > 0 {
      MappedMembers(cs[1..], fileLabel);
      forall f
        ensures f in Mapped(cs, fileLabel) <==>
                exists i :: 0 <= i < |cs| && FieldOf(cs[i], fileLabel) == Some(f)
      {
        if exists i :: 0 <= i < |cs| && FieldOf(cs[i], fileLabel) == Some(f) {
          var i :| 0 <= i < |cs| && FieldOf(cs[i], fileLabel) == Some(f);
          if i > 0 {
            assert cs[1..][i - 1] == cs[i];
          }
        }
        if f in Mapped(cs[1..], fileLabel) {
          var i :| 0 <= i < |cs[1..]| && FieldOf(cs[1..][i], fileLabel) == Some(f);
          assert cs[i + 1] == cs[1..][i];
        }
      }
    }
  }

  /** A template not stored in Neo4j, or a relational one without a
      relationship name, adds nothing to the field set. */
  lemma SkippedAddsNothing(cs: seq<Cft>, c: Cft, fileLabel: string)
    requires !InNeo4j(c.storages) || (!c.identifier && IsRelational(c.fieldType) && IsBlank(c.relationshipName))
    ensures GraphQLFields(cs + [c], fileLabel) == GraphQLFields(cs, fileLabel)
  {
    MappedSkip(cs, c, fileLabel);
  }

  lemma {:induction false} MappedSkip(cs: seq<Cft>, c: Cft, fileLabel: string)
    requires FieldOf(c, fileLabel).None?
    ensures Mapped(cs + [c], fileLabel) == Mapped(cs, fileLabel)
  {
    if |cs| > 0 {
      assert (cs + [c])[1..] == cs[1..] + [c];
      MappedSkip(cs[1..], c, fileLabel);
    }
  }

  /** The type of an identifier or of a non-relational field is a built-in
      scalar, so the schema validator never reports it, with the pattern as
      written or corrected. */
  lemma ScalarFieldNotReported(c: Cft, fileLabel: string, g: Guard)
    requires FieldOf(c, fileLabel).Some?
    requires c.identifier || !IsRelational(c.fieldType)
    ensures Capture(FieldOf(c, fileLabel).value, g) == []
  {
    BuiltinStartsWithBuiltin();
  }
}

=== FILE: graphql_model.dfy ===
/** The records the GraphQL schema generator works on: a field, an entity (a
    named field set) and the entity map, a `TreeMap` from entity name to entity.

    A field set is a `TreeSet` ordered by the field's own `compareTo`, which is
    not part of this model; it is modelled as a duplicate-free sequence in
    insertion order, where adding a field already present changes nothing.
    The map is modelled as a sequence of entities strictly ascending by name
    under `String.compareTo`, which is what the `TreeMap` iterates in. */
module GraphQLModel {
  import opened Results

  /** One line of a GraphQL type. `fieldType` and `query` may be null. */
  datatype Field = Field(
    name: string,
    fieldType: Option<string>,
    multivalued: bool,
    required: bool,
    query: Option<string>)

  /** A GraphQL type: its name and its field set. */
  datatype Entity = Entity(name: string, fields: seq<Field>)

  /** The fields of a field set are pairwise distinct. */
  predicate NoDuplicates(fs: seq<Field>) {
    forall i, j :: 0 <= i < j < |fs| ==> fs[i] != fs[j]
  }

  /** `set.add(f)`: appended unless already present. */
  function AddField(fs: seq<Field>, f: Field): (r: seq<Field>)
    ensures f in fs ==> r == fs
    ensures f !in fs ==> r == fs + [f]
    ensures forall g :: g in r <==> g in fs || g == f
    ensures NoDuplicates(fs) ==> NoDuplicates(r)
  {
    if f in fs then fs else fs + [f]
  }

  /** `set.addAll(gs)`: each field of `gs` added in turn. */
  function UnionFields(fs: seq<Field>, gs: seq<Field>): (r: seq<Field>)
    ensures |fs| <= |r| <= |fs| + |gs| && r[..|fs|] == fs
    ensures forall i :: 0 <= i < |gs| ==> gs[i] in r
    decreases |gs|
  {
    if |gs| == 0 then fs
    else
      var a := AddField(fs, gs[0]);
      var r := UnionFields(a, gs[1..]);
      assert r[..|fs|] == a[..|fs|];
      assert gs[0] in r[..|a|];
      assert forall i :: 1 <= i < |gs| ==> gs[i] == gs[1..][i - 1];
      r
  }

  /** The union keeps what was there, in place, adds exactly the new fields and
      introduces no duplicate. */
  lemma {:induction false} UnionFieldsContents(fs: seq<Field>, gs: seq<Field>)
    ensures var r := UnionFields(fs, gs);
            |fs| <= |r| && fs == r[..|fs|] &&
            (forall f :: f in r <==> f in fs || f in gs) &&
            (NoDuplicates(fs) ==> NoDuplicates(r))
    decreases |gs|
  {
    if |gs| > 0 {
      var a := AddField(fs, gs[0]);
      UnionFieldsContents(a, gs[1..]);
      var r := UnionFields(fs, gs);
      assert r == UnionFields(a, gs[1..]);
      assert fs == a[..|fs|];
      forall f
        ensures f in r <==> f in fs || f in gs
      {
        assert f in gs <==> f == gs[0] || f in gs[1..];
      }
    }
  }

  /** Adding the same fields a second time changes nothing. */
  lemma UnionFieldsIdempotent(fs: seq<Field>, gs: seq<Field>)
    ensures UnionFields(UnionFields(fs, gs), gs) == UnionFields(fs, gs)
  {
    var r := UnionFields(fs, gs);
    UnionFieldsContents(fs, gs);
    UnionAllPresent(r, gs);
  }

  /** Adding fields that are all present already changes nothing. */
  lemma {:induction false} UnionAllPresent(fs: seq<Field>, gs: seq<Field>)
    requires forall f :: f in gs ==> f in fs
    ensures UnionFields(fs, gs) == fs
    decreases |gs|
  {
    if |gs| > 0 {
      assert gs[0] in gs;
      assert forall f :: f in gs[1..] ==> f in gs;
      UnionAllPresent(fs, gs[1..]);
    }
  }

  /** `String.compareTo(a, b) < 0`: the first differing character decides, and
      a proper prefix comes first. */
  predicate LexLess(a: string, b: string) {
    if |a| == 0 then |b| > 0
    else if |b| == 0 then false
    else if a[0] == b[0] then LexLess(a[1..], b[1..])
    else a[0] < b[0]
  }

  /** `LexLess` is a strict total order. */
  lemma {:induction false} LexLessIrreflexive(a: string)
    ensures !LexLess(a, a)
  {
    if |a| > 0 {
      LexLessIrreflexive(a[1..]);
    }
  }

  lemma {:induction false} LexLessTransitive(a: string, b: string, c: string)
    requires LexLess(a, b) && LexLess(b, c)
    ensures LexLess(a, c)
  {
    if |a| > 0 && |b| > 0 && |c| > 0 && a[0] == b[0] && b[0] == c[0] {
      LexLessTransitive(a[1..], b[1..], c[1..]);
    }
  }

  lemma {:induction false} LexLessTotal(a: string, b: string)
    ensures a == b || LexLess(a, b) || LexLess(b, a)
    ensures !(LexLess(a, b) && LexLess(b, a))
  {
    if |a| > 0 && |b| > 0 && a[0] == b[0] {
      LexLessTotal(a[1..], b[1..]);
      if a[1..] == b[1..] {
        assert a == [a[0]] + a[1..] && b == [b[0]] + b[1..];
      }
    }
  }

  /** The entity map's representation invariant: names strictly ascending. */
  predicate Sorted(m: seq<Entity>) {
    forall i, j :: 0 <= i < j < |m| ==> LexLess(m[i].name, m[j].name)
  }

  /** The names the map holds. */
  function Names(m: seq<Entity>): (r: set<string>)
    ensures forall n :: n in r <==> exists i :: 0 <= i < |m| && m[i].name == n
  {
    set i | 0 <= i < |m| :: m[i].name
  }

  /** `map.get(name)`. */
  function Lookup(m: seq<Entity>, name: string): (r: Option<Entity>)
    ensures r.None? <==> name !in Names(m)
    ensures r.Some? ==> r.value in m && r.value.name == name
  {
    if |m| == 0 then None
    else if m[0].name == name then Some(m[0])
    else
      var r := Lookup(m[1..], name);
      assert Names(m) == {m[0].name} + Names(m[1..]) by {
        forall n ensures n in Names(m) <==> n == m[0].name || n in Names(m[1..]) {
          if n in Names(m) && n != m[0].name {
            var i :| 0 <= i < |m| && m[i].name == n;
            assert m[1..][i - 1].name == n;
          }
        }
      }
      r
  }

  /** In a sorted map a name occurs at most once. */
  lemma SortedNamesDistinct(m: seq<Entity>, i: int, j: int)
    requires Sorted(m) && 0 <= i < j < |m|
    ensures m[i].name != m[j].name
  {
    LexLessIrreflexive(m[i].name);
  }

  /** What `merge` leaves under the entity's name: the entity itself when the
      name is new, otherwise the old entity with the new fields added. */
  function Merged(prior: Option<Entity>, e: Entity): Entity {
    match prior
    case None => e
    case Some(o) => o.(fields := UnionFields(o.fields, e.fields))
  }

  /** The names of a map with one more entity in front. */
  lemma NamesCons(x: Entity, m: seq<Entity>)
    ensures Names([x] + m) == {x.name} + Names(m)
  {
    var r := [x] + m;
    forall n
      ensures n in Names(r) <==> n == x.name || n in Names(m)
    {
      if n == x.name {
        assert r[0].name == n;
      }
      if n in Names(m) {
        var i :| 0 <= i < |m| && m[i].name == n;
        assert r[i + 1] == m[i];
      }
      if n in Names(r) && n != x.name {
        var i :| 0 <= i < |r| && r[i].name == n;
        assert i > 0 && r[i] == m[i - 1];
      }
    }
  }

  /** A sorted map with an entity in front that precedes all of its names. */
  lemma SortedCons(x: Entity, m: seq<Entity>)
    requires Sorted(m)
    requires forall n :: n in Names(m) ==> LexLess(x.name, n)
    ensures Sorted([x] + m)
  {
    var r := [x] + m;
    forall i, j | 0 <= i < j < |r|
      ensures LexLess(r[i].name, r[j].name)
    {
      if i == 0 {
        assert r[j].name in Names(m) by {
          assert m[j - 1] == r[j];
        }
      }
    }
  }

  /** A name that precedes the first name of a sorted map is not in it. */
  lemma BeforeFirst(m: seq<Entity>, n: string)
    requires Sorted(m) && |m| > 0 && LexLess(n, m[0].name)
    ensures forall k :: k in Names(m) ==> LexLess(n, k)
    ensures n !in Names(m)
  {
    forall k | k in Names(m)
      ensures LexLess(n, k)
    {
      var i :| 0 <= i < |m| && m[i].name == k;
      if i > 0 {
        LexLessTransitive(n, m[0].name, k);
      }
    }
    LexLessIrreflexive(n);
  }

  /** `add(map, entity)`: `map.merge(name, entity, union of field sets)`.
      What it stores under each name is stated by `AddLookup`. */
  function Add(m: seq<Entity>, e: Entity): (r: seq<Entity>)
    requires Sorted(m)
    ensures Sorted(r)
    ensures Names(r) == Names(m) + {e.name}
    decreases |m|
  {
    if |m| == 0 || LexLess(e.name, m[0].name) then
      AddFront(m, e);
      [e] + m
    else if m[0].name == e.name then
      AddReplace(m, e);
      [Merged(Some(m[0]), e)] + m[1..]
    else
      LexLessTotal(e.name, m[0].name);
      var rest := Add(m[1..], e);
      AddHead(m, e, rest);
      [m[0]] + rest
  }

  /** An entity whose name precedes all others goes in front. */
  lemma AddFront(m: seq<Entity>, e: Entity)
    requires Sorted(m) && (|m| == 0 || LexLess(e.name, m[0].name))
    ensures Sorted([e] + m) && Names([e] + m) == Names(m) + {e.name}
  {
    if |m| > 0 {
      BeforeFirst(m, e.name);
    }
    SortedCons(e, m);
    NamesCons(e, m);
  }

  /** An entity under the first name is merged into the first entry. */
  lemma AddReplace(m: seq<Entity>, e: Entity)
    requires Sorted(m) && |m| > 0 && m[0].name == e.name
    ensures var r := [Merged(Some(m[0]), e)] + m[1..];
            Sorted(r) && Names(r) == Names(m) + {e.name}
  {
    var x := Merged(Some(m[0]), e);
    var r := [x] + m[1..];
    assert m == [m[0]] + m[1..];
    NamesCons(m[0], m[1..]);
    NamesCons(x, m[1..]);
    forall i, j | 0 <= i < j < |r|
      ensures LexLess(r[i].name, r[j].name)
    {
      assert r[i].name == m[i].name && r[j].name == m[j].name;
    }
  }

  /** The step case of `Add`: the head stays in front of the rest's insertion. */
  lemma AddHead(m: seq<Entity>, e: Entity, rest: seq<Entity>)
    requires Sorted(m) && |m| > 0 && LexLess(m[0].name, e.name)
    requires Sorted(rest) && Names(rest) == Names(m[1..]) + {e.name}
    ensures Sorted([m[0]] + rest)
    ensures Names([m[0]] + rest) == Names(m) + {e.name}
  {
    HeadBeforeRest(m, e, rest);
    SortedCons(m[0], rest);
    NamesCons(m[0], rest);
    NamesCons(m[0], m[1..]);
    assert m == [m[0]] + m[1..];
  }

  /** In the step case of `Add` the head precedes every name of the rest's
      insertion. */
  lemma HeadBeforeRest(m: seq<Entity>, e: Entity, rest: seq<Entity>)
    requires Sorted(m) && |m| > 0 && LexLess(m[0].name, e.name)
    requires Names(rest) == Names(m[1..]) + {e.name}
    ensures forall n :: n in Names(rest) ==> LexLess(m[0].name, n)
  {
    forall n | n in Names(rest)
      ensures LexLess(m[0].name, n)
    {
      if n != e.name {
        var i :| 0 <= i < |m[1..]| && m[1..][i].name == n;
        assert m[i + 1].name == n;
      }
    }
  }

  /** Looking a name up in a map with one more entity in front. */
  lemma LookupCons(x: Entity, m: seq<Entity>, n: string)
    ensures Lookup([x] + m, n) == if x.name == n then Some(x) else Lookup(m, n)
  {
    assert ([x] + m)[1..] == m;
  }

  /** After `add`, the entity's name maps to the merge of what was there and
      the entity; every other name maps to what it did before. */
  lemma {:induction false} AddLookup(m: seq<Entity>, e: Entity, n: string)
    requires Sorted(m)
    ensures Lookup(Add(m, e), n) == if n == e.name then Some(Merged(Lookup(m, n), e)) else Lookup(m, n)
    decreases |m|
  {
    if |m| == 0 || LexLess(e.name, m[0].name) {
      LookupCons(e, m, n);
      if n == e.name && |m| > 0 {
        BeforeFirst(m, e.name);
      }
    } else if m[0].name == e.name {
      assert m == [m[0]] + m[1..];
      LookupCons(Merged(Some(m[0]), e), m[1..], n);
      LookupCons(m[0], m[1..], n);
    } else {
      LexLessTotal(e.name, m[0].name);
      AddLookup(m[1..], e, n);
      assert m == [m[0]] + m[1..];
      LookupCons(m[0], Add(m[1..], e), n);
      LookupCons(m[0], m[1..], n);
    }
  }

  /** Adding an entity a second time changes nothing: every name maps to what
      it did after the first add. */
  lemma AddIdempotent(m: seq<Entity>, e: Entity)
    requires Sorted(m)
    ensures Names(Add(Add(m, e), e)) == Names(Add(m, e))
    ensures forall n :: Lookup(Add(Add(m, e), e), n) == Lookup(Add(m, e), n)
  {
    var once := Add(m, e);
    forall n
      ensures Lookup(Add(once, e), n) == Lookup(once, n)
    {
      AddLookup(once, e, n);
      AddLookup(m, e, n);
      if n == e.name {
        match Lookup(m, e.name)
        case None =>
          UnionAllPresent(e.fields, e.fields);
        case Some(o) =>
          UnionFieldsIdempotent(o.fields, e.fields);
      }
    }
  }
}

=== FILE: graphql_validate.dfy ===
/** `validateIdl(idl)`: the types that field lines refer to but the schema does
    not declare.

    The source finds, left to right and without overlap, the matches of
        \t\w+: \[?(?!(?:String|Boolean|GraphQLLong|ID|GraphQLBigDecimal)!?)(\w*)\]?!?\s
    and reports group 1 of each match unless `"type " + group` occurs in the
    text. No backtracking into that pattern can produce a different match: the
    runs of word characters must stop where a non-word character follows, the
    optional bracket, closing bracket and `!` must be taken when present, and
    the final `\s` decides. `MatchAt` below is therefore the pattern itself,
    written as a deterministic scan.

    The negative lookahead rejects every type that merely BEGINS with a
    built-in scalar name (`StringHolder`, `IDCard`, `Booleans`), so such a type
    is never reported, declared or not. `Guard.Corrected` is the evidently
    intended test, a type that IS a built-in scalar. */
module GraphQLValidate {
  import opened Results
  import opened Strings
  import opened GraphQLModel
  import opened GraphQLIdl

  /** `\w`: an ASCII letter, digit or underscore. */
  predicate IsWordChar(c: char) {
    'a' <= c <= 'z' || 'A' <= c <= 'Z' || '0' <= c <= '9' || c == '_'
  }

  /** `\s`: space, tab, line feed, vertical tab, form feed, carriage return. */
  predicate IsSpaceChar(c: char) {
    c == ' ' || c == '\t' || c == '\n' || c == '\U{000B}' || c == '\U{000C}' || c == '\r'
  }

  predicate WordChars(x: string) {
    forall i :: 0 <= i < |x| ==> IsWordChar(x[i])
  }

  /** The five scalar types the schema never declares, in the order the
      lookahead lists them. */
  const BuiltinNames: seq<string> := ["String", "Boolean", "GraphQLLong", "ID", "GraphQLBigDecimal"]

  predicate IsBuiltin(x: string) {
    x in BuiltinNames
  }

  /** `x[j..]` is written in `s` from index `p + j` on. */
  predicate Written(s: string, p: nat, x: string, j: nat)
    decreases |x| - j
  {
    if j >= |x| then p + |x| <= |s|
    else p + j < |s| && s[p + j] == x[j] && Written(s, p, x, j + 1)
  }

  /** `x` is written in `s` from index `p` on. */
  predicate At(s: string, p: nat, x: string) {
    Written(s, p, x, 0)
  }

  /** What the lookahead refuses at `q`: a built-in name begins there. */
  predicate BuiltinAt(s: string, q: nat) {
    exists x :: x in BuiltinNames && Prefixed(s, q, x)
  }

  /** `x` stands in `s` from `q` on. */
  predicate Prefixed(s: string, q: nat, x: string) {
    q + |x| <= |s| && s[q..q + |x|] == x
  }

  /** Standing in a text is being written there. */
  lemma PrefixedAt(s: string, q: nat, x: string)
    ensures Prefixed(s, q, x) <==> At(s, q, x)
  {
    AtChars(s, q, x);
    if q + |x| <= |s| {
      var w := s[q..q + |x|];
      assert forall i :: 0 <= i < |x| ==> w[i] == s[q + i];
    }
  }

  /** The lookahead's refusal, name by name, as texts written at `q`. */
  lemma BuiltinAtIff(s: string, q: nat)
    ensures BuiltinAt(s, q) <==>
            At(s, q, "String") || At(s, q, "Boolean") || At(s, q, "GraphQLLong") ||
            At(s, q, "ID") || At(s, q, "GraphQLBigDecimal")
  {
    forall x | x in BuiltinNames
      ensures Prefixed(s, q, x) <==> At(s, q, x)
    {
      PrefixedAt(s, q, x);
    }
    assert BuiltinNames[0] == "String" && BuiltinNames[1] == "Boolean" && BuiltinNames[2] == "GraphQLLong";
    assert BuiltinNames[3] == "ID" && BuiltinNames[4] == "GraphQLBigDecimal";
  }

  /** A text that begins with a built-in name. */
  predicate StartsWithBuiltin(x: string) {
    BuiltinAt(x, 0)
  }

  /** The pattern as written, or with the lookahead the evident intent calls for. */
  datatype Guard = AsWritten | Corrected

  /** The lookahead at `q`, where the type `t` begins, lets the match go on. */
  predicate LookaheadPasses(g: Guard, s: string, q: nat, t: string)
    requires q <= |s|
  {
    match g
    case AsWritten => !BuiltinAt(s, q)
    case Corrected => !IsBuiltin(t)
  }

  /** The type a guard keeps out of the reports, stated on the captured type. */
  predicate Excluded(g: Guard, t: string) {
    match g
    case AsWritten => StartsWithBuiltin(t)
    case Corrected => IsBuiltin(t)
  }

  /** A match: the captured type and where the match ends. */
  datatype Match = Match(group: string, end: nat)

  /** Where the pattern stands while it reads a line: before the tab, at the
      field name, after it, at the type, or after the type that began at `q`. */
  datatype Stage = AtTab | AtName | PastName | AtType | PastType(q: nat)

  /** The stages in the order the pattern passes them. */
  function Rank(st: Stage): nat {
    match st
    case AtTab => 4
    case AtName => 3
    case PastName => 2
    case AtType => 1
    case PastType(_) => 0
  }

  /** The pattern tried at `i`. */
  function MatchAt(s: string, i: nat, g: Guard): (r: Option<Match>)
    ensures r.Some? ==> i < |s| && s[i] == '\t' && i < r.value.end <= |s|
  {
    if i >= |s| then None else Run(s, i, i, AtTab, g)
  }

  /** The field name, begun after the tab at `i`, is not empty and ends at `k`
      with `: `. */
  predicate NameClosed(s: string, i: nat, k: nat)
  {
    i + 1 < k && k + 2 <= |s| && s[k] == ':' && s[k + 1] == ' '
  }

  /** Where the type starts after the `: ` at `k`: one past an opening `[`. */
  function TypeStart(s: string, k: nat): (q: nat)
    requires k + 2 <= |s|
    ensures q == k + 2 || (q == k + 3 && k + 2 < |s| && s[k + 2] == '[')
    ensures q <= |s|
  {
    if k + 2 < |s| && s[k + 2] == '[' then k + 3 else k + 2
  }

  /** The pattern tried at `i`, read up to `k` and standing at `st`:
      `\t`, then `\w+: \[?` (the name must not be empty), then the lookahead at
      the type's start `q`, the captured `\w*`, `\]?!?` and the final `\s`. */
  function Run(s: string, i: nat, k: nat, st: Stage, g: Guard): (r: Option<Match>)
    requires i <= k <= |s|
    requires st.PastType? ==> st.q <= k
    ensures r.Some? ==> k < r.value.end <= |s| && (st == AtTab ==> s[k] == '\t')
    decreases |s| - k, Rank(st)
  {
    match st
    case AtTab =>
      if k < |s| && s[k] == '\t' then Run(s, i, k + 1, AtName, g) else None
    case AtName =>
      Run(s, i, WordEnd(s, k), PastName, g)
    case PastName =>
      if NameClosed(s, i, k) then Run(s, i, TypeStart(s, k), AtType, g) else None
    case AtType =>
      Run(s, i, WordEnd(s, k), PastType(k), g)
    case PastType(q) =>
      TypeEnd(s, q, k, g)
  }

  /** Where the run of word characters that starts at `k` stops: `\w*` takes
      all of them, and no shorter run lets `\]?!?\s` follow. */
  function WordEnd(s: string, k: nat): (e: nat)
    requires k <= |s|
    ensures k <= e <= |s|
    ensures forall x :: k <= x < e ==> IsWordChar(s[x])
    ensures e < |s| ==> !IsWordChar(s[e])
    decreases |s| - k
  {
    if k < |s| && IsWordChar(s[k]) then WordEnd(s, k + 1) else k
  }

  /** The run from `k` stops at `e` when every character before `e` is a word
      character and the one at `e` is not. */
  lemma {:induction false} WordEndAt(s: string, k: nat, e: nat)
    requires k <= e <= |s|
    requires forall x :: k <= x < e ==> IsWordChar(s[x])
    requires e < |s| ==> !IsWordChar(s[e])
    ensures WordEnd(s, k) == e
    decreases e - k
  {
    if k < e {
      WordEndAt(s, k + 1, e);
    }
  }

  /** What the pattern does once the type that began at `q` has ended at `k`:
      the lookahead, then `\]?!?` and the final `\s`. */
  function TypeEnd(s: string, q: nat, k: nat, g: Guard): (r: Option<Match>)
    requires q <= k <= |s|
    ensures r.Some? ==> k < r.value.end <= |s|
  {
    if !LookaheadPasses(g, s, q, s[q..k]) then None
    else
      var r1 := if k < |s| && s[k] == ']' then k + 1 else k;
      var r2 := if r1 < |s| && s[r1] == '!' then r1 + 1 else r1;
      if r2 < |s| && IsSpaceChar(s[r2]) then Some(Match(s[q..k], r2 + 1)) else None
  }

  /** The lookahead at the start of a word decides as the same test on the
      word alone, so it passes exactly when the guard does not exclude the
      captured type. */
  lemma LookaheadOnWord(s: string, q: nat, r: nat, g: Guard)
    requires q <= r <= |s|
    requires forall k :: q <= k < r ==> IsWordChar(s[k])
    requires r < |s| ==> !IsWordChar(s[r])
    ensures LookaheadPasses(g, s, q, s[q..r]) <==> !Excluded(g, s[q..r])
  {
    BuiltinNamesAreWords();
    forall x | x in BuiltinNames
      ensures Prefixed(s, q, x) <==> Prefixed(s[q..r], 0, x)
    {
      PrefixedWord(s, q, r, x);
    }
  }

  lemma BuiltinNamesAreWords()
    ensures forall x :: x in BuiltinNames ==> WordChars(x)
  {
    assert WordChars("String") && WordChars("Boolean") && WordChars("GraphQLLong");
    assert WordChars("ID") && WordChars("GraphQLBigDecimal");
  }

  /** Where a run of word characters from `q` stops at `r`, a name made of
      word characters stands at `q` exactly when it begins the run. */
  lemma PrefixedWord(s: string, q: nat, r: nat, x: string)
    requires q <= r <= |s|
    requires forall k :: q <= k < r ==> IsWordChar(s[k])
    requires r < |s| ==> !IsWordChar(s[r])
    requires WordChars(x)
    ensures Prefixed(s, q, x) <==> Prefixed(s[q..r], 0, x)
  {
    if q + |x| <= r {
      assert s[q..r][0..|x|] == s[q..q + |x|];
    } else if q + |x| <= |s| {
      assert s[q..q + |x|][r - q] == s[r] && IsWordChar(x[r - q]);
    }
  }

  /** The pattern never captures a type its guard excludes. */
  lemma {:induction false} RunExcludes(s: string, i: nat, k: nat, st: Stage, g: Guard)
    requires i <= k <= |s|
    requires st.PastType? ==> st.q <= k && k == WordEnd(s, st.q)
    ensures Run(s, i, k, st, g).Some? ==> !Excluded(g, Run(s, i, k, st, g).value.group)
    decreases |s| - k, Rank(st)
  {
    match st
    case AtTab =>
      if k < |s| && s[k] == '\t' {
        RunExcludes(s, i, k + 1, AtName, g);
      }
    case AtName =>
      RunExcludes(s, i, WordEnd(s, k), PastName, g);
    case PastName =>
      if NameClosed(s, i, k) {
        RunExcludes(s, i, TypeStart(s, k), AtType, g);
      }
    case AtType =>
      RunExcludes(s, i, WordEnd(s, k), PastType(k), g);
    case PastType(q) =>
      LookaheadOnWord(s, q, k, g);
  }

  /** A match never captures a type its guard excludes. */
  lemma MatchExcludes(s: string, i: nat, g: Guard)
    ensures MatchAt(s, i, g).Some? ==> !Excluded(g, MatchAt(s, i, g).value.group)
  {
    if i < |s| {
      RunExcludes(s, i, i, AtTab, g);
    }
  }

  /** Whether the schema declares `t`: `idl.contains("type " + t)`. */
  predicate Declared(idl: string, t: string) {
    Contains(idl, "type " + t)
  }

  /** The captured types of the matches found from `p` on, left to right and
      without overlap. */
  function Scan(s: string, p: nat, g: Guard): (r: seq<string>)
    ensures forall t :: t in r ==> !Excluded(g, t)
    decreases |s| - p
  {
    if p >= |s| then []
    else
      MatchExcludes(s, p, g);
      match MatchAt(s, p, g)
      case None => Scan(s, p + 1, g)
      case Some(m) => [m.group] + Scan(s, m.end, g)
  }

  /** The types of `ts` the schema does not declare, in order: the loop's
      `if (!idl.contains("type " + group))`. */
  function Undeclared(idl: string, ts: seq<string>): (r: seq<string>)
    ensures forall t :: t in r <==> t in ts && !Declared(idl, t)
    ensures |r| <= |ts|
  {
    if |ts| == 0 then []
    else
      var rest := Undeclared(idl, ts[1..]);
      assert forall t :: t in ts <==> t == ts[0] || t in ts[1..];
      (if Declared(idl, ts[0]) then [] else [ts[0]]) + rest
  }

  lemma {:induction false} UndeclaredAppend(idl: string, a: seq<string>, b: seq<string>)
    ensures Undeclared(idl, a + b) == Undeclared(idl, a) + Undeclared(idl, b)
    decreases |a|
  {
    if |a| > 0 {
      assert (a + b)[0] == a[0];
      assert (a + b)[1..] == a[1..] + b;
      UndeclaredAppend(idl, a[1..], b);
    } else {
      assert a + b == b;
    }
  }

  /** A type excluded as intended is excluded as written too. */
  lemma BuiltinStartsWithBuiltin()
    ensures forall t :: IsBuiltin(t) ==> StartsWithBuiltin(t)
  {
    forall t | IsBuiltin(t)
      ensures StartsWithBuiltin(t)
    {
      assert Prefixed(t, 0, t);
    }
  }

  /** A name is written at the start of itself. */
  lemma {:induction false} WrittenSelf(b: string, j: nat)
    ensures Written(b, 0, b, j)
    decreases |b| - j
  {
    if j < |b| {
      WrittenSelf(b, j + 1);
    }
  }

  /** `validateIdl(idl)`, as written: the reported types never begin with a
      built-in name and are never declared. */
  function ValidateIdl(idl: string): (r: seq<string>)
    ensures forall t :: t in r ==> !StartsWithBuiltin(t) && !IsBuiltin(t) && !Declared(idl, t)
  {
    BuiltinStartsWithBuiltin();
    Undeclared(idl, Scan(idl, 0, AsWritten))
  }

  /** `validateIdl(idl)` with the lookahead testing for a whole built-in name. */
  function ValidateIdlCorrected(idl: string): (r: seq<string>)
    ensures forall t :: t in r ==> !IsBuiltin(t) && !Declared(idl, t)
  {
    Undeclared(idl, Scan(idl, 0, Corrected))
  }

  /** A stretch without a tab holds no match. */
  lemma {:induction false} ScanSkip(s: string, p: nat, q: nat, g: Guard)
    requires p <= q <= |s|
    requires forall k :: p <= k < q ==> s[k] != '\t'
    ensures Scan(s, p, g) == Scan(s, q, g)
    decreases q - p
  {
    if p < q {
      ScanSkip(s, p + 1, q, g);
    }
  }

  // ---------------------------------------------------------------------------
  // Texts written at a position.

  /** Being written, character by character. */
  lemma {:induction false} WrittenChars(s: string, p: nat, x: string, j: nat)
    ensures Written(s, p, x, j) <==>
            p + |x| <= |s| && forall i :: j <= i < |x| ==> s[p + i] == x[i]
    decreases |x| - j
  {
    if j < |x| {
      WrittenChars(s, p, x, j + 1);
    }
  }

  lemma AtChars(s: string, p: nat, x: string)
    ensures At(s, p, x) <==> p + |x| <= |s| && forall i :: 0 <= i < |x| ==> s[p + i] == x[i]
  {
    WrittenChars(s, p, x, 0);
  }

  lemma AtIndex(s: string, p: nat, x: string, i: nat)
    requires At(s, p, x) && i < |x|
    ensures p + i < |s| && s[p + i] == x[i]
  {
    AtChars(s, p, x);
  }

  lemma AtSlice(s: string, p: nat, x: string)
    requires At(s, p, x)
    ensures p + |x| <= |s| && s[p..p + |x|] == x
  {
    AtChars(s, p, x);
    assert forall i :: 0 <= i < |x| ==> s[p..p + |x|][i] == x[i];
  }

  /** A concatenation is written at `p` exactly when its parts are written one
      after the other. */
  lemma AtConcat(s: string, p: nat, x: string, y: string)
    ensures At(s, p, x + y) <==> At(s, p, x) && At(s, p + |x|, y)
  {
    AtChars(s, p, x + y);
    AtChars(s, p, x);
    AtChars(s, p + |x|, y);
    if At(s, p, x + y) {
      forall i | 0 <= i < |x|
        ensures s[p + i] == x[i]
      {
        assert (x + y)[i] == x[i];
      }
      forall i | 0 <= i < |y|
        ensures s[p + |x| + i] == y[i]
      {
        assert (x + y)[|x| + i] == y[i];
      }
    }
    if At(s, p, x) && At(s, p + |x|, y) {
      forall i | 0 <= i < |x + y|
        ensures s[p + i] == (x + y)[i]
      {
        if i >= |x| {
          assert s[p + |x| + (i - |x|)] == y[i - |x|];
        }
      }
    }
  }

  /** A written word consists of word characters. */
  lemma AtWord(s: string, p: nat, x: string)
    requires At(s, p, x) && WordChars(x)
    ensures p + |x| <= |s| && forall k :: p <= k < p + |x| ==> IsWordChar(s[k])
  {
    AtChars(s, p, x);
    forall k | p <= k < p + |x|
      ensures IsWordChar(s[k])
    {
      assert s[p + (k - p)] == x[k - p];
    }
  }

  /** A written text without tabs, ending at `q`, holds no match. */
  lemma SkipTabFree(s: string, p: nat, q: nat, x: string, g: Guard)
    requires '\t' !in x
    requires At(s, p, x) && q == p + |x|
    ensures Scan(s, p, g) == Scan(s, q, g)
  {
    AtChars(s, p, x);
    forall k | p <= k < q
      ensures s[k] != '\t'
    {
      assert s[p + (k - p)] == x[k - p];
    }
    ScanSkip(s, p, q, g);
  }

  // ---------------------------------------------------------------------------
  // The pattern reads forward only: what stands before a position does not
  // change what the scan finds from there on.

  /** A match, if any, moved `n` characters on. */
  function ShiftMatch(r: Option<Match>, n: nat): Option<Match> {
    match r
    case None => None
    case Some(m) => Some(Match(m.group, m.end + n))
  }

  /** A text stands in `t` at `n + q` exactly where it stands at `q` in the
      part of `t` from `n` on. */
  lemma PrefixedSuffix(t: string, n: nat, s: string, q: nat, y: string)
    requires n <= |t| && t[n..] == s
    ensures Prefixed(t, n + q, y) <==> Prefixed(s, q, y)
  {
    if q + |y| <= |s| {
      var u, v := t[n + q..n + q + |y|], s[q..q + |y|];
      assert forall j :: 0 <= j < |y| ==> u[j] == v[j] by {
        forall j | 0 <= j < |y| ensures u[j] == v[j] {
          assert u[j] == t[n + q + j] && v[j] == s[q + j] == t[n..][q + j];
        }
      }
      assert u == v;
    }
  }

  lemma BuiltinAtSuffix(t: string, n: nat, s: string, q: nat)
    requires n <= |t| && t[n..] == s
    ensures BuiltinAt(t, n + q) <==> BuiltinAt(s, q)
  {
    forall x | x in BuiltinNames
      ensures Prefixed(t, n + q, x) <==> Prefixed(s, q, x)
    {
      PrefixedSuffix(t, n, s, q, x);
    }
  }

  /** The pattern tried at `i` reads `s` the same where `s` stands in `t`
      from `n` on, its match moved along. */
  lemma TabShift(t: string, n: nat, s: string, i: nat, g: Guard)
    requires n <= |t| && t[n..] == s
    requires i <= |s|
    ensures Run(t, n + i, n + i, AtTab, g) == ShiftMatch(Run(s, i, i, AtTab, g), n)
  {
    if i < |s| {
      assert t[n + i] == s[i];
      if s[i] == '\t' {
        NameShift(t, n, s, i, i + 1, g);
      }
    }
  }

  /** `TabShift` at the field name. */
  lemma NameShift(t: string, n: nat, s: string, i: nat, k: nat, g: Guard)
    requires n <= |t| && t[n..] == s
    requires i <= k <= |s|
    ensures Run(t, n + i, n + k, AtName, g) == ShiftMatch(Run(s, i, k, AtName, g), n)
  {
    WordEndShift(t, n, s, k);
    PastNameShift(t, n, s, i, WordEnd(s, k), g);
  }

  /** `TabShift` after the field name. */
  lemma PastNameShift(t: string, n: nat, s: string, i: nat, k: nat, g: Guard)
    requires n <= |t| && t[n..] == s
    requires i <= k <= |s|
    ensures Run(t, n + i, n + k, PastName, g) == ShiftMatch(Run(s, i, k, PastName, g), n)
  {
    NameClosedShift(t, n, s, i, k);
    if NameClosed(s, i, k) {
      var q := TypeStart(s, k);
      assert n + q == TypeStart(t, n + k);
      TypeStartShift(t, n, s, i, q, g);
    }
  }

  /** `NameClosed` reads only the characters at `k` and after it. */
  lemma NameClosedShift(t: string, n: nat, s: string, i: nat, k: nat)
    requires n <= |t| && t[n..] == s
    requires i <= k <= |s|
    ensures NameClosed(t, n + i, n + k) <==> NameClosed(s, i, k)
    ensures NameClosed(s, i, k) ==> n + TypeStart(s, k) == TypeStart(t, n + k)
  {
    if k < |s| {
      assert t[n + k] == s[k];
    }
    if k + 1 < |s| {
      assert t[n + k + 1] == s[k + 1];
    }
    if k + 2 < |s| {
      assert t[n + k + 2] == s[k + 2];
    }
  }

  /** `TabShift` at the type. */
  lemma TypeStartShift(t: string, n: nat, s: string, i: nat, q: nat, g: Guard)
    requires n <= |t| && t[n..] == s
    requires i <= q <= |s|
    ensures Run(t, n + i, n + q, AtType, g) == ShiftMatch(Run(s, i, q, AtType, g), n)
  {
    WordEndShift(t, n, s, q);
    TypeDoneShift(t, n, s, i, q, WordEnd(s, q), g);
  }

  /** `TabShift` after the type that began at `q`. */
  lemma TypeDoneShift(t: string, n: nat, s: string, i: nat, q: nat, k: nat, g: Guard)
    requires n <= |t| && t[n..] == s
    requires i <= k && q <= k <= |s|
    ensures Run(t, n + i, n + k, PastType(n + q), g) == ShiftMatch(Run(s, i, k, PastType(q), g), n)
  {
    assert Run(t, n + i, n + k, PastType(n + q), g) == TypeEnd(t, n + q, n + k, g);
    assert Run(s, i, k, PastType(q), g) == TypeEnd(s, q, k, g);
    TypeEndSuffix(t, n, s, q, k, g);
  }

  /** The run of word characters from `n + k` in `t` stops where the run
      from `k` in its part from `n` on stops, moved `n` on. */
  lemma WordEndShift(t: string, n: nat, s: string, k: nat)
    requires n <= |t| && t[n..] == s
    requires k <= |s|
    ensures WordEnd(t, n + k) == n + WordEnd(s, k)
  {
    var e := WordEnd(s, k);
    assert forall x :: k <= x < e ==> t[n + x] == s[x];
    if e < |s| {
      assert t[n + e] == s[e];
    }
    WordEndAt(t, n + k, n + e);
  }

  lemma TypeEndSuffix(t: string, n: nat, s: string, q: nat, k: nat, g: Guard)
    requires n <= |t| && t[n..] == s
    requires q <= k <= |s|
    ensures TypeEnd(t, n + q, n + k, g) == ShiftMatch(TypeEnd(s, q, k, g), n)
  {
    LookaheadSuffix(t, n, s, q, k, g);
    var r1 := if k < |s| && s[k] == ']' then k + 1 else k;
    if k < |s| {
      assert t[n + k] == s[k];
    }
    if r1 < |s| {
      assert t[n + r1] == s[r1];
    }
    var r2 := if r1 < |s| && s[r1] == '!' then r1 + 1 else r1;
    if r2 < |s| {
      assert t[n + r2] == s[r2];
    }
  }

  /** The lookahead decides the same in `t` at `n + q` as in `s` at `q`. */
  lemma LookaheadSuffix(t: string, n: nat, s: string, q: nat, k: nat, g: Guard)
    requires n <= |t| && t[n..] == s
    requires q <= k <= |s|
    ensures t[n + q..n + k] == s[q..k]
    ensures LookaheadPasses(g, t, n + q, t[n + q..n + k]) <==> LookaheadPasses(g, s, q, s[q..k])
  {
    assert t[n + q..n + k] == t[n..][q..k];
    BuiltinAtSuffix(t, n, s, q);
  }

  /** Scanning `t` from `n + p` finds what scanning its part from `n` on
      finds from `p`. */
  lemma {:induction false} ScanSuffix(t: string, n: nat, s: string, p: nat, g: Guard)
    requires n <= |t| && t[n..] == s
    ensures Scan(t, n + p, g) == Scan(s, p, g)
    decreases |s| - p
  {
    if p < |s| {
      TabShift(t, n, s, p, g);
      match MatchAt(s, p, g)
      case None => ScanSuffix(t, n, s, p + 1, g);
      case Some(m) => ScanSuffix(t, n, s, m.end, g);
    }
  }

  // ---------------------------------------------------------------------------
  // What the scan reports for a schema rendered by `getIDL`.

  /** A field whose line the pattern reads as intended: a non-empty word for a
      name, a (possibly empty) word for a type, no tab in the query. */
  predicate WellFormedField(f: Field) {
    |f.name| > 0 && WordChars(f.name) && WordChars(TypeText(f.fieldType)) &&
    (f.query.Some? ==> '\t' !in f.query.value)
  }

  predicate WellFormedEntity(e: Entity) {
    '\t' !in e.name && forall i :: 0 <= i < |e.fields| ==> WellFormedField(e.fields[i])
  }

  /** Every entity of `es` is well formed; stated entity by entity in
      `EntitiesWellFormedAll`. */
  predicate EntitiesWellFormed(es: seq<Entity>) {
    |es| == 0 || (WellFormedEntity(es[0]) && EntitiesWellFormed(es[1..]))
  }

  lemma {:induction false} EntitiesWellFormedAll(es: seq<Entity>)
    ensures EntitiesWellFormed(es) <==> forall i :: 0 <= i < |es| ==> WellFormedEntity(es[i])
  {
    if |es| > 0 {
      EntitiesWellFormedAll(es[1..]);
      assert forall i :: 1 <= i < |es| ==> es[i] == es[1..][i - 1];
    }
  }

  /** The type a field's line lets the pattern capture, if any. */
  function Capture(f: Field, g: Guard): seq<string> {
    var t := TypeText(f.fieldType);
    if Excluded(g, t) then [] else [t]
  }

  function Captures(fs: seq<Field>, g: Guard): seq<string> {
    if |fs| == 0 then [] else Capture(fs[0], g) + Captures(fs[1..], g)
  }

  /** The fields of every entity, in rendering order. */
  function AllFields(es: seq<Entity>): seq<Field> {
    if |es| == 0 then [] else es[0].fields + AllFields(es[1..])
  }

  /** The first character after an absent opening bracket is not one. */
  lemma AfterOpen(t: string, c: string, b: string, z: string)
    requires WordChars(t) && (c == "" || c == "]") && (b == "" || b == "!")
    requires |z| > 0 && IsSpaceChar(z[0])
    ensures (t + (c + (b + z)))[0] != '['
  {
    if |t| > 0 {
      assert IsWordChar(t[0]);
    }
  }

  /** The character after the type ends the word and is a closing bracket
      exactly when one was written; the one after that is `!` exactly when one
      was written. */
  lemma AfterType(c: string, b: string, z: string)
    requires (c == "" || c == "]") && (b == "" || b == "!")
    requires |z| > 0 && IsSpaceChar(z[0])
    ensures !IsWordChar((c + (b + z))[0])
    ensures (c + (b + z))[0] == ']' <==> c == "]"
    ensures (b + z)[0] == '!' <==> b == "!"
  {
  }

  /** The pattern at `p` on a line whose landmarks are known: the tab at `p`,
      the name up to `k`, `: ` and the bracket, if any, up to `q`, the type up
      to `r`, the closing bracket and `!`, if any, up to `r2`, and whitespace at
      `r2`. */
  lemma MatchWalk(s: string, p: nat, k: nat, q: nat, r: nat, r1: nat, r2: nat, g: Guard)
    requires p + 1 < k && k + 1 < |s| && q <= r < |s|
    requires s[p] == '\t' && s[k] == ':' && s[k + 1] == ' '
    requires forall x :: p < x < k ==> IsWordChar(s[x])
    requires q == if k + 2 < |s| && s[k + 2] == '[' then k + 3 else k + 2
    requires forall x :: q <= x < r ==> IsWordChar(s[x])
    requires !IsWordChar(s[r])
    requires r1 == if s[r] == ']' then r + 1 else r
    requires r2 == if r1 < |s| && s[r1] == '!' then r1 + 1 else r1
    requires r2 < |s| && IsSpaceChar(s[r2])
    ensures MatchAt(s, p, g) == if Excluded(g, s[q..r]) then None else Some(Match(s[q..r], r2 + 1))
  {
    NameWalk(s, p, k, q, g);
    TypeWalk(s, p, q, r, g);
    TypeEndWalk(s, q, r, r1, r2, g);
  }

  /** `MatchWalk` up to the type's start `q`. */
  lemma NameWalk(s: string, p: nat, k: nat, q: nat, g: Guard)
    requires p + 1 < k && k + 1 < |s| && q <= |s|
    requires s[p] == '\t' && s[k] == ':' && s[k + 1] == ' '
    requires forall x :: p < x < k ==> IsWordChar(s[x])
    requires q == if k + 2 < |s| && s[k + 2] == '[' then k + 3 else k + 2
    ensures MatchAt(s, p, g) == Run(s, p, q, AtType, g)
  {
    WordEndAt(s, p + 1, k);
    assert MatchAt(s, p, g) == Run(s, p, p + 1, AtName, g);
    assert Run(s, p, p + 1, AtName, g) == Run(s, p, k, PastName, g);
    assert Run(s, p, k, PastName, g) == Run(s, p, q, AtType, g);
  }

  /** `MatchWalk` from the type's start `q` to its end `r`. */
  lemma TypeWalk(s: string, p: nat, q: nat, r: nat, g: Guard)
    requires p <= q <= r < |s|
    requires forall x :: q <= x < r ==> IsWordChar(s[x])
    requires !IsWordChar(s[r])
    ensures Run(s, p, q, AtType, g) == TypeEnd(s, q, r, g)
  {
    WordEndAt(s, q, r);
    assert Run(s, p, q, AtType, g) == Run(s, p, r, PastType(q), g);
    assert Run(s, p, r, PastType(q), g) == TypeEnd(s, q, r, g);
  }

  /** `MatchWalk` after the type's end `r`. */
  lemma TypeEndWalk(s: string, q: nat, r: nat, r1: nat, r2: nat, g: Guard)
    requires q <= r < |s|
    requires forall x :: q <= x < r ==> IsWordChar(s[x])
    requires !IsWordChar(s[r])
    requires r1 == if s[r] == ']' then r + 1 else r
    requires r2 == if r1 < |s| && s[r1] == '!' then r1 + 1 else r1
    requires r2 < |s| && IsSpaceChar(s[r2])
    ensures TypeEnd(s, q, r, g) == if Excluded(g, s[q..r]) then None else Some(Match(s[q..r], r2 + 1))
  {
    LookaheadOnWord(s, q, r, g);
  }

  /** Where the pieces of a line lie: `a` is where the piece after the name
      begins, and so on, each piece written where it begins. */
  lemma LinePieces(s: string, p: nat, n: string, o: string, t: string, c: string, b: string, z: string)
    returns (k: nat, q: nat, r: nat, r1: nat, r2: nat)
    requires At(s, p, "\t" + (n + (": " + (o + (t + (c + (b + z)))))))
    ensures At(s, p, "\t") && k == p + 1 + |n| && At(s, p + 1, n)
    ensures At(s, k, ": ") && q == k + 2 + |o| && At(s, k + 2, o + (t + (c + (b + z))))
    ensures At(s, k + 2, o) && r == q + |t| && At(s, q, t)
    ensures At(s, r, c + (b + z)) && r1 == r + |c| && At(s, r1, b + z) && r2 == r1 + |b| && At(s, r2, z)
  {
    var w := "\t" + (n + (": " + (o + (t + (c + (b + z))))));
    var e := p + |w|;
    var p1 := AtSplit(s, p, e, "\t", n + (": " + (o + (t + (c + (b + z))))));
    k := AtSplit(s, p1, e, n, ": " + (o + (t + (c + (b + z)))));
    var k2 := AtSplit(s, k, e, ": ", o + (t + (c + (b + z))));
    q := AtSplit(s, k2, e, o, t + (c + (b + z)));
    r := AtSplit(s, q, e, t, c + (b + z));
    r1 := AtSplit(s, r, e, c, b + z);
    r2 := AtSplit(s, r1, e, b, z);
  }

  /** The pattern on a line assembled from its pieces: name `n`, optional
      bracket `o`, type `t`, optional closing bracket `c`, optional `!` and a
      tail `z` that begins with whitespace. */
  lemma MatchOnParts(s: string, p: nat, n: string, o: string, t: string, c: string, b: string, z: string, g: Guard)
    requires |n| > 0 && WordChars(n) && WordChars(t)
    requires (o == "" || o == "[") && (c == "" || c == "]") && (b == "" || b == "!")
    requires |z| > 0 && IsSpaceChar(z[0])
    requires At(s, p, "\t" + (n + (": " + (o + (t + (c + (b + z)))))))
    ensures MatchAt(s, p, g) ==
            if Excluded(g, t) then None else Some(Match(t, p + |n| + 3 + |o| + |t| + |c| + |b| + 1))
  {
    var k, q, r, r1, r2 := LinePieces(s, p, n, o, t, c, b, z);
    LineMarks(s, p, k, q, r, r1, r2, n, o, t, c, b, z);
    MatchWalk(s, p, k, q, r, r1, r2, g);
  }

  /** The landmarks `MatchWalk` needs, read off the pieces of a line. */
  lemma LineMarks(s: string, p: nat, k: nat, q: nat, r: nat, r1: nat, r2: nat,
                  n: string, o: string, t: string, c: string, b: string, z: string)
    requires |n| > 0 && WordChars(n) && WordChars(t)
    requires (o == "" || o == "[") && (c == "" || c == "]") && (b == "" || b == "!")
    requires |z| > 0 && IsSpaceChar(z[0])
    requires At(s, p, "\t") && k == p + 1 + |n| && At(s, p + 1, n)
    requires At(s, k, ": ") && q == k + 2 + |o| && At(s, k + 2, o + (t + (c + (b + z))))
    requires At(s, k + 2, o) && r == q + |t| && At(s, q, t)
    requires At(s, r, c + (b + z)) && r1 == r + |c| && At(s, r1, b + z) && r2 == r1 + |b| && At(s, r2, z)
    ensures p + 1 < k && k + 1 < |s| && q <= r < |s|
    ensures s[p] == '\t' && s[k] == ':' && s[k + 1] == ' '
    ensures forall x :: p < x < k ==> IsWordChar(s[x])
    ensures q == if k + 2 < |s| && s[k + 2] == '[' then k + 3 else k + 2
    ensures forall x :: q <= x < r ==> IsWordChar(s[x])
    ensures !IsWordChar(s[r])
    ensures r1 == if s[r] == ']' then r + 1 else r
    ensures r2 == if r1 < |s| && s[r1] == '!' then r1 + 1 else r1
    ensures r2 < |s| && IsSpaceChar(s[r2])
    ensures s[q..r] == t
  {
    AtIndex(s, p, "\t", 0);
    AtIndex(s, k, ": ", 0);
    AtIndex(s, k, ": ", 1);
    if o == "[" {
      AtIndex(s, k + 2, o, 0);
    } else {
      AfterOpen(t, c, b, z);
      AtIndex(s, k + 2, o + (t + (c + (b + z))), 0);
    }
    AfterType(c, b, z);
    AtIndex(s, r, c + (b + z), 0);
    AtIndex(s, r1, b + z, 0);
    AtIndex(s, r2, z, 0);
    AtWord(s, p + 1, n);
    AtWord(s, q, t);
    AtSlice(s, q, t);
  }

  /** A field line as its pieces, nested to the right. */
  lemma LineParts(f: Field)
    ensures FieldLine(f) ==
            "\t" + (f.name + (": " + (Open(f) + (TypeText(f.fieldType) + (Close(f) + (Bang(f) + Tail(f)))))))
  {
  }

  /** Where the match of a field line ends: just past the whitespace that
      follows the marks. */
  function MatchEnd(f: Field): nat {
    |f.name| + 3 + |Open(f)| + |TypeText(f.fieldType)| + |Close(f)| + |Bang(f)| + 1
  }

  /** The pattern on a field line written by `getIDL`: it captures the line's
      type, and ends just past the marks, unless the guard excludes the type. */
  lemma MatchOnLine(s: string, p: nat, f: Field, g: Guard)
    requires WellFormedField(f)
    requires At(s, p, FieldLine(f))
    ensures MatchEnd(f) <= |FieldLine(f)|
    ensures var t := TypeText(f.fieldType);
            MatchAt(s, p, g) == if Excluded(g, t) then None else Some(Match(t, p + MatchEnd(f)))
  {
    LineParts(f);
    var z := Tail(f);
    assert |z| > 0 && IsSpaceChar(z[0]);
    MatchOnParts(s, p, f.name, Open(f), TypeText(f.fieldType), Close(f), Bang(f), z, g);
  }

  /** A field line holds its only tab at its start. */
  lemma LineTabFree(f: Field)
    requires WellFormedField(f)
    ensures |FieldLine(f)| > 0 && FieldLine(f)[0] == '\t' && '\t' !in FieldLine(f)[1..]
  {
    var t := TypeText(f.fieldType);
    var rest := f.name + ": " + Open(f) + t + Close(f) + Bang(f) + Tail(f);
    assert FieldLine(f) == "\t" + rest;
    assert '\t' !in f.name by {
      forall i | 0 <= i < |f.name|
        ensures f.name[i] != '\t'
      {
        assert IsWordChar(f.name[i]);
      }
    }
    assert '\t' !in t by {
      forall i | 0 <= i < |t|
        ensures t[i] != '\t'
      {
        assert IsWordChar(t[i]);
      }
    }
    assert '\t' !in Tail(f) by {
      if f.query.Some? {
        assert Tail(f) == " " + f.query.value + "\n";
      }
    }
    assert FieldLine(f)[1..] == rest;
  }

  /** A written text whose only tab is its first character, where the match
      at its start, if any, captures `t` and ends within the text, yields that
      capture alone. */
  lemma ScanCut(s: string, p: nat, q: nat, l: string, t: string, e: nat, none: bool, g: Guard)
    requires At(s, p, l) && q == p + |l| && |l| > 0 && '\t' !in l[1..]
    requires e <= |l|
    requires MatchAt(s, p, g) == if none then None else Some(Match(t, p + e))
    ensures Scan(s, p, g) == (if none then [] else [t]) + Scan(s, q, g)
  {
    var c := if none then p + 1 else p + e;
    AtChars(s, p, l);
    forall k | c <= k < q
      ensures s[k] != '\t'
    {
      assert s[p + (k - p)] == l[k - p];
      assert l[k - p] == l[1..][k - p - 1];
    }
    ScanSkip(s, c, q, g);
  }

  /** A field line written from `p` to `q` yields exactly the line's capture. */
  lemma ScanLine(s: string, p: nat, q: nat, f: Field, g: Guard)
    requires WellFormedField(f)
    requires At(s, p, FieldLine(f)) && q == p + |FieldLine(f)|
    ensures Scan(s, p, g) == Capture(f, g) + Scan(s, q, g)
  {
    var t := TypeText(f.fieldType);
    MatchOnLine(s, p, f, g);
    LineTabFree(f);
    ScanCut(s, p, q, FieldLine(f), t, MatchEnd(f), Excluded(g, t), g);
  }

  /** The first line of a run of field lines written from `p` to `q`: what it
      yields, and `a`, where the rest begins. */
  lemma LinesStep(s: string, p: nat, q: nat, fs: seq<Field>, g: Guard) returns (a: nat)
    requires |fs| > 0 && WellFormedField(fs[0])
    requires At(s, p, FieldLines(fs)) && q == p + |FieldLines(fs)|
    ensures q == a + |FieldLines(fs[1..])| && At(s, a, FieldLines(fs[1..]))
    ensures Scan(s, p, g) == Capture(fs[0], g) + Scan(s, a, g)
    ensures Captures(fs, g) == Capture(fs[0], g) + Captures(fs[1..], g)
  {
    a := AtSplit(s, p, q, FieldLine(fs[0]), FieldLines(fs[1..]));
    ScanLine(s, p, a, fs[0], g);
  }

  /** An empty stretch captures nothing. */
  lemma ScanNone(s: string, p: nat, g: Guard)
    ensures Scan(s, p, g) == [] + Scan(s, p + 0, g)
  {
  }

  /** Two stretches scanned one after the other capture one after the other. */
  lemma ScanChain(s: string, p: nat, a: nat, b: nat, x: seq<string>, y: seq<string>, g: Guard)
    requires Scan(s, p, g) == x + Scan(s, a, g)
    requires Scan(s, a, g) == y + Scan(s, b, g)
    ensures Scan(s, p, g) == (x + y) + Scan(s, b, g)
  {
  }

  /** The field lines of an entity, written from `p` to `e`, yield their
      reports, in order. */
  lemma {:induction false} ScanLines(s: string, p: nat, e: nat, fs: seq<Field>, g: Guard)
    requires forall i :: 0 <= i < |fs| ==> WellFormedField(fs[i])
    requires At(s, p, FieldLines(fs)) && e == p + |FieldLines(fs)|
    ensures Scan(s, p, g) == Captures(fs, g) + Scan(s, e, g)
    decreases |fs|
  {
    if |fs| > 0 {
      var a := LinesStep(s, p, e, fs, g);
      ScanLines(s, a, e, fs[1..], g);
      ScanChain(s, p, a, e, Capture(fs[0], g), Captures(fs[1..], g), g);
    } else {
      ScanNone(s, p, g);
    }
  }

  /** A concatenation written from `p` to `q` as its two parts, the second
      from `a` on. */
  lemma AtSplit(s: string, p: nat, q: nat, x: string, y: string) returns (a: nat)
    requires At(s, p, x + y) && q == p + |x + y|
    ensures a == p + |x| && At(s, p, x)
    ensures q == a + |y| && At(s, a, y)
  {
    AtConcat(s, p, x, y);
    a := p + |x|;
  }

  /** An entity's block, written from `p` to `q`, yields the reports of its
      fields. */
  lemma ScanBlock(s: string, p: nat, q: nat, e: Entity, g: Guard)
    requires WellFormedEntity(e)
    requires At(s, p, EntityBlock(e)) && q == p + |EntityBlock(e)|
    ensures Scan(s, p, g) == Captures(e.fields, g) + Scan(s, q, g)
  {
    if |e.fields| > 0 {
      var head, body, foot := "type " + e.name + " {\n", FieldLines(e.fields), "}\n\n";
      var b := AtSplit(s, p, q, head + body, foot);
      var a := AtSplit(s, p, b, head, body);
      assert '\t' !in head;
      SkipTabFree(s, p, a, head, g);
      ScanLines(s, a, b, e.fields, g);
      SkipTabFree(s, b, q, foot, g);
    } else {
      ScanNone(s, p, g);
    }
  }

  lemma {:induction false} CapturesAppend(a: seq<Field>, b: seq<Field>, g: Guard)
    ensures Captures(a + b, g) == Captures(a, g) + Captures(b, g)
    decreases |a|
  {
    if |a| > 0 {
      assert (a + b)[0] == a[0];
      assert (a + b)[1..] == a[1..] + b;
      CapturesAppend(a[1..], b, g);
    } else {
      assert a + b == b;
    }
  }

  /** The first block of a run of blocks written from `p` to `q`, and `a`,
      where the rest begins. */
  lemma BlocksStep(s: string, p: nat, q: nat, es: seq<Entity>) returns (a: nat)
    requires |es| > 0 && EntitiesWellFormed(es)
    requires At(s, p, Blocks(es)) && q == p + |Blocks(es)|
    ensures a == p + |EntityBlock(es[0])| && At(s, p, EntityBlock(es[0])) && WellFormedEntity(es[0])
    ensures q == a + |Blocks(es[1..])| && At(s, a, Blocks(es[1..])) && EntitiesWellFormed(es[1..])
  {
    a := AtSplit(s, p, q, EntityBlock(es[0]), Blocks(es[1..]));
  }

  /** The reports of the first entity's fields come before the others'. */
  lemma AllFieldsCons(es: seq<Entity>, g: Guard)
    requires |es| > 0
    ensures Captures(AllFields(es), g) == Captures(es[0].fields, g) + Captures(AllFields(es[1..]), g)
  {
    CapturesAppend(es[0].fields, AllFields(es[1..]), g);
  }

  /** The blocks of all entities, written from `p` to `q`, yield the reports
      of all fields. */
  lemma {:induction false} ScanBlocks(s: string, p: nat, q: nat, es: seq<Entity>, g: Guard)
    requires EntitiesWellFormed(es)
    requires At(s, p, Blocks(es)) && q == p + |Blocks(es)|
    ensures Scan(s, p, g) == Captures(AllFields(es), g) + Scan(s, q, g)
    decreases |es|
  {
    if |es| > 0 {
      var a := BlocksStep(s, p, q, es);
      AllFieldsCons(es, g);
      ScanBlock(s, p, a, es[0], g);
      ScanBlocks(s, a, q, es[1..], g);
      ScanChain(s, p, a, q, Captures(es[0].fields, g), Captures(AllFields(es[1..]), g), g);
    } else {
      ScanNone(s, p, g);
    }
  }

  /** The scalar declarations hold no tab. */
  lemma HeaderTabFree()
    ensures '\t' !in Header
  {
    NoTabConcat("scalar GraphQLLong\n", "scalar GraphQLBigDecimal\n\n");
  }

  lemma NoTabConcat(x: string, y: string)
    requires '\t' !in x && '\t' !in y
    ensures '\t' !in x + y
  {
  }

  /** A text is written at its own start. */
  lemma AtWhole(s: string)
    ensures At(s, 0, s)
  {
    WrittenSelf(s, 0);
  }

  /** The scan at the end of a text finds nothing. */
  lemma ScanEnd(s: string, g: Guard)
    ensures Scan(s, |s|, g) == []
  {
  }

  /** A rendered schema as its three parts, each written after the other:
      the blocks from `a` to `b`. */
  lemma IdlLayout(es: seq<Entity>, mutations: string) returns (a: nat, b: nat)
    ensures var idl := Idl(es, mutations);
            a == |Header| && At(idl, 0, Header) &&
            At(idl, a, Blocks(es)) && b == a + |Blocks(es)| &&
            At(idl, b, mutations) && |idl| == b + |mutations|
  {
    var idl := Idl(es, mutations);
    AtWhole(idl);
    b := AtSplit(idl, 0, |idl|, Header + Blocks(es), mutations);
    a := AtSplit(idl, 0, b, Header, Blocks(es));
  }

  /** Before the blocks of a rendered schema the scan finds nothing; after
      them stands the mutation part. */
  lemma IdlFrame(es: seq<Entity>, mutations: string, g: Guard) returns (a: nat, b: nat)
    ensures var idl := Idl(es, mutations);
            At(idl, a, Blocks(es)) && b == a + |Blocks(es)| && b <= |idl| && idl[b..] == mutations &&
            Scan(idl, 0, g) == Scan(idl, a, g)
  {
    var idl := Idl(es, mutations);
    a, b := IdlLayout(es, mutations);
    HeaderTabFree();
    SkipTabFree(idl, 0, a, Header, g);
  }

  /** On a schema rendered from well-formed entities, the scan reports, field
      by field in rendering order, every referenced type the guard does not
      exclude, and then what the mutation part yields on its own. */
  lemma ScanRenderedIdl(es: seq<Entity>, mutations: string, g: Guard)
    requires EntitiesWellFormed(es)
    ensures Scan(Idl(es, mutations), 0, g) == Captures(AllFields(es), g) + Scan(mutations, 0, g)
  {
    var a, b := IdlFrame(es, mutations, g);
    ScanFramed(Idl(es, mutations), a, b, es, mutations, g);
  }

  /** A text whose scan skips to `a`, holding the blocks of `es` from `a` to
      `b` and the text `m` from `b` on, yields the blocks' captures, then
      those of `m`. */
  lemma ScanFramed(s: string, a: nat, b: nat, es: seq<Entity>, m: string, g: Guard)
    requires EntitiesWellFormed(es)
    requires At(s, a, Blocks(es)) && b == a + |Blocks(es)| && b <= |s| && s[b..] == m
    requires Scan(s, 0, g) == Scan(s, a, g)
    ensures Scan(s, 0, g) == Captures(AllFields(es), g) + Scan(m, 0, g)
  {
    ScanBlocks(s, a, b, es, g);
    ScanTail(s, b, m, g);
  }

  /** `ScanSuffix` from the start of the suffix. */
  lemma ScanTail(s: string, b: nat, m: string, g: Guard)
    requires b <= |s| && s[b..] == m
    ensures Scan(s, b, g) == Scan(m, 0, g)
  {
    ScanSuffix(s, b, m, 0, g);
  }

  /** `validateIdl(getIDL(entities))`, as written: the referenced types that do
      not begin with a built-in name and are not declared, then the undeclared
      captures of the mutation part. */
  lemma ValidateRenderedIdl(es: seq<Entity>, mutations: string)
    requires forall i :: 0 <= i < |es| ==> WellFormedEntity(es[i])
    ensures var idl := Idl(es, mutations);
            ValidateIdl(idl) ==
            Undeclared(idl, Captures(AllFields(es), AsWritten)) + Undeclared(idl, Scan(mutations, 0, AsWritten))
  {
    EntitiesWellFormedAll(es);
    ScanRenderedIdl(es, mutations, AsWritten);
    UndeclaredAppend(Idl(es, mutations), Captures(AllFields(es), AsWritten), Scan(mutations, 0, AsWritten));
  }

  /** The corrected check reports every undeclared referenced type that is not
      itself a built-in scalar, then the undeclared captures of the mutation
      part. */
  lemma ValidateCorrectedRenderedIdl(es: seq<Entity>, mutations: string)
    requires forall i :: 0 <= i < |es| ==> WellFormedEntity(es[i])
    ensures var idl := Idl(es, mutations);
            ValidateIdlCorrected(idl) ==
            Undeclared(idl, Captures(AllFields(es), Corrected)) + Undeclared(idl, Scan(mutations, 0, Corrected))
  {
    EntitiesWellFormedAll(es);
    ScanRenderedIdl(es, mutations, Corrected);
    UndeclaredAppend(Idl(es, mutations), Captures(AllFields(es), Corrected), Scan(mutations, 0, Corrected));
  }

  // ---------------------------------------------------------------------------
  // The mutation part `getMutations` writes.

  /** The schema header's one line, `mutation: Mutations`, as a field. */
  const MutationField: Field := Field("mutation", Some("Mutations"), false, false, None)

  lemma SchemaHeaderParts()
    ensures WellFormedField(MutationField)
    ensures SchemaHeader == "schema {\n" + FieldLine(MutationField) + "} \n"
  {
    MutationFieldWellFormed();
    MutationLine();
  }

  lemma MutationFieldWellFormed()
    ensures WellFormedField(MutationField)
  {
    assert WordChars("mutation");
    assert WordChars("Mutations");
  }

  lemma MutationLine()
    ensures FieldLine(MutationField) == "\tmutation: Mutations\n"
  {
    assert Open(MutationField) == "" && Marks(MutationField) == "\n";
    assert TypeText(MutationField.fieldType) == "Mutations";
  }

  /** Neither guard excludes `Mutations`. */
  lemma MutationsNotExcluded(g: Guard)
    ensures !Excluded(g, "Mutations")
  {
    BuiltinAtIff("Mutations", 0);
    AtChars("Mutations", 0, "String");
    AtChars("Mutations", 0, "Boolean");
    AtChars("Mutations", 0, "GraphQLLong");
    AtChars("Mutations", 0, "ID");
    AtChars("Mutations", 0, "GraphQLBigDecimal");
  }

  /** A text that begins with `x` has `x` written at its start. */
  lemma AtStart(s: string, x: string)
    requires StartsWith(s, x)
    ensures At(s, 0, x)
  {
    AtChars(s, 0, x);
    assert forall i :: 0 <= i < |x| ==> s[..|x|][i] == s[i];
  }

  /** The schema header yields one capture, `Mutations`. */
  lemma SchemaHeaderScan(s: string, g: Guard)
    requires StartsWith(s, SchemaHeader)
    ensures Scan(s, 0, g) == ["Mutations"] + Scan(s, |SchemaHeader|, g)
  {
    var open, line, close := "schema {\n", FieldLine(MutationField), "} \n";
    SchemaHeaderParts();
    MutationsNotExcluded(g);
    AtStart(s, SchemaHeader);
    var b := AtSplit(s, 0, |SchemaHeader|, open + line, close);
    var a := AtSplit(s, 0, b, open, line);
    SkipTabFree(s, 0, a, open, g);
    ScanLine(s, a, b, MutationField, g);
    SkipTabFree(s, b, |SchemaHeader|, close, g);
  }

  /** A text that begins with `x + y` begins with `x`, and `y` follows. */
  lemma StartsWithConcat(s: string, x: string, y: string)
    requires StartsWith(s, x + y)
    ensures StartsWith(s, x) && s[|x|..|x| + |y|] == y
  {
    assert s[..|x|] == s[..|x + y|][..|x|];
    assert s[|x|..|x| + |y|] == s[..|x + y|][|x|..];
  }

  lemma MutationsOpenType()
    ensures |MutationsOpen| == 19 && MutationsOpen[1..15] == "type Mutations"
  {
  }

  /** A mutation part begins with the schema header and holds
      `type Mutations` just after it. */
  lemma MutationsLead(m: string)
    requires StartsWith(m, SchemaHeader + MutationsOpen)
    ensures StartsWith(m, SchemaHeader) && OccursAt(m, "type Mutations", |SchemaHeader| + 1)
  {
    var h := |SchemaHeader|;
    StartsWithConcat(m, SchemaHeader, MutationsOpen);
    MutationsOpenType();
    assert m[h + 1..h + 15] == m[h..h + 19][1..15];
  }

  /** A declared type is reported by neither check. */
  lemma DeclaredNotReported(idl: string, t: string)
    requires Declared(idl, t)
    ensures t !in ValidateIdl(idl) && t !in ValidateIdlCorrected(idl)
  {
  }

  /** A schema whose mutation part begins as `getMutations` writes it
      declares `Mutations`. */
  lemma MutationPartDeclares(es: seq<Entity>, m: string)
    requires StartsWith(m, SchemaHeader + MutationsOpen)
    ensures Declared(Idl(es, m), "Mutations")
  {
    MutationsLead(m);
    TypeMutations();
    OccursInSuffix(Idl(es, m), m, "type Mutations", |SchemaHeader| + 1);
  }

  lemma TypeMutations()
    ensures "type " + "Mutations" == "type Mutations"
  {
  }

  /** What occurs in the end of a text occurs in the text. */
  lemma OccursInSuffix(s: string, m: string, sub: string, i: nat)
    requires |m| <= |s| && s[|s| - |m|..] == m && OccursAt(m, sub, i)
    ensures Contains(s, sub)
  {
    var k := |s| - |m|;
    assert s[k + i..k + i + |sub|] == s[k..][i..i + |sub|];
    ContainsWitness(s, sub, k + i);
  }

  /** With a mutation part, the schema header yields `Mutations` and the
      schema declares it, so that capture is never reported, by either
      check. */
  lemma MutationsDeclared(es: seq<Entity>, lists: seq<seq<string>>, g: Guard)
    requires |lists| > 0
    ensures var m := MutationsText(lists);
            Scan(m, 0, g) == ["Mutations"] + Scan(m, |SchemaHeader|, g)
    ensures var idl := Idl(es, MutationsText(lists));
            Declared(idl, "Mutations") && "Mutations" !in ValidateIdl(idl) && "Mutations" !in ValidateIdlCorrected(idl)
  {
    var m := MutationsText(lists);
    MutationsLead(m);
    SchemaHeaderScan(m, g);
    MutationPartDeclares(es, m);
    DeclaredNotReported(Idl(es, m), "Mutations");
  }

  // ---------------------------------------------------------------------------
  // The lookahead as written, on a type that begins with a built-in name.

  /** A text that is a single field line yields exactly the line's capture. */
  lemma ScanOneLine(f: Field, g: Guard)
    requires WellFormedField(f)
    ensures Scan(FieldLine(f), 0, g) == Capture(f, g)
  {
    var s := FieldLine(f);
    AtWhole(s);
    ScanLine(s, 0, |s|, f, g);
    ScanEnd(s, g);
  }

  /** The field of the example below, and its line. */
  const HolderField: Field := Field("x", Some("StringHolder"), false, false, None)

  lemma HolderLine()
    ensures WellFormedField(HolderField)
    ensures FieldLine(HolderField) == "\tx: StringHolder\n"
  {
    assert WordChars("x");
    assert forall i :: 0 <= i < |"StringHolder"| ==> IsWordChar("StringHolder"[i]);
  }

  /** `StringHolder` begins with a built-in name without being one. */
  lemma HolderStartsWithBuiltin()
    ensures StartsWithBuiltin("StringHolder") && !IsBuiltin("StringHolder")
  {
    assert "StringHolder"[0..6] == "String";
    assert Prefixed("StringHolder", 0, BuiltinNames[0]);
  }

  lemma HolderNotDeclared()
    ensures !Declared("\tx: StringHolder\n", "StringHolder")
  {
    OccursAtHead("\tx: StringHolder\n", "type StringHolder", 0);
  }

  /** A field of the undeclared type `StringHolder`: the check as written
      reports nothing, because the type begins with `String`; the corrected
      check reports it. */
  lemma PrefixedTypeMissed()
    ensures var s := "\tx: StringHolder\n";
            !IsBuiltin("StringHolder") && !Declared(s, "StringHolder") &&
            ValidateIdl(s) == [] && ValidateIdlCorrected(s) == ["StringHolder"]
  {
    HolderLine();
    HolderStartsWithBuiltin();
    HolderNotDeclared();
    ScanOneLine(HolderField, AsWritten);
    ScanOneLine(HolderField, Corrected);
  }
}

=== FILE: results.dfy ===
/** Failure-carrying wrappers used across the model: a Java reference that may be
    null becomes an Option, and an operation that may throw becomes a Result whose
    Failure carries the exception the source raises. */
module Results {

  /** A value that may be absent (a Java null). */
  datatype Option<+T> = None | Some(value: T) {

    /** The carried value, or the default when absent. */
    function GetOr(default: T): T {
      match this
      case Some(v) => v
      case None => default
    }
  }

  /** Either a normal return value or the exception the operation throws. */
  datatype Result<+R, +E> = Success(value: R) | Failure(error: E) {

    predicate IsFailure() {
      Failure?
    }

    function PropagateFailure<U>(): Result<U, E>
      requires Failure?
    {
      Failure(error)
    }

    function Extract(): R
      requires Success?
    {
      value
    }
  }
}

=== FILE: strings.dfy ===
/** The java.lang.String operations the modelled code relies on, restated over
    `seq<char>`: indexOf/lastIndexOf of a character, startsWith, contains,
    split on a single literal character (limit 0), replace of one character
    and the blank test of `org.meveo.commons.utils.StringUtils`. */
module Strings {
  import opened Results

  /** `p` is a prefix of `s`. */
  predicate StartsWith(s: string, p: string) {
    |p| <= |s| && s[..|p|] == p
  }

  /** `x` is a suffix of `s`. */
  predicate EndsWith(s: string, x: string) {
    |x| <= |s| && s[|s| - |x|..] == x
  }

  /** `sub` occurs in `s` starting at index `i`. */
  predicate OccursAt(s: string, sub: string, i: int) {
    0 <= i && i + |sub| <= |s| && s[i..i + |sub|] == sub
  }

  /** `s.contains(sub)`. */
  predicate Contains(s: string, sub: string) {
    exists i :: 0 <= i <= |s| - |sub| && OccursAt(s, sub, i)
  }

  lemma ContainsWitness(s: string, sub: string, i: int)
    requires OccursAt(s, sub, i)
    ensures Contains(s, sub)
  {
  }

  /** An occurrence begins with the first character of what occurs. */
  lemma OccursAtHead(s: string, sub: string, i: int)
    requires |sub| > 0
    ensures OccursAt(s, sub, i) ==> s[i] == sub[0]
  {
    if OccursAt(s, sub, i) {
      assert s[i..i + |sub|][0] == s[i];
    }
  }

  /** An occurrence inside `b` is an occurrence inside `a + b + c`. */
  lemma ContainsInConcat(a: string, b: string, c: string, sub: string)
    requires Contains(b, sub)
    ensures Contains(a + b + c, sub)
  {
    var i :| 0 <= i <= |b| - |sub| && OccursAt(b, sub, i);
    var s := a + b + c;
    assert s[|a| + i..|a| + i + |sub|] == b[i..i + |sub|];
    assert OccursAt(s, sub, |a| + i);
  }

  /** `s.indexOf(c)`: the first index holding `c`, or -1. */
  function IndexOf(s: string, c: char): (r: int)
    ensures -1 <= r < |s|
    ensures r == -1 <==> c !in s
    ensures 0 <= r ==> s[r] == c
    ensures forall j :: 0 <= j < r ==> s[j] != c
  {
    if |s| == 0 then -1
    else if s[0] == c then 0
    else
      var k := IndexOf(s[1..], c);
      if k < 0 then -1 else k + 1
  }

  /** `s.lastIndexOf(c)`: the last index holding `c`, or -1. */
  function LastIndexOf(s: string, c: char): (r: int)
    ensures -1 <= r < |s|
    ensures r == -1 <==> c !in s
    ensures 0 <= r ==> s[r] == c
    ensures forall j :: r < j < |s| ==> s[j] != c
  {
    if |s| == 0 then -1
    else if s[|s| - 1] == c then |s| - 1
    else
      var k := LastIndexOf(s[..|s| - 1], c);
      assert s == s[..|s| - 1] + [s[|s| - 1]];
      k
  }

  /** The pieces joined back with the separator in between. */
  function Join(pieces: seq<string>, d: char): string {
    if |pieces| == 0 then ""
    else if |pieces| == 1 then pieces[0]
    else pieces[0] + [d] + Join(pieces[1..], d)
  }

  /** Every piece between consecutive separators, trailing empty pieces included. */
  function Fields(s: string, d: char): (r: seq<string>)
    ensures |r| >= 1
    ensures forall i :: 0 <= i < |r| ==> d !in r[i]
    ensures Join(r, d) == s
    ensures |r| == 1 <==> d !in s
    decreases |s|
  {
    var k := IndexOf(s, d);
    if k < 0 then [s]
    else
      var rest := Fields(s[k + 1..], d);
      FieldsCons(s, d, k, rest);
      [s[..k]] + rest
  }

  /** The piece before the first separator, then the pieces after it. */
  lemma FieldsCons(s: string, d: char, k: nat, rest: seq<string>)
    requires k < |s| && s[k] == d && forall j :: 0 <= j < k ==> s[j] != d
    requires |rest| >= 1 && Join(rest, d) == s[k + 1..]
    requires forall i :: 0 <= i < |rest| ==> d !in rest[i]
    ensures var r := [s[..k]] + rest;
            |r| > 1 && (forall i :: 0 <= i < |r| ==> d !in r[i]) && Join(r, d) == s
  {
    var r := [s[..k]] + rest;
    assert r[1..] == rest;
    assert s == s[..k] + [d] + s[k + 1..];
    assert forall i :: 1 <= i < |r| ==> r[i] == rest[i - 1];
  }

  /** Drops the empty pieces at the end, as split with limit 0 does. */
  function StripTrailingEmpty(r: seq<string>): (t: seq<string>)
    ensures |t| <= |r| && t == r[..|t|]
    ensures |t| > 0 ==> t[|t| - 1] != ""
    ensures forall i :: |t| <= i < |r| ==> r[i] == ""
  {
    if |r| == 0 then r
    else if r[|r| - 1] == "" then StripTrailingEmpty(r[..|r| - 1])
    else r
  }

  /** `s.split(d)` for a separator that is a single literal character: with no
      separator in `s` the result is `[s]` (even for the empty string);
      otherwise the pieces with trailing empty pieces removed. */
  function Split(s: string, d: char): (r: seq<string>)
    ensures forall i :: 0 <= i < |r| ==> d !in r[i]
    ensures d !in s ==> r == [s]
  {
    if d !in s then [s] else StripTrailingEmpty(Fields(s, d))
  }

  /** Splitting is undone by joining, up to the dropped trailing separators. */
  lemma SplitJoin(s: string, d: char)
    ensures var f := Fields(s, d);
            Split(s, d) == f[..|Split(s, d)|] &&
            forall i :: |Split(s, d)| <= i < |f| ==> f[i] == ""
  {
  }

  /** Joining pieces that contain no separator and splitting again gives the
      pieces back, trailing empty pieces included. */
  lemma {:induction false} FieldsOfJoin(pieces: seq<string>, d: char)
    requires |pieces| >= 1
    requires forall i :: 0 <= i < |pieces| ==> d !in pieces[i]
    ensures Fields(Join(pieces, d), d) == pieces
    decreases |pieces|
  {
    if |pieces| > 1 {
      var tail := pieces[1..];
      var s := Join(pieces, d);
      assert s == pieces[0] + [d] + Join(tail, d);
      JoinHead(pieces[0], Join(tail, d), d);
      assert forall i :: 0 <= i < |tail| ==> tail[i] == pieces[i + 1];
      FieldsOfJoin(tail, d);
      assert Fields(s, d) == [pieces[0]] + Fields(Join(tail, d), d);
      assert pieces == [pieces[0]] + tail;
    }
  }

  /** In `x + [d] + y` with no `d` in `x`, the first separator follows `x`. */
  lemma JoinHead(x: string, y: string, d: char)
    requires d !in x
    ensures var s := x + [d] + y;
            IndexOf(s, d) == |x| && s[..|x|] == x && s[|x| + 1..] == y
  {
    var s := x + [d] + y;
    assert s[|x|] == d;
    assert forall j :: 0 <= j < |x| ==> s[j] == x[j];
  }

  /** The same for `Split`, when the last piece is not empty (so that nothing is
      dropped) or there is a single piece. */
  lemma SplitOfJoin(pieces: seq<string>, d: char)
    requires |pieces| >= 1
    requires forall i :: 0 <= i < |pieces| ==> d !in pieces[i]
    requires |pieces| == 1 || pieces[|pieces| - 1] != ""
    ensures Split(Join(pieces, d), d) == pieces
  {
    FieldsOfJoin(pieces, d);
  }

  /** A character that `String.trim()` removes (code point at most U+0020). */
  predicate IsTrimmed(c: char) {
    c as int <= 0x20
  }

  /** `org.meveo.commons.utils.StringUtils.isBlank`, whose source is not part
      of this model: taken to be null, or nothing left after `trim()`. */
  predicate IsBlank(s: Option<string>) {
    s.None? || forall i :: 0 <= i < |s.value| ==> IsTrimmed(s.value[i])
  }

  /** `s.replace(a, b)` for single characters. */
  function ReplaceChar(s: string, a: char, b: char): (r: string)
    ensures |r| == |s|
    ensures forall i :: 0 <= i < |s| ==> r[i] == if s[i] == a then b else s[i]
  {
    seq(|s|, i requires 0 <= i < |s| => if s[i] == a then b else s[i])
  }

  /** Replacing `a` by `b` and back restores a string that held no `b`. */
  lemma ReplaceCharBack(s: string, a: char, b: char)
    requires b !in s
    ensures ReplaceChar(ReplaceChar(s, a, b), b, a) == s
  {
  }
}

=== FILE: timer_entity_dto.dfy ===
/** The timer transfer object and its mapping to and from the timer entity: the
    default schedule of a fresh DTO, the entity-to-DTO copy, `fromDTO` (code
    selection, copy of the eight schedule fields, update in place) and `equals`
    on the code alone. Every Java `String` field may be null, hence `Option`. */
module TimerEntityDto {
  import opened Results
  import opened Strings

  /** The eight schedule and timezone fields both sides share. */
  datatype Schedule = Schedule(
    year: Option<string>,
    month: Option<string>,
    dayOfMonth: Option<string>,
    dayOfWeek: Option<string>,
    hour: Option<string>,
    minute: Option<string>,
    second: Option<string>,
    timezone: Option<string>)

  /** The persisted timer. `id` stands for the entity's identity and every other
      attribute `fromDTO` does not write. */
  datatype TimerEntity = TimerEntity(
    id: Option<int>,
    code: Option<string>,
    description: Option<string>,
    schedule: Schedule)

  /** The transfer object; `updatedCode` requests a rename on update. */
  datatype TimerEntityDto = TimerEntityDto(
    code: Option<string>,
    updatedCode: Option<string>,
    description: Option<string>,
    schedule: Schedule)

  /** A `new TimerEntity()`: no identity yet, nothing set. `TimerEntity` is
      not part of this model; that its constructor leaves every field null is
      an assumption. */
  function NewTimerEntity(): (t: TimerEntity)
    ensures t.id.None? && t.code.None? && t.description.None?
    ensures t.schedule.year.None? && t.schedule.month.None? && t.schedule.dayOfMonth.None?
    ensures t.schedule.dayOfWeek.None? && t.schedule.hour.None? && t.schedule.minute.None?
    ensures t.schedule.second.None? && t.schedule.timezone.None?
  {
    TimerEntity(None, None, None, Schedule(None, None, None, None, None, None, None, None))
  }

  /** The field initialisers of a fresh DTO: every hour on the hour, any day. */
  function DefaultSchedule(): (s: Schedule)
    ensures s.hour == Some("*") && s.minute == Some("0") && s.second == Some("0")
    ensures s.year == Some("*") && s.month == Some("*")
    ensures s.dayOfMonth == Some("*") && s.dayOfWeek == Some("*")
    ensures s.timezone.None?
  {
    Schedule(Some("*"), Some("*"), Some("*"), Some("*"), Some("*"), Some("0"), Some("0"), None)
  }

  /** `new TimerEntityDto()`. */
  function NewDto(): (d: TimerEntityDto)
    ensures d.schedule == DefaultSchedule()
    ensures d.code.None? && d.updatedCode.None? && d.description.None?
  {
    TimerEntityDto(None, None, None, DefaultSchedule())
  }

  /** `new TimerEntityDto(timerEntity)`: the business part (code, description)
      and the eight schedule fields are copied; no rename is requested. */
  function ToDto(e: TimerEntity): (d: TimerEntityDto)
    ensures d.code == e.code && d.description == e.description
    ensures d.updatedCode.None?
    ensures d.schedule == e.schedule
  {
    TimerEntityDto(e.code, None, e.description, e.schedule)
  }

  /** The code `fromDTO` writes: the requested new code unless it is blank. */
  function SelectedCode(dto: TimerEntityDto): (c: Option<string>)
    ensures !IsBlank(dto.updatedCode) ==> c == dto.updatedCode
    ensures IsBlank(dto.updatedCode) ==> c == dto.code
  {
    if IsBlank(dto.updatedCode) then dto.code else dto.updatedCode
  }

  /** `fromDTO(dto, timerEntityToUpdate)`: writes code, description and the
      schedule into the given entity (keeping everything else it carries), or
      into a fresh one when none is given. */
  function FromDto(dto: TimerEntityDto, target: Option<TimerEntity>): (t: TimerEntity)
    ensures t.code == SelectedCode(dto)
    ensures t.description == dto.description
    ensures t.schedule == dto.schedule
    ensures target.Some? ==> t.id == target.value.id
    ensures target.None? ==> t.id.None?
  {
    var base := if target.Some? then target.value else NewTimerEntity();
    base.(code := SelectedCode(dto), description := dto.description, schedule := dto.schedule)
  }

  /** A fresh DTO turned into an entity carries the default schedule. */
  lemma FreshDtoSchedule()
    ensures FromDto(NewDto(), None).schedule.hour == Some("*")
    ensures FromDto(NewDto(), None).schedule.minute == Some("0")
    ensures FromDto(NewDto(), None).schedule.second == Some("0")
    ensures FromDto(NewDto(), None).code.None?
  {
  }

  /** Entity to DTO and back onto the same entity changes nothing at all. */
  lemma RoundTripInPlace(e: TimerEntity)
    ensures FromDto(ToDto(e), Some(e)) == e
  {
  }

  /** Entity to DTO and back into a fresh entity preserves every field but the
      identity. */
  lemma RoundTripFresh(e: TimerEntity)
    ensures FromDto(ToDto(e), None) == e.(id := None)
  {
  }

  /** DTO to entity and back keeps the schedule and description, and the code is
      the selected one: the rename, when requested, is applied. */
  lemma DtoRoundTrip(dto: TimerEntityDto, target: Option<TimerEntity>)
    ensures ToDto(FromDto(dto, target)).schedule == dto.schedule
    ensures ToDto(FromDto(dto, target)).description == dto.description
    ensures IsBlank(dto.updatedCode) ==> ToDto(FromDto(dto, target)).code == dto.code
    ensures !IsBlank(dto.updatedCode) ==> ToDto(FromDto(dto, target)).code == dto.updatedCode
  {
  }

  /** `equals`: two DTOs are equal when their codes are equal, null matching null. */
  function DtoEquals(a: TimerEntityDto, b: Option<TimerEntityDto>): (r: bool)
    ensures r <==> b.Some? && a.code == b.value.code
  {
    match b
    case None => false
    case Some(o) =>
      if a.code.None? then o.code.None?
      else o.code.Some? && a.code.value == o.code.value
  }

  /** `equals` compares the code and nothing else, and is an equivalence. */
  lemma DtoEqualsIsCodeEquality(a: TimerEntityDto, b: TimerEntityDto, c: TimerEntityDto)
    ensures DtoEquals(a, Some(b)) <==> a.code == b.code
    ensures DtoEquals(a, Some(a))
    ensures DtoEquals(a, Some(b)) ==> DtoEquals(b, Some(a))
    ensures DtoEquals(a, Some(b)) && DtoEquals(b, Some(c)) ==> DtoEquals(a, Some(c))
    ensures !DtoEquals(a, None)
  {
  }
}
